=== FILE: README.md ===
# Urban land registry — a Dafny model

This project models the core of an urban land registry. The registry has a
Django REST backend (accounts, owner profiles, land parcels, ownership
records and documents) and a React frontend, whose pages talk to that
backend.

The backend half models three things:

- the database tables, as sequences of rows;
- the model defaults and the delete cascades;
- each view as a pure function from the registry, the signed-in principal
  and the query parameters to an HTTP reply.

The frontend half models each page's logic as pure functions from its
state and the server's reply to the next state or the request it sends.
That logic covers:

- form validation;
- the request payloads;
- reading the answers;
- filters and paging;
- the role gates and the navigation.

Rendering, the network and the clock are not modelled. Server answers and
the current time are parameters.

Modules, following the repository's layout:

| module | file | models |
|---|---|---|
| `Base` | base.dfy | `Option`/`Result`, filters, counting, sorted insertion, shared sequence lemmas |
| `Text` | text.dfy | decimal rendering and parsing, prefixes, ASCII lower-casing |
| `Accounts` | accounts.dfy | the user model and its manager, and the permission classes |
| `Models` | models.dfy | owner profiles, parcels, ownership records and documents, with their defaults and choices |
| `Registry` | registry.dfy | the database as tables, its integrity, the parcel's ownership properties and the delete cascades |
| `Http` | http.dfy | replies, refusals and query parameters |
| `AccountViews` | account_views.dfy | dashboard statistics, the user list and "my parcels" |
| `OwnerApi` | owner_api.dfy | the owner-profile serializer and view set |
| `LandApi` | land_api.dfy | the parcel serializer and view set |
| `RecordApi` | record_api.dfy | the ownership-record and document serializers and view sets |
| `Js` | js.dfy | the JavaScript values the pages handle |
| `Client` | client.dfy | the HTTP client's outcomes and multipart payloads |
| `Session` | session.dfy | the signed-in user as the pages see it |
| `Dashboard` | dashboard.dfy | the dashboard page |
| `ParcelList` | parcel_list.dfy | the land-parcel listing with filters, sorting, paging and the URL state |
| `LandCreate` | land_create.dfy | the parcel-registration form with its owner search |
| `Register` | register.dfy | the account sign-up page |
| `RegisterOwner` | register_owner.dfy | the owner-profile registration and editing page |
| `OwnerSearch` | owner_search.dfy | the owner search page |
| `UsersPage` | users_page.dfy | the user management page |
| `Sidebar` | sidebar.dfy | the navigation sidebar |
| `ProfileLink` | profile_link.dfy | the link to an owner's profile |

Conventions:

- Decimal fields are integers in hundredths, so 100.00 % is `FullShare = 10000`.
- Dates are day numbers.
- Text is `seq<char>`.

## Model

| member | source | states |
|---|---|---|
| Accounts.IsAdminOrOfficer | urban-land-backend/accounts/permissions.py:18-20 | the combined permission grants access exactly when the single-role admin or officer permission would; it never grants an anonymous request, on which the written check raises (see Accounts.RoleCheck) |
| Accounts.RoleCheck | urban-land-backend/accounts/permissions.py:3-20 | the role permissions as written: the check raises exactly for an anonymous request, because the anonymous user is truthy and has no role, and grants exactly a signed-in account holding one of the roles |
| Accounts.GuardedRoleCheck | urban-land-backend/accounts/permissions.py:18-20 | the corrected check with an authentication guard never raises, denies every anonymous request and decides every signed-in one as the written check does (the corrected behaviour of finding 4) |
| Accounts.RoleCheckAgrees | urban-land-backend/accounts/permissions.py:3-20 | the written check grants exactly what the admin, officer, citizen and admin-or-officer permissions grant, and differs from the guarded check exactly on anonymous requests |
| Accounts.RolesPartition | urban-land-backend/accounts/permissions.py:3-20 | for an account holding one of the declared roles, exactly one of admin, officer and owner applies; the citizen permission never grants access, since no account can hold that role |
| Accounts.CreateUser | urban-land-backend/accounts/models.py:6-16 | an empty username is refused with "Username is required"; creation succeeds exactly when the username is non-empty and not taken; the new account is active, not staff, not superuser, has a fresh id, and is appended; unique ids and usernames are preserved |
| Accounts.CreateSuperuser | urban-land-backend/accounts/models.py:18-27 | succeeds exactly when creating an admin account would; the account gets the admin role and the staff and superuser flags |
| Http.Unpermitted | urban-land-backend/accounts/permissions.py:18-20 | a request the check does not grant fails; it is a 500 exactly when the check raised, and the usual 401/403 refusal when it denied |
| Http.GuardedCheckRefusesAnonymous | urban-land-backend/accounts/permissions.py:18-20 | under the guarded check an anonymous request gets 401, and a signed-in one the same answer as under the written check |
| Models.FileUrl | urban-land-backend/owners/models.py:56-78 | a URL is reported exactly when the field holds a file, and it is that file's URL |
| Models.NewProfile | urban-land-backend/owners/models.py:5-51 | a profile created without an owner type is an "Individual" and without a status is "Active"; it keeps its user, national id and creation time |
| Models.NewParcel | urban-land-backend/land/models.py:5-58 | a parcel saved with only its required fields has status "active", no structures, is active, is registered on the current day, and its optional choice fields are empty and so valid |
| Models.NewRecord | urban-land-backend/records/models.py:50-146 | a record saved with only its required fields is a sole, 100 % purchase, pending verification, current and not transferred, and it satisfies every field validator and choice list |
| Registry.SortedRecordsPairwise | urban-land-backend/records/models.py:159-160 | the default ordering by descending acquisition date holds exactly when every earlier record was acquired no earlier than every later one |
| Registry.CurrentOwners | urban-land-backend/land/models.py:64-70 | the result holds exactly the parcel's records marked current |
| Registry.PrimaryOwner | urban-land-backend/land/models.py:73-78 | the owner reported is the owner of the first current record; in a consistent registry one is found exactly when the parcel has a current record |
| Registry.PrimaryShare | urban-land-backend/land/models.py:81-86 | the share is the first current record's percentage, or 0 without one; in a consistent registry it lies between 0 and 100 % |
| Registry.AddRecord | urban-land-backend/records/models.py:159-160 | saving a record adds exactly that record and changes no other table |
| Registry.AddRecordValid | urban-land-backend/records/models.py:39-160 | saving a record whose fields pass the validators and whose links exist, under a fresh id, keeps every integrity rule, the table's descending date order included |
| Registry.AppendProfileValid | urban-land-backend/owners/models.py:6-7 | a profile for an existing account that shares no key, account or national id with another keeps the registry consistent |
| Registry.DeleteParcel | urban-land-backend/records/models.py:39-43 | deleting a parcel removes it and exactly its records; a document survives exactly when it is attached neither to the parcel nor to a removed record; users and profiles are untouched |
| Registry.DeleteParcelValid | urban-land-backend/records/models.py:189-205 | after the cascade, which also removes documents attached to the parcel or to its records, the registry is consistent and the parcel is gone |
| Registry.DeleteProfile | urban-land-backend/records/models.py:44-48 | deleting a profile removes it and exactly its records; records transferred to it survive unchanged except that the transfer link becomes null; a document survives exactly when it is not attached to a removed record |
| Registry.DeleteProfileValid | urban-land-backend/records/models.py:121-127 | after the cascade and the nulling, the registry is consistent and no record refers to the profile as owner or as transfer target |
| Registry.DeleteUser | urban-land-backend/owners/models.py:6 | deleting an account removes it and its owner profile, with whatever deleting that profile removes; every surviving record and document is the one before with only its verifier, creator or uploader link to the account set to null, in the same order; without a profile no row is removed but the account |
| Registry.DeleteUserValid | urban-land-backend/records/models.py:135-154 | after the cascade and the nulling of verifier, creator and uploader links, the registry is consistent, the account is gone and no profile belongs to it |
| Registry.DeleteUserKeepsOthers | urban-land-backend/owners/models.py:6 | every other account survives the deletion |
| AccountViews.TotalMarketValue | urban-land-backend/accounts/views.py:58-60 | parcels without a market value are skipped and an empty sum is 0; with no negative values the total is not negative |
| AccountViews.TotalMarketValueSingle | urban-land-backend/accounts/views.py:58-60 | one parcel contributes its market value, or 0 when it has none |
| AccountViews.TotalMarketValueAppend | urban-land-backend/accounts/views.py:58-60 | the total of two tables joined is the sum of their totals, so the total is the sum of the parcels' values |
| AccountViews.TotalMarketValueAdd | urban-land-backend/accounts/views.py:58-60 | adding a parcel raises the total by exactly its value, or 0 when it has none |
| AccountViews.RecentOwners | urban-land-backend/accounts/views.py:63 | as many profiles as there are, up to five, taken from the table with no profile shown more often than the table holds it |
| AccountViews.RecentOwnersAreNewest | urban-land-backend/accounts/views.py:63 | the recent owners are newest first, and a profile left out was created no later than the fifth |
| AccountViews.DashboardStats | urban-land-backend/accounts/views.py:22-99 | an anonymous request is refused with 401; a signed-in account other than admin or officer gets all zeros; staff get the table sizes, the number of active and of inactive parcels, the number of accounts of each role, the summed market value, no pending parcels, and the newest five profiles as activities |
| AccountViews.ActivePlusInactive | urban-land-backend/accounts/views.py:45-47 | the active and inactive parcel counts add up to the number of parcels |
| AccountViews.DistributionSums | urban-land-backend/accounts/views.py:33-38 | when every account holds a declared role, the role distribution adds up to the number of accounts |
| AccountViews.RecentActivitiesNewestFirst | urban-land-backend/accounts/views.py:62-72 | the activities name the recent owners one for one, in the same order |
| AccountViews.UserList | urban-land-backend/accounts/views.py:113-123 | only accounts with the staff flag are answered; without a username every account is listed, with one exactly the accounts of that name |
| AccountViews.UserListAtMostOne | urban-land-backend/accounts/models.py:37 | usernames are unique, so a username filter lists one account exactly when the name is taken, and none otherwise |
| AccountViews.MyParcels | urban-land-backend/accounts/views.py:126-152 | anonymous requests are refused; other roles and owners without a profile get an empty list; every parcel listed exists |
| AccountViews.MyParcelsAreCurrentHoldings | urban-land-backend/accounts/views.py:143-148 | for an owner with a profile, a parcel is listed exactly when one of its current records belongs to that profile |
| AccountViews.HoldsIffCurrentOwner | urban-land-backend/accounts/views.py:143-148 | a profile holds a parcel through a current record exactly when it is among the parcel's current owners |
| OwnerApi.FullName | urban-land-backend/owners/serializers.py:58-60 | the full name is empty exactly when every name part is; for each of the seven other combinations of empty and non-empty first, middle and last name it is the non-empty parts joined by single spaces, in that order |
| OwnerApi.JoinedNameParts | urban-land-backend/owners/serializers.py:59-60 | the three name parts with the empty ones dropped, joined by spaces, is the expected text for each of the eight combinations of empty parts |
| OwnerApi.ProfileImageUrls | urban-land-backend/owners/serializers.py:62-80 | each of the four image URLs is null exactly when its file field is empty |
| OwnerApi.LandsOf | urban-land-backend/owners/serializers.py:91-110 | one entry per record, in order, carrying that record's parcel, share and acquisition date; the listing fails exactly when some record's parcel cannot be loaded |
| OwnerApi.OwnedLands | urban-land-backend/owners/serializers.py:111-112 | the listing is empty when loading a parcel fails |
| OwnerApi.OwnedLandsComplete | urban-land-backend/owners/serializers.py:82-110 | in a consistent registry the owned lands are exactly the owner's current records, one entry each, with the parcel and share of that record |
| OwnerApi.CreateProfile | urban-land-backend/owners/serializers.py:114-132 | no username gives "Username is required"; a name with no owner-role account gives "User not found or user is not an owner"; an account that already has a profile gives "Owner profile already exists for this user"; on success the new profile belongs to that account, has a fresh key and an unused national id, carries the model defaults, and is the only change |
| OwnerApi.CreateProfileValid | urban-land-backend/owners/models.py:6-7 | a successful creation keeps the registry consistent: one profile per account and distinct national ids |
| OwnerApi.ValidateCreate | urban-land-backend/owners/models.py:7-51 | validation passes exactly when a username, first name, last name, national id and permanent address are given and not blank once stripped of surrounding white space, the stripped national id is not taken, the gender is given and one of its choices, and an owner type or status that is given is one of its choices; the validated username and text fields are the stripped ones; a missing username is reported on `username`, a blank first name as blank, and a uniqueness refusal only for a taken national id |
| OwnerApi.PaddedUsernameValidatesAlike | urban-land-backend/owners/serializers.py:7 | a username with a leading space validates exactly as the username without it |
| OwnerApi.SameStrippedUsernameValidatesAlike | urban-land-backend/owners/serializers.py:7 | two usernames that are equal once stripped of surrounding white space validate alike |
| OwnerApi.TextProblem | urban-land-backend/owners/models.py:8-10 | a required text field passes exactly when it is given and not empty once stripped of surrounding white space; a missing one is "required", a blank one "blank" |
| OwnerApi.ChoiceProblem | urban-land-backend/owners/models.py:12 | a choice field passes exactly when it is given (or optional) and one of the choices; another value is refused as not a valid choice |
| OwnerApi.ValidatedProfileValid | urban-land-backend/owners/models.py:7-51 | a profile built from validated data has non-empty national id, names and address, declared gender, owner type and status, and a national id no other profile holds |
| OwnerApi.VisibleProfiles | urban-land-backend/owners/views.py:17-34 | only existing profiles are listed |
| OwnerApi.OwnerSeesOnlyOwnProfile | urban-land-backend/owners/views.py:26-27 | an owner's listing holds its own profile and nothing else, whatever the query asks |
| OwnerApi.StaffVisibility | urban-land-backend/owners/views.py:21-34 | admins and officers see exactly the profiles of the given username, or every profile without one; any other role sees nothing |
| OwnerApi.SearchableProfiles | urban-land-frontend/src/pages/OwnerSearch.tsx:29-39 | the listing the search page relies on: exactly the visible profiles whose national id and first name equal the values given, each filter applying only when it is given (the corrected behaviour of finding 2) |
| OwnerApi.SearchableWithoutFilters | urban-land-backend/owners/views.py:29-31 | without a national id or first name the corrected listing equals the as-written one |
| OwnerApi.CreateNeedsStaffFlag | urban-land-backend/owners/views.py:36-43 | creation is allowed exactly for accounts with the staff flag, so an admin-role account without it is refused; any signed-in account may list, update and search |
| OwnerApi.CreateView | urban-land-backend/owners/views.py:45-50 | callers without the staff flag are refused with 401 or 403; a validation failure answers 400 with that field's error; a success answers 201 with what the serializer created, and the profile satisfies every field declaration; once the fields validate, the view succeeds exactly when the serializer does |
| OwnerApi.CreateViewRefusals | urban-land-backend/owners/serializers.py:114-132 | once field validation passes, the serializer can refuse only an unknown or non-owner account or an account that already has a profile; the missing-username and duplicate-national-id branches are never reached |
| OwnerApi.ApplyChanges | urban-land-backend/owners/serializers.py:134-141 | an update never changes the linked account, the key or the creation date |
| OwnerApi.ApplyChangesNationalId | urban-land-backend/owners/serializers.py:134-141 | after an update the national id is the old one or the stripped value of one a change sets, and the old one when no change sets it |
| OwnerApi.ApplyChangesKeepsValid | urban-land-backend/owners/serializers.py:134-141 | changes that pass their field checks keep a valid profile valid |
| OwnerApi.ChangeProblem | urban-land-backend/owners/models.py:7-51 | a supplied field passes exactly when a required text field is not blank once stripped of surrounding white space and a choice field is one of its choices; the optional fields always pass |
| OwnerApi.SetFieldKeepsValid | urban-land-backend/owners/serializers.py:138-139 | storing the stripped value of one field that passes its check keeps a valid profile valid |
| OwnerApi.StoredChangeKeepsKeys | urban-land-backend/owners/serializers.py:134-141 | storing one change keeps the account link, key and creation date, and sets the national id to the stripped value of a national-id change only |
| OwnerApi.ChangeVerdict | urban-land-backend/owners/views.py:62-63 | one supplied change passes exactly when its field check passes and, for a national id, no other profile holds the stripped number; a national id that passes its field check can be refused only as not unique |
| OwnerApi.ChangesProblem | urban-land-backend/owners/views.py:62-63 | the partial update's validation passes exactly when every supplied field passes its check and no supplied national id, once stripped, is held by another profile |
| OwnerApi.UsernameChangesIgnored | urban-land-backend/owners/serializers.py:136 | changes that only name a username leave the profile as it was |
| OwnerApi.UpdateView | urban-land-backend/owners/views.py:52-65 | an anonymous caller gets 401; a profile outside the caller's listing gets 404; once the profile is found and the caller may edit it, the update succeeds exactly when the supplied fields validate; a success answers 200 and replaces exactly that profile with the changed one, leaving every other table as it was and keeping a valid profile valid |
| OwnerApi.OwnerUpdateNeverForbidden | urban-land-backend/owners/views.py:55-60 | an owner is never answered 403, because its listing already holds only its own profile; what it updates is its own profile |
| OwnerApi.UpdateReplacesOne | urban-land-backend/owners/views.py:62-65 | a successful update replaces the one stored profile with that key and nothing else |
| OwnerApi.UpdateViewValid | urban-land-backend/owners/models.py:6-7 | a successful update keeps the registry consistent |
| OwnerApi.UpdatedNationalIdFree | urban-land-backend/owners/models.py:7 | after accepted changes no other profile holds the profile's national id |
| OwnerApi.SearchView | urban-land-backend/owners/views.py:36-43 | as written any signed-in caller is answered, since the permission override ignores the action's own staff-only declaration; anonymous callers get 401; without a username the answer is 400 "username required"; the profiles returned are exactly those whose account has that username |
| OwnerApi.SearchMatchesStaffListing | urban-land-backend/owners/views.py:67-76 | for admins and officers the search answers what the listing with that username answers |
| OwnerApi.SearchLeaksToOwners | urban-land-backend/owners/views.py:67-76 | an owner account without the staff flag searching another account's username receives that account's profile, which its own listing never shows it |
| OwnerApi.SearchViewStaffOnly | urban-land-backend/owners/views.py:68 | the search with its declared staff-only permission: callers without the staff flag are refused with 401 or 403, staff get the search as written (the corrected behaviour of finding 5) |
| OwnerApi.StaffOnlySearchKeepsProfilesPrivate | urban-land-backend/owners/views.py:68 | under the staff-only permission only staff callers are answered, a staff caller giving a username always is, and an owner without the flag gets 403 |
| LandApi.OwnerName | urban-land-backend/land/serializers.py:42-54 | the owner name is the first current record's owner as "first last", or "No Owner" when no owner is found |
| LandApi.NoOwnerIffNoCurrentRecord | urban-land-backend/land/serializers.py:44-54 | in a consistent registry "No Owner" is reported for a parcel without current records; with one, the name is that of the first current record's owner |
| LandApi.ExposedParcelFields | urban-land-backend/land/serializers.py:11-40 | the exposed keys are exactly the serializer's field list |
| LandApi.ExposedParcelFieldsFacts | urban-land-backend/land/serializers.py:11-40 | the list names `parcel_id` and `owner_name` but not `id` or `land_use_type`; it has 27 entries because `land_use_zone` is listed twice |
| LandApi.ParcelJson | urban-land-backend/land/serializers.py:5-54 | the serialized parcel is an object keyed by `parcel_id`, with no `id` key, whose `owner_name` is the computed owner name |
| LandApi.ParcelJsonKeyOrder | urban-land-backend/land/serializers.py:11-40 | the modelled keys come in the serializer's field order |
| LandApi.ParcelJsonDistinct | urban-land-backend/land/serializers.py:21-28 | no key is emitted twice, although the field list repeats one |
| LandApi.ParcelJsonExposed | urban-land-backend/land/serializers.py:11-40 | every emitted key is one of the declared fields |
| LandApi.ParcelQuery | urban-land-backend/land/views.py:61-98 | the filters only remove parcels |
| LandApi.AbsentFiltersKeepAll | urban-land-backend/land/views.py:61-98 | with none of the four parameters given, every parcel is listed |
| LandApi.ParcelQueryIsConjunction | urban-land-backend/land/views.py:64-96 | applying the filters one after another lists, in table order, exactly the parcels that pass all four: held currently by the given owner id, held currently by an owner whose first, last or middle name contains the text ignoring case, and zoned as each zone parameter says |
| LandApi.ParcelQueryMembership | urban-land-backend/land/views.py:64-96 | a parcel is listed exactly when it passes all four filters |
| LandApi.ZoneFiltersClash | urban-land-backend/land/views.py:88-96 | both zone parameters filter the same column, so two different values list nothing |
| LandApi.EffectiveOrdering | urban-land-backend/land/views.py:47-59 | the ordering used is the requested term when it names an ordering field, with or without a leading minus; otherwise it is the default, newest first |
| LandApi.ListParcels | urban-land-backend/land/views.py:14-98 | anonymous requests are refused; signed-in ones get a permutation of the filtered parcels, ordered by the effective ordering term |
| LandApi.OrderParcels | urban-land-backend/land/views.py:47-59 | ordering keeps the same parcels; a modelled column is sorted from the largest value down for a "-" term and from the smallest up otherwise; other columns keep table order |
| LandApi.DefaultListingNewestFirst | urban-land-backend/land/views.py:58-59 | without an ordering parameter the listing runs from the newest parcel to the oldest |
| LandApi.DefaultOrderNewestFirst | urban-land-backend/land/views.py:58-59 | the default term `-date_created` puts any rows newest first |
| LandApi.ListedIffFiltered | urban-land-backend/land/views.py:61-98 | a parcel is listed exactly when it passes the filters, whatever the ordering |
| LandApi.ParcelOwners | urban-land-backend/land/views.py:136-153 | an anonymous caller gets 401; a parcel outside the filtered listing gets 404; a success has one entry per current record, in order, with that record's share and acquisition date |
| LandApi.ParcelOwnersAgreeWithParcel | urban-land-backend/land/models.py:64-86 | in a consistent registry every entry names an existing owner, the first entry is the parcel's primary owner with its share, and the list is empty exactly when the parcel has no primary owner |
| RecordApi.DurationDays | urban-land-backend/records/serializers.py:22-25 | a duration is reported exactly when the record has a transfer date, and it is the number of days from acquisition to transfer |
| RecordApi.IsActive | urban-land-backend/records/serializers.py:27-28 | an active record is current and no longer pending verification |
| RecordApi.ActiveRecordsAreCurrent | urban-land-backend/records/serializers.py:27-28 | a record is active exactly when it is among its parcel's current records and verified |
| RecordApi.ValidatePercentage | urban-land-backend/records/serializers.py:30-38 | a share is accepted exactly when it is missing or between 0 and 100; the refusal is "Must be between 0 and 100." |
| RecordApi.ValidateRecord | urban-land-backend/records/models.py:50-134 | the field validation accepts exactly the inputs with an acquisition date, a share within 0..100 when one is given, declared choices for the ownership type, acquisition type and verification status, and a transfer type that is absent, empty or one of its choices |
| RecordApi.BlankTransferTypeAccepted | urban-land-backend/records/models.py:109-119 | an empty transfer type validates exactly as an absent one |
| RecordApi.PercentageErrorUnreachable | urban-land-backend/records/serializers.py:33-36 | the serializer's own share check never fires, because the field validators refuse an out-of-range share first |
| RecordApi.SaveRecord | urban-land-backend/records/serializers.py:40-46 | without a parcel or an owner the database refuses the row; otherwise one record is inserted under a fresh id, created by the requesting user, with the given links, transfer details and verifier, and the model defaults for every field left out |
| RecordApi.OptionalLinksProblem | urban-land-backend/records/models.py:121-141 | the optional `transfer_to` and `verified_by` links pass exactly when each that is given names an existing profile, respectively account |
| RecordApi.Unadmitted | urban-land-backend/records/views.py:10-12 | a request the admin-or-officer permission does not grant fails: an anonymous one with a 500, because the check raises, a signed-in one with 403 |
| RecordApi.CreateRecordAsWritten | urban-land-backend/records/serializers.py:8-19 | the endpoint as written never succeeds, because the parcel and owner fields are read-only |
| RecordApi.CreateRecordAsWrittenFails | urban-land-backend/records/serializers.py:8-13 | for staff, a request whose fields and optional links validate fails with the parcel's NOT NULL error, and any other with 400 |
| RecordApi.LandCreateOwnershipExample | urban-land-frontend/src/pages/land/LandCreate.tsx:264-277 | the ownership request the parcel form sends fails as written and succeeds under the corrected serializer |
| RecordApi.CreateRecord | urban-land-backend/records/views.py:10-12 | callers other than admins and officers get what the permission answers (500 when anonymous, else 403); staff requests succeed exactly when the parcel and owner exist, the optional transfer and verifier links exist and the fields validate; a missing or unknown parcel or owner gives 400; a success inserts one record, created by the caller, carrying the given links, transfer details and verifier, and passing every field validator |
| RecordApi.CreateRecordValid | urban-land-backend/records/models.py:159-160 | a successful creation keeps the registry consistent, the date order included |
| RecordApi.DeleteRecord | urban-land-backend/records/models.py:190-196 | deleting a record keeps exactly the other records, in order, and exactly the documents not attached to it; users, profiles and parcels are untouched |
| RecordApi.DeleteRecordValid | urban-land-backend/records/models.py:190-196 | after the cascade the registry is consistent |
| RecordApi.RecordQuery | urban-land-backend/records/views.py:14-37 | exactly the records matching every given filter are listed: owner id, parcel id, current only when `current_only` is "true" in any case, and verification status |
| RecordApi.ListRecords | urban-land-backend/records/views.py:10-12 | only admins and officers are answered, with the filtered records; anonymous callers get 500 and other roles 403 |
| RecordApi.NoFilterListsAll | urban-land-backend/records/views.py:14-37 | with no filter given every record is listed |
| RecordApi.CurrentOnlyOtherwiseIgnored | urban-land-backend/records/views.py:28-30 | any `current_only` value other than "true" in some case is the same as leaving it out |
| RecordApi.ParcelKeyIgnored | urban-land-backend/records/views.py:22-25 | the view filters on `parcel_id`, so a `parcel` parameter changes nothing |
| RecordApi.CurrentOwnersAction | urban-land-backend/records/views.py:39-44 | only staff are answered, and only current records are returned; anonymous callers get 500 and other roles 403 |
| RecordApi.CurrentOwnersIsCurrentOnly | urban-land-backend/records/views.py:39-44 | the action lists what the listing lists with `current_only=true` |
| RecordApi.OwnerHistory | urban-land-backend/records/views.py:46-58 | staff without `owner_id` get 400 "owner_id parameter is required"; the answer succeeds exactly for staff giving one; anonymous callers get 500 and other roles 403 |
| RecordApi.ParcelHistory | urban-land-backend/records/views.py:60-72 | staff without `parcel_id` get 400 "parcel_id parameter is required"; the answer succeeds exactly for staff giving one; anonymous callers get 500 and other roles 403 |
| RecordApi.OwnerHistoryIgnoresOtherFilters | urban-land-backend/records/views.py:56 | the owner history lists all of the owner's records, whatever other filters the query carries |
| RecordApi.ParcelHistoryIgnoresOtherFilters | urban-land-backend/records/views.py:70 | the parcel history lists all of the parcel's records, whatever other filters the query carries |
| RecordApi.DocumentFileUrl | urban-land-backend/records/serializers.py:68-71 | the uploaded file's URL when there is a file, else the stored URL |
| RecordApi.DocumentFileName | urban-land-backend/records/serializers.py:73-76 | a name is reported exactly when there is a file, and it is the last path segment of the file's name: a suffix without '/' that starts the name or follows a '/' |
| RecordApi.CreateDocument | urban-land-backend/records/serializers.py:57-83 | staff requests succeed exactly when the document type is a declared choice and the optional record, parcel and verifier links name existing rows; the new document comes first, is uploaded by the caller, has a fresh id and the verification flag and verifier the request gives (unverified by default); anonymous callers get 500 and other roles 403 |
| RecordApi.CreateDocumentValid | urban-land-backend/records/models.py:189-205 | a successful upload keeps the registry consistent |
| RecordApi.DocumentQuery | urban-land-backend/records/views.py:80-98 | exactly the documents matching every given filter are listed: ownership record, related parcel and document type |
| RecordApi.ListDocuments | urban-land-backend/records/views.py:75-78 | only staff are answered, with the filtered documents; anonymous callers get 500 and other roles 403 |
| RecordApi.AnonymousRequestsFail | urban-land-backend/accounts/permissions.py:18-20 | as written every anonymous request to the record and document endpoints fails with the 500 raised by the role check (the as-written half of finding 4) |
| RecordApi.DocumentParcelFilterUsesLink | urban-land-backend/records/views.py:88-91 | the parcel filter uses the document's own parcel link, so a document attached only through a record is not listed |
| LandCreate.InitialForm | urban-land-frontend/src/pages/land/LandCreate.tsx:36-59 | the form starts with every field of the parcel form, in declaration order |
| LandCreate.ValidateForm | urban-land-frontend/src/pages/land/LandCreate.tsx:202-218 | an error is reported for a required field exactly when its check fails (owner, location, a positive area, land use type, cadastral number, zone), and for no other key |
| LandCreate.ValidIffComplete | urban-land-frontend/src/pages/land/LandCreate.tsx:202-218 | the form validates exactly when all six required fields pass |
| LandCreate.ParcelPayloadKeys | urban-land-frontend/src/pages/land/LandCreate.tsx:237-255 | the parcel payload never carries the selected owner, and has a part for any other key exactly when the form holds a filled-in value under it |
| LandCreate.ParcelPayloadCarries | urban-land-frontend/src/pages/land/LandCreate.tsx:247-253 | a filled-in boolean is sent as "true" or "false", and a file under `parcel_file` is uploaded as that file |
| LandCreate.ParcelIdOf | urban-land-frontend/src/pages/land/LandCreate.tsx:262 | the new parcel's id is `parcel_id` when it is truthy, else `id` |
| LandCreate.ParcelIdOfServer | urban-land-backend/land/serializers.py:11-40 | against the serializer's answer the id is the parcel's key; a key of 0 falls through to the absent `id` and gives undefined |
| LandCreate.OwnershipRequestAccepted | urban-land-frontend/src/pages/land/LandCreate.tsx:264-277 | read by the endpoint, the ownership request is a sole, 100 % current purchase for the given parcel and owner, dated the registration date or today, with no transfer details or verifier, and passes the field validation |
| LandCreate.NotSent | urban-land-frontend/src/pages/land/LandCreate.tsx:264-277 | the ownership request has no key starting with `t` or `v`, so the transfer fields and the verifier are absent from it |
| LandCreate.NoVerificationStatus | urban-land-frontend/src/pages/land/LandCreate.tsx:265-275 | the ownership request sends no verification status, so the record starts pending |
| LandCreate.ErrorsOf | urban-land-frontend/src/pages/land/LandCreate.tsx:284-292 | the form errors have exactly the keys of the error body; each value is the body's value, with arrays joined by ", " |
| LandCreate.DrfErrorsMapped | urban-land-frontend/src/pages/land/LandCreate.tsx:287-291 | a one-message field error becomes that message, and a two-message one the two joined by ", " |
| LandCreate.Submit | urban-land-frontend/src/pages/land/LandCreate.tsx:220-299 | without an owner only the "select an owner" alert shows; an incomplete form sends nothing and shows errors; a complete one posts the parcel first and then, only after the parcel succeeds, the ownership record for the new parcel id and the selected owner; it navigates to the parcel list exactly when both succeed |
| LandCreate.SearchOwners | urban-land-frontend/src/pages/land/LandCreate.tsx:117-179 | a blank query sends nothing and clears the results; an answered search shows the list it answered, bare or under `results`; when both the search and the fallback fail the results are empty |
| LandCreate.FallbackAgrees | urban-land-frontend/src/pages/land/LandCreate.tsx:164-171 | when the first search fails, the fallback's list is shown, read the same way |
| LandCreate.OnSearchChange | urban-land-frontend/src/pages/land/LandCreate.tsx:182-192 | typing sets the query, forgets the chosen owner and the selected id, keeps every other field, and clears the results only when the text is blank |
| LandCreate.OnSelectOwner | urban-land-frontend/src/pages/land/LandCreate.tsx:195-200 | choosing an owner records it and its id in the form, clears the results, and keeps the query and every other field |
| LandCreate.EditingDropsOwner | urban-land-frontend/src/pages/land/LandCreate.tsx:182-186 | after editing the search text, submitting only shows the "select an owner" alert |
| LandCreate.ChosenOwnerIsRecorded | urban-land-frontend/src/pages/land/LandCreate.tsx:195-196 | after choosing an owner and a successful parcel post, the ownership request names that owner's id |
| ParcelList.SortFromUrl | urban-land-frontend/src/pages/land/LandParcels.tsx:63-71 | a sort choice is read exactly for "value", "area" and "date"; "asc" gives the ascending choice and any other order the descending one |
| ParcelList.DecodeUrl | urban-land-frontend/src/pages/land/LandParcels.tsx:49-73 | each filter present in the URL replaces the state's, and an absent one leaves it; the sort changes only for a recognised `sort`, e.g. `value` with `asc` gives "value_asc" |
| ParcelList.SortToUrl | urban-land-frontend/src/pages/land/LandParcels.tsx:172-183 | the default "newest" writes no sort; every other menu choice does |
| ParcelList.EncodeUrl | urban-land-frontend/src/pages/land/LandParcels.tsx:153-189 | the URL carries a filter exactly when it differs from its default, with the state's value; the page only past the first; `sort` and `order` together exactly when the sort is not the default |
| ParcelList.InitialStateWritesNothing | urban-land-frontend/src/pages/land/LandParcels.tsx:40-44 | the page's initial state leaves the URL empty |
| ParcelList.SortRoundTrip | urban-land-frontend/src/pages/land/LandParcels.tsx:63-71 | each menu sort other than "newest" is written as a pair that reads back as that sort |
| ParcelList.UrlRoundTrip | urban-land-frontend/src/pages/land/LandParcels.tsx:49-189 | a state the page can reach, written to the URL and read back on a fresh page, is the same state |
| ParcelList.Ordering | urban-land-frontend/src/pages/land/LandParcels.tsx:99-122 | every sort is sent as an ordering the backend accepts; an unknown one falls back to newest first |
| ParcelList.OrderingInjective | urban-land-frontend/src/pages/land/LandParcels.tsx:99-122 | different menu sorts ask for different orderings |
| ParcelList.FetchParams | urban-land-frontend/src/pages/land/LandParcels.tsx:79-122 | a filter is sent exactly when it is not "all" or empty, the status lower-cased; the page size is always 12 and the ordering is the sort's |
| ParcelList.BackendHonoursOrdering | urban-land-backend/land/views.py:47-59 | the backend uses exactly the ordering the page asks for |
| ParcelList.OnStatusChange | urban-land-frontend/src/pages/land/LandParcels.tsx:192-195 | a new status filter goes back to the first page and changes nothing else |
| ParcelList.OnTypeChange | urban-land-frontend/src/pages/land/LandParcels.tsx:197-200 | a new type filter goes back to the first page and changes nothing else |
| ParcelList.OnSearchChange | urban-land-frontend/src/pages/land/LandParcels.tsx:202-205 | a new search goes back to the first page and changes nothing else |
| ParcelList.OnSortChange | urban-land-frontend/src/pages/land/LandParcels.tsx:207-210 | a new sort goes back to the first page and changes nothing else |
| ParcelList.FilterChangeDropsPage | urban-land-frontend/src/pages/land/LandParcels.tsx:168-170 | after a filter or sort change the URL carries no page |
| ParcelList.NextPage | urban-land-frontend/src/pages/land/LandParcels.tsx:213-218 | the page advances by one exactly when it is below the page count, never beyond it, and nothing else changes |
| ParcelList.PrevPage | urban-land-frontend/src/pages/land/LandParcels.tsx:220-225 | the page goes back by one exactly when it is past the first, and nothing else changes |
| ParcelList.PagingStaysInRange | urban-land-frontend/src/pages/land/LandParcels.tsx:213-225 | paging keeps the page at least 1 and, from within range, at most the page count; going back undoes a step forward |
| ParcelList.ReadListing | urban-land-frontend/src/pages/land/LandParcels.tsx:126-135 | a paginated answer gives its results and the fewest pages of 12 that hold the count; a bare list is shown whole on one page |
| ParcelList.PagesOfCount | urban-land-frontend/src/pages/land/LandParcels.tsx:129-130 | a count of 0 gives no pages, and a count from 1 to 12 gives exactly one |
| Dashboard.CardRoute | urban-land-frontend/src/pages/Dashboard.tsx:88-130 | the users card leads admins to the user list and everyone else to the owners page; the owners and lands cards lead to their lists; the three status cards lead to the parcel list filtered by status; the value card leads to the parcel list sorted by value, descending; any other card leads nowhere |
| Dashboard.LandValueCardSortsByValue | urban-land-frontend/src/pages/Dashboard.tsx:122-124 | the value card's link, read by the parcel list, changes only the sort, to "value_desc", and the list asks the backend for descending market value |
| Dashboard.ActiveCardAsksForDefaultStatus | urban-land-frontend/src/pages/Dashboard.tsx:107-109 | the active card's link makes the parcel list ask for the status a new parcel gets by default, "active" |
| Dashboard.RolePanel | urban-land-frontend/src/pages/Dashboard.tsx:133-431 | the admin, officer and owner panels show exactly for their roles, and nothing shows without a user or for any other role |
| Dashboard.StaffSectionsOnlyForStaff | urban-land-frontend/src/pages/Dashboard.tsx:858 | whoever sees the staff sections sees the admin or officer panel; an owner never sees them |
| Dashboard.ReadStats | urban-land-frontend/src/pages/Dashboard.tsx:45-62 | a count that is missing or falsy is shown as 0 and a truthy one as sent; a missing activity list is empty and a missing distribution is all zeros |
| Dashboard.ReadStatsDefaults | urban-land-frontend/src/pages/Dashboard.tsx:51-61 | a numeric pending count stays numeric, and the registrations are a list whenever the answer sends a list or nothing |
| Dashboard.ReadStatsOfServer | urban-land-backend/accounts/views.py:87-99 | reading the backend's own answer shows its counts unchanged, and shows the registrations, which the backend never sends, as empty |
| Dashboard.CompletionPercent | urban-land-frontend/src/pages/Dashboard.tsx:749-753 | with at most one registered owner the rate is 100 times the number of profiles, since the divisor is at least 1; when the profiles do not outnumber the registered owners the rate lies between 0 and 100 |
| Dashboard.RoundDivRange | urban-land-frontend/src/pages/Dashboard.tsx:740-744 | rounding a quotient that lies between 0 and a bound stays between 0 and that bound |
| Register.DefaultRoleIsBackendDefault | urban-land-frontend/src/pages/Register.tsx:6-11 | the form's initial role is "owner", the backend's default role |
| Register.UsernameProblem | urban-land-frontend/src/pages/Register.tsx:26-33 | a blank username is "required", a shorter than 3 one "too short", and one with a character other than a letter, digit or underscore is refused; a username passes exactly when it has at least 3 characters, all of them word characters |
| Register.PasswordProblem | urban-land-frontend/src/pages/Register.tsx:35-39 | an empty password is "required" and a shorter than 6 one "too short"; a password passes exactly when it has at least 6 characters |
| Register.ValidateForm | urban-land-frontend/src/pages/Register.tsx:23-47 | at most one error per field: the username's and the password's exactly when their checks fail, and the confirmation's exactly when the two passwords differ |
| Register.ValidIff | urban-land-frontend/src/pages/Register.tsx:23-47 | the form validates exactly when the username has at least 3 word characters, the password at least 6 characters, and the confirmation matches |
| Register.AcceptedUsernameHasNoSpace | urban-land-frontend/src/pages/Register.tsx:26-30 | an accepted username contains no whitespace |
| Register.AcceptedFormCreatesUser | urban-land-backend/accounts/serializers.py:19-25 | for a form the page accepts, the backend creates the account exactly when the username is not taken |
| Register.RequestBody | urban-land-frontend/src/pages/Register.tsx:61-65 | the request carries the username, password and role, in that order, and never the confirmation |
| Register.FailureMessage | urban-land-frontend/src/pages/Register.tsx:73-76 | the error shown is the body's `message` when truthy, else the first `username` error when truthy, else "Registration failed. Please try again." |
| Register.FailureMessageCases | urban-land-frontend/src/pages/Register.tsx:73-76 | a username error from the backend is shown as sent, and a lost connection shows the default text |
| Register.Submit | urban-land-frontend/src/pages/Register.tsx:49-82 | a request is sent exactly when the form validates, and otherwise the field errors show; success exactly when the request succeeds; otherwise the general error is the failure message |
| RegisterOwner.SearchFailure | urban-land-frontend/src/pages/RegisterOwner.tsx:195-216 | a 404 means the user is not registered and a 401 that the session ended; a network error otherwise reads as offline; any other failure shows the body's `detail` first, and its text is never empty |
| RegisterOwner.SearchUser | urban-land-frontend/src/pages/RegisterOwner.tsx:87-220 | a blank username stops with a prompt and changes nothing else; any problem leaves the form, the found flag and the image URLs as they were; the form unlocks only when the user search answered and its first user has the role "owner" |
| RegisterOwner.OnlyOwnersUnlock | urban-land-frontend/src/pages/RegisterOwner.tsx:111-138 | the form unlocks exactly for a user with role "owner"; a missing role and any other role are reported differently; an empty answer is "not found" |
| RegisterOwner.LoadedFormFields | urban-land-frontend/src/pages/RegisterOwner.tsx:153-165 | for an existing profile the form takes every profile field over the empty form; it keeps the found user's name and clears the picked images |
| RegisterOwner.ImageOverlay | urban-land-frontend/src/pages/RegisterOwner.tsx:156-165 | the overlay sets only the username and the four image fields |
| RegisterOwner.OverlayDistinct | urban-land-frontend/src/pages/RegisterOwner.tsx:156-165 | the overlay names no key twice |
| RegisterOwner.FreshFormFields | urban-land-frontend/src/pages/RegisterOwner.tsx:176-183 | without a profile the form is the empty form with the found user's name |
| RegisterOwner.OnImageChange | urban-land-frontend/src/pages/RegisterOwner.tsx:222-254 | a JPEG, PNG, GIF or WebP image of at most 5 MB goes into its field with a preview; any other file raises an alert and changes nothing; a too-large alert only follows an accepted type; other fields never change |
| RegisterOwner.RemoveImage | urban-land-frontend/src/pages/RegisterOwner.tsx:257-272 | removing an image empties its field and its preview and keeps every other field and preview |
| RegisterOwner.RemoveUndoesPick | urban-land-frontend/src/pages/RegisterOwner.tsx:248-259 | picking an accepted image and then removing it leaves every other field as before, with that preview cleared |
| RegisterOwner.ProfilePayloadKeys | urban-land-frontend/src/pages/RegisterOwner.tsx:284-301 | the payload always names the username, even an empty one, and names any other key exactly when the form holds a filled-in value under it |
| RegisterOwner.SaveFailure | urban-land-frontend/src/pages/RegisterOwner.tsx:341-359 | a 400 answer lists the validation errors, prefixed "Validation errors: "; any other failure shows the `detail` or "Unknown error", never an empty text |
| RegisterOwner.Submit | urban-land-frontend/src/pages/RegisterOwner.tsx:273-362 | without a found user nothing is sent; otherwise the page first checks for an existing profile and, when that answers, updates the first profile listed or creates a new one; it resets and goes to the owners page exactly when both requests succeed, and otherwise keeps the form |
| RegisterOwner.SaveTargetsFirstProfile | urban-land-frontend/src/pages/RegisterOwner.tsx:304-319 | an existing-profile lookup answered with a non-empty list updates the first profile; an empty list creates one; a paginated answer also creates one, because it has no length |
| OwnerSearch.QueryOf | urban-land-frontend/src/pages/OwnerSearch.tsx:28-39 | the query names exactly one key, `username`, `national_id` or `first_name` according to the search type, with the typed value as it is |
| OwnerSearch.Normalise | urban-land-frontend/src/pages/OwnerSearch.tsx:43 | an answer reads as results exactly when it is not null or undefined |
| OwnerSearch.NormaliseListOrPage | urban-land-frontend/src/pages/OwnerSearch.tsx:43 | a plain list and a paginated page whose `results` is that list read as the same results |
| OwnerSearch.FailureText | urban-land-frontend/src/pages/OwnerSearch.tsx:50-53 | the failure message is never empty: the answer's `detail` when that is truthy, and "Search failed" when no HTTP answer came |
| OwnerSearch.HandleSearch | urban-land-frontend/src/pages/OwnerSearch.tsx:20-57 | a blank value sends nothing and asks for a value of the current type; otherwise the request is the query for the type and value; readable results replace the list, with "no owners found" exactly when it is empty; anything else empties the list and reports the failure text; type and value never change |
| OwnerSearch.SwitchType | urban-land-frontend/src/pages/OwnerSearch.tsx:273-278 | choosing a type clears value, results and message |
| OwnerSearch.SwitchThenSearchAsks | urban-land-frontend/src/pages/OwnerSearch.tsx:21-24 | a search right after a type switch sends nothing and asks for a value of the new type |
| OwnerSearch.Redirect | urban-land-frontend/src/pages/OwnerSearch.tsx:130-133 | the page redirects to `/` exactly those who are neither admin nor officer |
| OwnerSearch.AdmittedSeeEveryProfile | urban-land-backend/owners/views.py:17-34 | an account the page admits gets every profile from a listing without a `username` filter |
| OwnerSearch.SummaryFields | urban-land-backend/owners/serializers.py:7-56 | a listed profile carries its id, national id, first name and status under the names the page reads |
| OwnerSearch.SelectLeadsToProfile | urban-land-frontend/src/pages/OwnerSearch.tsx:59-61 | choosing a listed profile leads to `/owners/<id>` of that profile |
| OwnerSearch.ActiveCountOfListing | urban-land-frontend/src/pages/OwnerSearch.tsx:407-410 | the active count of a listing is the number of listed profiles whose status is `Active` |
| OwnerSearch.SearchIgnoresFilterAsWritten | urban-land-backend/owners/views.py:17-34 | as written, a staff search by national id or by name lists every profile whatever the value, and reports none found only when there are no profiles |
| OwnerSearch.SearchIgnoresFilterExample | urban-land-frontend/src/pages/OwnerSearch.tsx:34-39 | a single profile with national id `A1` is listed by a search for `B2` |
| OwnerSearch.FiltersCompareSearched | urban-land-frontend/src/pages/OwnerSearch.tsx:34-39 | with the filters honoured, the national id and name searches compare exactly the searched field with the value |
| OwnerSearch.SearchFindsMatches | urban-land-frontend/src/pages/OwnerSearch.tsx:20-57 | with the filters honoured, a staff search lists exactly the profiles whose searched field equals the value, and reports none found exactly when no profile matches |
| UsersPage.LoadPage | urban-land-frontend/src/pages/Users.tsx:26-45 | anyone but an admin is sent to `/`; an admin sees the answer's data when the request succeeds and "Failed to load users" otherwise |
| UsersPage.UserJsonFields | urban-land-backend/accounts/serializers.py:5-8 | a listed account carries its username and role and no `is_active` |
| UsersPage.Listing | urban-land-backend/accounts/views.py:113-123 | the list answer holds one entry per account, in order, each the account's serialized fields |
| UsersPage.Received | urban-land-frontend/src/pages/Users.tsx:30-35 | a successful list answer reaches the page as its listing; a refused one as an HTTP error with the same status |
| UsersPage.AdminRoleAndStaffFlag | urban-land-backend/accounts/views.py:113-123 | an `admin` account without the staff flag gets past the page but its list is refused, so it sees the failure text; with the flag and no username filter it sees every account |
| UsersPage.FilteredUsers | urban-land-frontend/src/pages/Users.tsx:49-61 | the shown accounts are exactly the loaded ones that match search, role and status, in load order |
| UsersPage.DefaultFiltersShowAll | urban-land-frontend/src/pages/Users.tsx:22-24 | with the initial filters every loaded account is shown |
| UsersPage.SearchIgnoresCase | urban-land-frontend/src/pages/Users.tsx:50-52 | the search matches the same accounts for a term and for its lower-case form |
| UsersPage.StatusSelectionsSplit | urban-land-frontend/src/pages/Users.tsx:55-58 | with no search or role, the `active` and `inactive` selections together show each account once |
| UsersPage.RoleCountOfListing | urban-land-frontend/src/pages/Users.tsx:203-215 | a role card counts the loaded accounts holding that role |
| UsersPage.RoleCardsAddUp | urban-land-frontend/src/pages/Users.tsx:203-215 | when every account has one of the three roles, the three cards add up to the number loaded |
| UsersPage.StatusFilterAsWritten | urban-land-frontend/src/pages/Users.tsx:55-58 | as written, `active` shows no account and `inactive` shows the same as `all` |
| UsersPage.UserJsonWithStatus | urban-land-backend/accounts/serializers.py:5-8 | the corrected entry carries the account's `is_active` flag |
| UsersPage.ListingWithStatus | urban-land-backend/accounts/views.py:113-123 | the corrected list holds one corrected entry per account, in order |
| UsersPage.StatusFilterWithFlag | urban-land-frontend/src/pages/Users.tsx:55-58 | with the flag sent, `active` shows exactly the active accounts and `inactive` exactly the others |
| Sidebar.VisibleLinks | urban-land-frontend/src/components/Sidebar.tsx:103-104 | the shown links are exactly those whose roles include the user's role, in display order |
| Sidebar.TargetsFromFilter | urban-land-frontend/src/components/Sidebar.tsx:36-104 | the targets of the filtered links from a position on are those of the links from there on that the role sees |
| Sidebar.VisibleTargetsFrom | urban-land-frontend/src/components/Sidebar.tsx:36-104 | the shown targets are those the role sees, in the order of the link list |
| Sidebar.OwnerTargets | urban-land-frontend/src/components/Sidebar.tsx:36-87 | an owner sees the dashboard, `/owner` and `/owners` |
| Sidebar.OfficerLinkTargets | urban-land-frontend/src/components/Sidebar.tsx:36-87 | an officer sees the dashboard, land, applications, owner search and owner registration |
| Sidebar.AdminLinkTargets | urban-land-frontend/src/components/Sidebar.tsx:36-87 | an admin sees the officer's links and the sign-up page |
| Sidebar.LinksByRole | urban-land-frontend/src/components/Sidebar.tsx:36-104 | each role's links as above, and no link for nobody signed in |
| Sidebar.PrefixHighlights | urban-land-frontend/src/components/Sidebar.tsx:110 | the dashboard link is highlighted on every path, and `/owner` on every path under `/owners` |
| Sidebar.InitialCollapsed | urban-land-frontend/src/components/Sidebar.tsx:14-20 | the sidebar starts collapsed exactly when the stored value is `"1"` |
| Sidebar.Toggle | urban-land-frontend/src/components/Sidebar.tsx:27-31 | a toggle flips the state and stores `"1"` exactly when the new state is collapsed |
| Sidebar.ToggleSurvivesReload | urban-land-frontend/src/components/Sidebar.tsx:14-31 | what a toggle stores reads back as the state it set, and two toggles restore the state |
| ProfileLink.Target | urban-land-frontend/src/pages/OwnerProfileLink.tsx:19-35 | an owner's link is `/my-profile` and nobody else's is; others go to the owner's page for a known id, else to a username search for a known name, else to `/owners` |
| ProfileLink.StaffLinkMatchesSearch | urban-land-frontend/src/pages/OwnerProfileLink.tsx:24-27 | for staff, the link to a profile with a known id leads where choosing that profile in the owner search does |
| ProfileLink.OwnerLinkIgnoresArguments | urban-land-frontend/src/pages/OwnerProfileLink.tsx:19-22 | an owner's link does not depend on the id or name it is given |
| Client.Payload | urban-land-frontend/src/pages/RegisterOwner.tsx:288-301 | the form data has at most one part per entry, and every entry the form sends appears as a part under its key |
| Client.PayloadSource | urban-land-frontend/src/pages/land/LandCreate.tsx:237-255 | every part of the form data comes from an entry the form sends, under that entry's key |
| Client.PayloadKeys | urban-land-frontend/src/pages/RegisterOwner.tsx:288-301 | the form data has a part under a key exactly when some entry under that key is sent |
| Session.RoleOf | urban-land-frontend/src/components/Sidebar.tsx:104 | the role is the signed-in user's, or the empty text when nobody is signed in |

## Left out

- Rendering, styling, spinners, `alert` and navigation effects: navigation is a returned route text.
- The network and the browser: every server answer is a parameter of the page function that reads it, and the order of asynchronous steps is the order of those parameters.
- The debounce timer of the parcel list, `window.history.replaceState` and `URL.createObjectURL`: side effects with no logic of their own.
- `localStorage`: its value is a parameter; a read that throws is the same as nothing stored.
- The clock: "today" and "now" are parameters.
- Percent-encoding of query strings: a query is a map from key to text.
- Floating point: parcel `area` is kept as a positivity test only, and currency and date formatting are not modelled.
- Unicode: lower-casing is ASCII only, and text lengths count characters rather than UTF-16 code units.
- The parcel view's `filterset_fields` and `SearchFilter` (`search`, `status`, `land_use_type` and the other declared fields): they are django-filter machinery that the frontend's status, type and search parameters rely on; only the hand-written filters in `get_queryset` are modelled.
- The parcel view's `stats` action, which refers to a `models` name the module never imports, and its `types` action, a fixed list of choices.
- Updating ownership records and documents: plain DRF partial updates with no logic of their own.
- JWT issuance and refresh, the sign-up view set's internals, the transaction and application apps, and the URL configuration.
- Database transactions and concurrency: every view runs alone on one registry value.
- Only the first failing field is reported by a validation error, where DRF reports every failing field.
- Django's coercion of id parameters: an id parameter matches a row when it is the id's decimal text.
- Page sizes other than the configured 12 and cursor pagination.
- The exception the user page raises while rendering when the users answer is not a list: the page's filter and counts are modelled on the items of a list answer only.
- The parcel form's mode-loading effect (urban-land-frontend/src/pages/land/LandCreate.tsx:75-114), which only prefills fields from an answer.
- LandApi.ParcelJson: emits 9 of the serializer's 27 fields, the ones the pages read; the remaining ones are plain copies of columns.
- OwnerSearch.SummaryFields: states the 4 fields of a listed profile the page reads, not all 27 of the serializer.
- UsersPage.UserJsonFields: states only the username, role and absent `is_active` of a listed account.
- LandCreate.ReadRecordRequest: reads a number-valued percentage only; a percentage sent as text is read as absent instead of being coerced.
- OwnerApi.OwnedLands: the exception path is a missing parcel row; other database failures are not modelled.
- Registry.PrimaryOwner: records with the same acquisition date keep the table's insertion order (a new record goes after the older ones of its date); the database leaves the order of such ties unspecified, so which of them comes first is not promised.
- LandApi.OwnerName: inherits the same tie order on `-acquisition_date` from the record table.
- AccountViews.RecentOwners: profiles created at the same instant keep their table order under `-date_created`; the database does not fix the order of such ties.
- LandApi.EffectiveOrdering: treats the whole `ordering` parameter as one term; DRF splits it on commas and keeps the valid terms, so a multi-term ordering is not modelled.
- Dashboard.CompletionPercent: rounds the exact ratio, half up; the page rounds a floating-point product, which can differ by one when that product falls a rounding error below a half.
- Text.ParseInt: reads base 10 only; JavaScript's `parseInt` without a radix reads a `0x` or `0X` prefix as hexadecimal.
- The owner profile's free-text fields without logic (`contact_phone`, `contact_email`, `current_address`, `registration_number`, `tax_id`, `contact_person`, `notes`) and every `max_length` limit: they are stored as given.
- Django's date parsing of `date_of_birth` and the image checks of the file fields: a date is a day number and a file is taken as given.
- Text.Trim: strips JavaScript's white-space set, which the model uses for Python's `str.strip` in DRF's text fields too; Python also strips U+001C to U+001F and U+0085 and does not strip U+FEFF.
- LandApi.ListParcels: orders by `parcel_id`, `registration_date` and `date_created` only; `cadastral_number` (text collation), `current_market_value` (placement of nulls), `area` (decimal) and `last_updated` (not a column of the model) keep table order, and the order of ties is not promised.
- Js.Get: reading a property of `null` or `undefined` yields `undefined`, where JavaScript throws a `TypeError`. The members below read properties of a successful answer's body without modelling that throw, so on a 2xx answer whose body is `null` or `undefined` they carry on where the page drops into its `catch`.
- LandCreate.Submit: a `null` parcel answer sends the ownership request with an undefined `parcel` and navigates, where the page throws at `parcelRes.data.parcel_id`, alerts the failure and sends nothing more.
- LandCreate.SearchOwners: a `null` search answer shows no results, where the page throws at `response.data.results` and sends the fallback request.
- RegisterOwner.SearchUser: a `null` user answer reads as "user not found", where the page throws at `userRes.data.results` and shows its search failure instead.
- RegisterOwner.Submit: a `null` profile-check answer reads as no existing profile and sends a create, where the page throws at `checkRes.data.length`, sends nothing more and alerts the save failure.
- ParcelList.ReadListing: a `null` listing is taken as the items on one page, where the page throws at `res.data.results`, empties the list and shows "Failed to load land parcels".
- Dashboard.ReadStats: a `null` statistics answer reads as all zeros, where the page throws at `stats.totalLands` and shows "Failed to load dashboard statistics".

## Findings

The endpoint members model the code as written, these defects included; each corrected member is stated and proved next to them.

| source | as written | input that shows it | evidently intended | confidence | as-written member | corrected member |
|---|---|---|---|---|---|---|
| urban-land-backend/records/serializers.py:8-19 | `parcel` and `owner` are nested read-only serializers, so a POST of an ownership record never sets them and the insert fails on the required links | the ownership request the parcel form sends after creating a parcel, with `parcel` and `owner` ids | the two links writable as primary keys, so the record is created | high; not executed | RecordApi.CreateRecordAsWrittenFails | RecordApi.CreateRecordValid |
| urban-land-backend/owners/views.py:17-34 | the listing reads only the `username` parameter, so the owner search by national id or by first name lists every profile | one profile with national id `A1`, a staff search by national id for `B2`: the profile is listed | the `national_id` and `first_name` parameters filter the listing | high; not executed | OwnerSearch.SearchIgnoresFilterExample | OwnerSearch.SearchFindsMatches |
| urban-land-backend/accounts/serializers.py:5-8 | the user serializer has no `is_active`, so the user page's status filter shows nobody for `active` and everyone for `inactive` | any list of accounts with the status selection `active`: the page shows none | the serializer sends `is_active` and the selections split the accounts by it | high; not executed | UsersPage.StatusFilterAsWritten | UsersPage.StatusFilterWithFlag |
| urban-land-backend/accounts/permissions.py:18-20 | the role check reads `request.user.role` after testing only the user's truth; Django's anonymous user is truthy and has no `role`, so the check raises and every anonymous request to the record and document endpoints ends in a 500 | an anonymous GET of the ownership-record list | an anonymous request refused with 401, as DRF answers when the user is not authenticated | high; not executed | RecordApi.AnonymousRequestsFail | Http.GuardedCheckRefusesAnonymous |
| urban-land-backend/owners/views.py:36-43 | `get_permissions` is overridden and returns `IsAuthenticated` for every action but create and destroy, so the `search` action's own `permission_classes=[IsAdminUser]` (line 68) is never applied | an owner account without the staff flag searching `?username=` of another account: that account's profile is returned | the search answered to staff accounts only, as its decorator and comment say | high; not executed | OwnerApi.SearchLeaksToOwners | OwnerApi.SearchViewStaffOnly |

=== FILE: account_views.dfy ===
/** The account views: the dashboard statistics, the user list with its
    `username` filter, and the parcels an owner holds. */
module AccountViews {
  import opened Base
  import opened Accounts
  import opened Models
  import opened Registry
  import opened Http

  /** One entry of `recentActivities`. */
  datatype Activity = Activity(id: nat, description: string)

  datatype Stats = Stats(
    totalUsers: nat,
    totalOwners: nat,
    totalLands: nat,
    activeLands: nat,
    inactiveLands: nat,
    pendingLands: nat,
    landValue: int,
    owners: nat,
    officers: nat,
    admins: nat,
    ownersWithProfiles: nat,
    totalRegisteredOwners: nat,
    recentActivities: seq<Activity>)

  /** What every account outside the two staff roles is shown. */
  const NoStats := Stats(0, 0, 0, 0, 0, 0, 0, 0, 0, 0, 0, 0, [])

  predicate ActiveParcel(p: Parcel) { p.isActive }
  predicate InactiveParcel(p: Parcel) { !p.isActive }

  function DateCreated(p: OwnerProfile): int { p.dateCreated }

  /** `Sum('current_market_value')`, where `NULL` values are skipped and
      an empty sum reads as 0. */
  function TotalMarketValue(parcels: seq<Parcel>): (total: int)
    ensures (forall i | 0 <= i < |parcels| :: parcels[i].marketValue.None?) ==> total == 0
    ensures (forall i | 0 <= i < |parcels| :: parcels[i].marketValue.None? || parcels[i].marketValue.value >= 0)
      ==> total >= 0
  {
    if |parcels| == 0 then 0
    else parcels[0].marketValue.GetOr(0) + TotalMarketValue(parcels[1..])
  }

  /** A single parcel contributes its value, or nothing when it has none. */
  lemma TotalMarketValueSingle(x: Parcel)
    ensures TotalMarketValue([x]) == x.marketValue.GetOr(0)
    ensures x.marketValue.Some? ==> TotalMarketValue([x]) == x.marketValue.value
  {
    assert [x][1..] == [];
  }

  /** The sum splits over any division of the table, so it is the sum of
      the single parcels' contributions, in any grouping. */
  lemma {:induction false} TotalMarketValueAppend(a: seq<Parcel>, b: seq<Parcel>)
    ensures TotalMarketValue(a + b) == TotalMarketValue(a) + TotalMarketValue(b)
    decreases |a|
  {
    if |a| > 0 {
      assert (a + b)[0] == a[0];
      assert (a + b)[1..] == a[1..] + b;
      TotalMarketValueAppend(a[1..], b);
    } else {
      assert a + b == b;
    }
  }

  /** Adding a parcel raises the total by exactly its value. */
  lemma TotalMarketValueAdd(parcels: seq<Parcel>, x: Parcel)
    ensures TotalMarketValue(parcels + [x]) == TotalMarketValue(parcels) + x.marketValue.GetOr(0)
  {
    TotalMarketValueAppend(parcels, [x]);
    TotalMarketValueSingle(x);
  }

  /** `order_by('-date_created')[:5]`: the newest profiles, at most five. */
  function RecentOwners(profiles: seq<OwnerProfile>): (r: seq<OwnerProfile>)
    ensures |r| == Min(5, |profiles|)
    ensures forall i | 0 <= i < |r| :: r[i] in profiles
    ensures multiset(r) <= multiset(profiles)
  {
    var sorted := SortDesc(profiles, DateCreated);
    forall i | 0 <= i < Min(5, |profiles|)
      ensures sorted[i] in profiles
    {
      assert sorted[i] in multiset(sorted);
    }
    assert sorted == sorted[..Min(5, |profiles|)] + sorted[Min(5, |profiles|)..];
    sorted[..Min(5, |profiles|)]
  }

  /** The recent owners are newest first, and no profile left out of them
      is newer than the last one shown. */
  lemma RecentOwnersAreNewest(profiles: seq<OwnerProfile>)
    ensures SortedDesc(RecentOwners(profiles), DateCreated)
    ensures forall p | p in profiles && p !in RecentOwners(profiles) ::
      |RecentOwners(profiles)| == 5 && p.dateCreated <= RecentOwners(profiles)[4].dateCreated
  {
    var sorted := SortDesc(profiles, DateCreated);
    var r := RecentOwners(profiles);
    SortDescSorted(profiles, DateCreated);
    forall p | p in profiles && p !in r
      ensures |r| == 5 && p.dateCreated <= r[4].dateCreated
    {
      assert p in multiset(profiles);
      assert p in multiset(sorted);
      var k :| 0 <= k < |sorted| && sorted[k] == p;
      assert |r| == 5;
      assert r[4] == sorted[4];
    }
  }

  function ActivityOf(p: OwnerProfile): Activity {
    Activity(p.id, "New owner registered: " + p.firstName + " " + p.lastName)
  }

  function HasRoleChoice(role: string): User -> bool {
    (u: User) => u.role == role
  }

  /** `dashboard_stats`: signed-in users only; the two staff roles see the
      registry's figures, everybody else a row of zeros. */
  function DashboardStats(db: Db, p: Principal): (r: Reply<Stats>)
    ensures p.Anonymous? ==> r.Failure? && r.status == UNAUTHORIZED
    ensures p.SignedIn? ==> r.Success? && r.status == OK
    ensures p.SignedIn? && !IsAdminOrOfficer(p) ==> r.body == NoStats
    ensures IsAdminOrOfficer(p) ==>
      && r.body.totalUsers == |db.users| && r.body.totalLands == |db.parcels|
      && r.body.totalOwners == |db.profiles| && r.body.ownersWithProfiles == |db.profiles|
      && r.body.totalRegisteredOwners == r.body.owners
      && r.body.pendingLands == 0
      && r.body.activeLands == Count(db.parcels, ActiveParcel)
      && r.body.inactiveLands == Count(db.parcels, InactiveParcel)
      && r.body.owners == Count(db.users, HasRoleChoice(OWNER))
      && r.body.officers == Count(db.users, HasRoleChoice(OFFICER))
      && r.body.admins == Count(db.users, HasRoleChoice(ADMIN))
      && r.body.landValue == TotalMarketValue(db.parcels)
      && |r.body.recentActivities| == Min(5, |db.profiles|)
    ensures IsAdminOrOfficer(p) ==>
      forall i | 0 <= i < |r.body.recentActivities| ::
        r.body.recentActivities[i].id == RecentOwners(db.profiles)[i].id
  {
    if p.Anonymous? then Refuse(p)
    else if !(p.user.role in [ADMIN, OFFICER]) then Success(OK, NoStats)
    else
      var owners := Count(db.users, HasRoleChoice(OWNER));
      Success(OK, Stats(
        |db.users|,
        |db.profiles|,
        |db.parcels|,
        Count(db.parcels, ActiveParcel),
        Count(db.parcels, InactiveParcel),
        0,
        TotalMarketValue(db.parcels),
        owners,
        Count(db.users, HasRoleChoice(OFFICER)),
        Count(db.users, HasRoleChoice(ADMIN)),
        |db.profiles|,
        owners,
        MapSeq(RecentOwners(db.profiles), ActivityOf)))
  }

  /** `is_active` splits the parcels: the active and inactive counts add up
      to the total. */
  lemma ActivePlusInactive(db: Db, p: Principal)
    requires p.SignedIn?
    ensures var s := DashboardStats(db, p).body; s.activeLands + s.inactiveLands == s.totalLands
  {
    CountSplit(db.parcels, ActiveParcel, InactiveParcel);
  }

  /** When every account holds one of the declared roles, the role
      distribution adds up to the number of users. */
  lemma DistributionSums(db: Db, p: Principal)
    requires p.SignedIn?
    requires forall i | 0 <= i < |db.users| :: db.users[i].role in RoleChoices
    ensures var s := DashboardStats(db, p).body; s.owners + s.officers + s.admins == s.totalUsers
  {
    if IsAdminOrOfficer(p) {
      RoleCountsSum(db.users);
    }
  }

  lemma {:induction false} RoleCountsSum(users: seq<User>)
    requires forall i | 0 <= i < |users| :: users[i].role in RoleChoices
    ensures Count(users, HasRoleChoice(OWNER)) + Count(users, HasRoleChoice(OFFICER))
      + Count(users, HasRoleChoice(ADMIN)) == |users|
  {
    if |users| > 0 {
      RoleCountsSum(users[1..]);
    }
  }

  /** The activities are the newest profiles, newest first. */
  lemma RecentActivitiesNewestFirst(db: Db, p: Principal)
    requires IsAdminOrOfficer(p)
    ensures var acts := DashboardStats(db, p).body.recentActivities;
      var recent := RecentOwners(db.profiles);
      |acts| == |recent| && forall i | 0 <= i < |acts| :: acts[i].id == recent[i].id
  {
  }

  // ------------------------------------------------------------ users

  /** `UserViewSet.get_queryset` behind `IsAdminUser`: a non-empty
      `username` parameter keeps the accounts with exactly that name. */
  function UserList(db: Db, p: Principal, q: Query): (r: Reply<seq<User>>)
    ensures !IsAdminUser(p) ==> r.Failure?
    ensures IsAdminUser(p) ==> r.Success?
    ensures IsAdminUser(p) && !Given(q, "username") ==> r.body == db.users
    ensures IsAdminUser(p) && Given(q, "username") ==>
      && (forall i | 0 <= i < |r.body| :: r.body[i] in db.users && r.body[i].username == q["username"])
      && (forall i | 0 <= i < |db.users| :: db.users[i].username == q["username"] ==> db.users[i] in r.body)
  {
    if !IsAdminUser(p) then Refuse(p)
    else if Given(q, "username") then
      var name := q["username"];
      Success(OK, Filter(db.users, (u: User) => u.username == name))
    else Success(OK, db.users)
  }

  /** Usernames are unique, so the filtered list holds at most one
      account, and exactly one when the name is taken. */
  lemma UserListAtMostOne(db: Db, p: Principal, q: Query)
    requires UniqueUsernames(db.users)
    requires IsAdminUser(p) && Given(q, "username")
    ensures |UserList(db, p, q).body| <= 1
    ensures |UserList(db, p, q).body| == 1 <==> UsernameTaken(db.users, q["username"])
  {
    var name := q["username"];
    var r := UserList(db, p, q).body;
    if |r| > 1 {
      var a :| 0 <= a < |db.users| && db.users[a] == r[0];
      var b :| 0 <= b < |db.users| && db.users[b] == r[1];
      if a == b {
        FilterNoDuplicates(db.users, (u: User) => u.username == name);
      }
      assert false;
    }
    if UsernameTaken(db.users, name) {
      var i :| 0 <= i < |db.users| && db.users[i].username == name;
      assert db.users[i] in r;
    }
  }

  /** In a list without repeated elements the filter repeats nothing. */
  lemma {:induction false} FilterNoDuplicates<T>(xs: seq<T>, keep: T -> bool)
    requires forall i, j | 0 <= i < j < |xs| :: xs[i] != xs[j]
    ensures forall i, j | 0 <= i < j < |Filter(xs, keep)| :: Filter(xs, keep)[i] != Filter(xs, keep)[j]
  {
    if |xs| > 0 {
      FilterNoDuplicates(xs[1..], keep);
      var rest := Filter(xs[1..], keep);
      if keep(xs[0]) {
        forall j | 0 <= j < |rest|
          ensures rest[j] != xs[0]
        {
          assert rest[j] in xs[1..];
        }
      }
    }
  }

  // ------------------------------------------------------------ my parcels

  /** The owner profile holds a current record for the parcel. */
  predicate HoldsCurrently(db: Db, owner: nat, parcel: nat) {
    exists i | 0 <= i < |db.records| ::
      db.records[i].owner == owner && db.records[i].parcel == parcel && db.records[i].isCurrentOwner
  }

  /** `MyParcelsViewSet.get_queryset`: nothing for other roles or for an
      owner without a profile; otherwise the parcels the profile holds a
      current record for. */
  function MyParcels(db: Db, p: Principal): (r: Reply<seq<Parcel>>)
    ensures p.Anonymous? <==> r.Failure?
    ensures p.SignedIn? && p.user.role != OWNER ==> r.body == []
    ensures p.SignedIn? && ProfileOfUser(db.profiles, p.user.id).None? ==> r.body == []
    ensures r.Success? ==> forall i | 0 <= i < |r.body| :: r.body[i] in db.parcels
  {
    if p.Anonymous? then Refuse(p)
    else if p.user.role != OWNER then Success(OK, [])
    else match ProfileOfUser(db.profiles, p.user.id)
      case None => Success(OK, [])
      case Some(profile) =>
        Success(OK, Filter(db.parcels, (x: Parcel) => HoldsCurrently(db, profile.id, x.parcelId)))
  }

  /** For an owner with a profile, a parcel is listed exactly when one of
      the parcel's current owners is that profile. */
  lemma MyParcelsAreCurrentHoldings(db: Db, p: Principal, x: Parcel)
    requires HasRole(p, OWNER) && ProfileOfUser(db.profiles, p.user.id).Some?
    requires x in db.parcels
    ensures var profile := ProfileOfUser(db.profiles, p.user.id).value;
      x in MyParcels(db, p).body <==>
      exists i | 0 <= i < |CurrentOwners(db, x.parcelId)| :: CurrentOwners(db, x.parcelId)[i].owner == profile.id
  {
    var profile := ProfileOfUser(db.profiles, p.user.id).value;
    assert MyParcels(db, p).body == Filter(db.parcels, (y: Parcel) => HoldsCurrently(db, profile.id, y.parcelId));
    HoldsIffCurrentOwner(db, profile.id, x.parcelId);
  }

  /** Holding a parcel currently is being among its current owners. */
  lemma HoldsIffCurrentOwner(db: Db, owner: nat, parcel: nat)
    ensures HoldsCurrently(db, owner, parcel) <==>
      exists i | 0 <= i < |CurrentOwners(db, parcel)| :: CurrentOwners(db, parcel)[i].owner == owner
  {
    var cur := CurrentOwners(db, parcel);
    if HoldsCurrently(db, owner, parcel) {
      var i :| 0 <= i < |db.records| && db.records[i].owner == owner
        && db.records[i].parcel == parcel && db.records[i].isCurrentOwner;
      var j :| 0 <= j < |cur| && cur[j] == db.records[i];
    }
    if exists i | 0 <= i < |cur| :: cur[i].owner == owner {
      var i :| 0 <= i < |cur| && cur[i].owner == owner;
      var j :| 0 <= j < |db.records| && db.records[j] == cur[i];
    }
  }
}

=== FILE: accounts.dfy ===
/** Accounts: the custom `User` model with its three roles, the manager that
    creates users and superusers, and the role-based DRF permissions. */
module Accounts {
  import opened Base

  const OWNER := "owner"
  const OFFICER := "officer"
  const ADMIN := "admin"
  /** A role the permissions module tests for but no account can hold. */
  const CITIZEN := "citizen"

  /** `User.ROLE_CHOICES`. */
  const RoleChoices: set<string> := {OWNER, OFFICER, ADMIN}

  datatype User = User(
    id: nat,
    username: string,
    role: string,
    password: Option<string>,
    isActive: bool,
    isStaff: bool,
    isSuperuser: bool)

  /** `request.user`: nobody, or a signed-in account. */
  datatype Principal = Anonymous | SignedIn(user: User)

  predicate HasRole(p: Principal, role: string) {
    p.SignedIn? && p.user.role == role
  }

  /** `IsAdmin.has_permission`. */
  predicate IsAdmin(p: Principal) {
    HasRole(p, ADMIN)
  }

  /** `IsOfficer.has_permission`. */
  predicate IsOfficer(p: Principal) {
    HasRole(p, OFFICER)
  }

  /** `IsCitizen.has_permission`. */
  predicate IsCitizen(p: Principal) {
    HasRole(p, CITIZEN)
  }

  /** Whether `IsAdminOrOfficer.has_permission` grants: the role is one of
      the two staff roles, which is the same as one of the two single-role
      permissions granting access. It never grants an anonymous request,
      on which the written check raises (`RoleCheck`). */
  predicate IsAdminOrOfficer(p: Principal): (granted: bool)
    ensures granted <==> IsAdmin(p) || IsOfficer(p)
  {
    p.SignedIn? && p.user.role in StaffRoles
  }

  /** How a `has_permission` call ends: it grants, it denies, or it
      raises before deciding. */
  datatype Check = Granted | Denied | Raised

  /** The roles `IsAdminOrOfficer` admits. */
  const StaffRoles: seq<string> := [ADMIN, OFFICER]

  /** The role permissions of this module as written: `request.user` is
      tested for truth and then its `role` is read. Django's anonymous
      user is truthy and has no `role`, so for an anonymous request the
      check raises `AttributeError` instead of denying. */
  function RoleCheck(p: Principal, roles: seq<string>): (c: Check)
    ensures c == Raised <==> p.Anonymous?
    ensures c == Granted <==> p.SignedIn? && p.user.role in roles
  {
    if p.Anonymous? then Raised else if p.user.role in roles then Granted else Denied
  }

  /** The same checks guarded by `request.user.is_authenticated`: they
      never raise, deny every anonymous request and decide every signed-in
      one exactly as the written checks do. */
  function GuardedRoleCheck(p: Principal, roles: seq<string>): (c: Check)
    ensures c != Raised
    ensures p.Anonymous? ==> c == Denied
    ensures p.SignedIn? ==> c == RoleCheck(p, roles)
  {
    if p.SignedIn? && p.user.role in roles then Granted else Denied
  }

  /** The written check grants exactly what the four permission predicates
      grant, and differs from the guarded one only on anonymous requests. */
  lemma RoleCheckAgrees(p: Principal)
    ensures RoleCheck(p, StaffRoles) == Granted <==> IsAdminOrOfficer(p)
    ensures RoleCheck(p, [ADMIN]) == Granted <==> IsAdmin(p)
    ensures RoleCheck(p, [OFFICER]) == Granted <==> IsOfficer(p)
    ensures RoleCheck(p, [CITIZEN]) == Granted <==> IsCitizen(p)
    ensures RoleCheck(p, StaffRoles) != GuardedRoleCheck(p, StaffRoles) <==> p.Anonymous?
  {
  }

  /** DRF's `IsAdminUser`: the `is_staff` flag, not the `admin` role. */
  predicate IsAdminUser(p: Principal) {
    p.SignedIn? && p.user.isStaff
  }

  /** DRF's `IsAuthenticated`. */
  predicate IsAuthenticated(p: Principal) {
    p.SignedIn?
  }

  /** For every account whose role is one of the declared choices exactly
      one of "admin", "officer", "owner" applies, and `IsCitizen` never
      grants access. */
  lemma RolesPartition(p: Principal)
    requires p.SignedIn? && p.user.role in RoleChoices
    ensures !IsCitizen(p)
    ensures IsAdmin(p) || IsOfficer(p) || HasRole(p, OWNER)
    ensures !(IsAdmin(p) && IsOfficer(p))
    ensures HasRole(p, OWNER) <==> !IsAdminOrOfficer(p)
  {
  }

  predicate UniqueUsernames(users: seq<User>) {
    forall i, j | 0 <= i < j < |users| :: users[i].username != users[j].username
  }

  predicate UniqueIds(users: seq<User>) {
    forall i, j | 0 <= i < j < |users| :: users[i].id != users[j].id
  }

  predicate UsernameTaken(users: seq<User>, username: string) {
    exists i | 0 <= i < |users| :: users[i].username == username
  }

  function UserId(u: User): nat { u.id }

  /** `UserManager.create_user`: an empty username is refused, the unique
      `username` column refuses a name already taken, and otherwise a new
      account is appended with the given role (default "owner"), active,
      not staff and not superuser. The role is stored as given: choices are
      not checked when saving. */
  function CreateUser(users: seq<User>, username: string, password: Option<string>, role: string := OWNER)
    : (r: Result<(seq<User>, User)>)
    ensures username == "" ==> r == Err("Username is required")
    ensures r.Ok? <==> username != "" && !UsernameTaken(users, username)
    ensures r.Ok? ==> r.value.0 == users + [r.value.1]
    ensures r.Ok? ==> var u := r.value.1;
      && u.username == username && u.role == role && u.password == password
      && u.isActive && !u.isStaff && !u.isSuperuser
      && forall i | 0 <= i < |users| :: users[i].id != u.id
    ensures r.Ok? && UniqueUsernames(users) && UniqueIds(users) ==>
      UniqueUsernames(r.value.0) && UniqueIds(r.value.0)
  {
    if username == "" then Err("Username is required")
    else if UsernameTaken(users, username) then Err("UNIQUE constraint failed: username")
    else
      var u := User(NextId(users, UserId), username, role, password, true, false, false);
      var users' := users + [u];
      assert forall i | 0 <= i < |users| :: users'[i] == users[i];
      Ok((users', u))
  }

  /** `UserManager.create_superuser`: `create_user` with role "admin", then
      the staff and superuser flags. */
  function CreateSuperuser(users: seq<User>, username: string, password: Option<string>)
    : (r: Result<(seq<User>, User)>)
    ensures r.Ok? <==> CreateUser(users, username, password, ADMIN).Ok?
    ensures r.Ok? ==> var u := r.value.1;
      && u.role == ADMIN && u.isStaff && u.isSuperuser && u.isActive
      && u.username == username
      && r.value.0 == users + [u]
  {
    match CreateUser(users, username, password, ADMIN)
    case Err(e) => Err(e)
    case Ok((users', u)) =>
      var su := u.(isStaff := true, isSuperuser := true);
      Ok((users'[..|users'| - 1] + [su], su))
  }
}

=== FILE: base.dfy ===
/** Small vocabulary shared by every other module: optional values,
    results with an error message, order-preserving filters and counts, and
    the descending order that querysets such as `order_by('-date_created')`
    produce. */
module Base {

  datatype Option<T> = None | Some(value: T) {
    function GetOr(default: T): T {
      match this
      case Some(v) => v
      case None => default
    }
  }

  /** The outcome of an operation that may be refused with a message. */
  datatype Result<T> = Ok(value: T) | Err(error: string)

  /** `xs.filter(keep)` / `queryset.filter(...)`: the order-preserving
      sub-list of the elements that satisfy `keep`. */
  function Filter<T>(xs: seq<T>, keep: T -> bool): (r: seq<T>)
    ensures |r| <= |xs|
    ensures forall i | 0 <= i < |r| :: r[i] in xs && keep(r[i])
    ensures forall i | 0 <= i < |xs| :: keep(xs[i]) ==> xs[i] in r
  {
    if |xs| == 0 then []
    else (if keep(xs[0]) then [xs[0]] else []) + Filter(xs[1..], keep)
  }

  /** Filters that agree on every element keep the same elements. */
  lemma {:induction false} FilterSame<T>(xs: seq<T>, p: T -> bool, q: T -> bool)
    requires forall i | 0 <= i < |xs| :: p(xs[i]) == q(xs[i])
    ensures Filter(xs, p) == Filter(xs, q)
  {
    if |xs| > 0 {
      FilterSame(xs[1..], p, q);
    }
  }

  /** A filter nothing passes leaves nothing. */
  lemma {:induction false} FilterNone<T>(xs: seq<T>, keep: T -> bool)
    requires forall i | 0 <= i < |xs| :: !keep(xs[i])
    ensures Filter(xs, keep) == []
  {
    if |xs| > 0 {
      FilterNone(xs[1..], keep);
    }
  }

  /** Filtering a concatenation filters each part in place: the filter
      never reorders what it keeps. */
  lemma {:induction false} FilterAppend<T>(xs: seq<T>, ys: seq<T>, keep: T -> bool)
    ensures Filter(xs + ys, keep) == Filter(xs, keep) + Filter(ys, keep)
  {
    if |xs| == 0 {
      assert xs + ys == ys;
    } else {
      assert (xs + ys)[1..] == xs[1..] + ys;
      FilterAppend(xs[1..], ys, keep);
    }
  }

  /** A filter that keeps every element is the identity. */
  lemma {:induction false} FilterKeepsAll<T>(xs: seq<T>, keep: T -> bool)
    requires forall i | 0 <= i < |xs| :: keep(xs[i])
    ensures Filter(xs, keep) == xs
  {
    if |xs| > 0 {
      FilterKeepsAll(xs[1..], keep);
    }
  }

  /** Two successive filters are one filter on the conjunction. */
  lemma {:induction false} FilterFilter<T>(xs: seq<T>, p: T -> bool, q: T -> bool, both: T -> bool)
    requires forall x :: both(x) == (p(x) && q(x))
    ensures Filter(Filter(xs, p), q) == Filter(xs, both)
  {
    if |xs| > 0 {
      FilterFilter(xs[1..], p, q, both);
      var head := if p(xs[0]) then [xs[0]] else [];
      assert Filter(xs, p) == head + Filter(xs[1..], p);
      FilterAppend(head, Filter(xs[1..], p), q);
      if p(xs[0]) {
        assert Filter(head, q) == (if q(xs[0]) then [xs[0]] else []) + Filter([], q);
      }
    }
  }

  /** `xs.filter(keep).length`. */
  function Count<T>(xs: seq<T>, keep: T -> bool): (n: nat)
    ensures n <= |xs|
  {
    |Filter(xs, keep)|
  }

  /** The problem of the first element that has one: what a validator
      reporting only its first failing field answers. */
  function FirstProblem<T, E>(xs: seq<T>, check: T -> Option<E>): (r: Option<E>)
    ensures r.None? <==> forall i | 0 <= i < |xs| :: check(xs[i]).None?
    ensures r.Some? ==> exists i | 0 <= i < |xs| :: check(xs[i]) == r
  {
    if |xs| == 0 then None
    else if check(xs[0]).Some? then check(xs[0])
    else
      var rest := FirstProblem(xs[1..], check);
      assert forall i | 1 <= i < |xs| :: xs[i] == xs[1..][i - 1];
      rest
  }

  /** Every element either satisfies a test or does not: the two counts
      add up to the length. */
  lemma {:induction false} CountSplit<T>(xs: seq<T>, keep: T -> bool, drop: T -> bool)
    requires forall x :: drop(x) == !keep(x)
    ensures Count(xs, keep) + Count(xs, drop) == |xs|
  {
    if |xs| > 0 {
      CountSplit(xs[1..], keep, drop);
    }
  }

  /** Descending by `key`: what `order_by('-field')` promises. */
  ghost predicate SortedDesc<T>(xs: seq<T>, key: T -> int) {
    forall i, j | 0 <= i < j < |xs| :: key(xs[i]) >= key(xs[j])
  }

  /** Inserts `x` after every element whose key is at least its own. */
  function InsertDesc<T>(xs: seq<T>, x: T, key: T -> int): (r: seq<T>)
    ensures |r| == |xs| + 1
    ensures multiset(r) == multiset(xs) + multiset{x}
  {
    if |xs| == 0 then [x]
    else if key(xs[0]) >= key(x) then
      assert xs == [xs[0]] + xs[1..];
      [xs[0]] + InsertDesc(xs[1..], x, key)
    else
      [x] + xs
  }

  /** An element at least as large as every element of a descending
      sequence can go in front of it. */
  lemma ConsSortedDesc<T>(h: T, rest: seq<T>, key: T -> int)
    requires SortedDesc(rest, key)
    requires forall k | 0 <= k < |rest| :: key(h) >= key(rest[k])
    ensures SortedDesc([h] + rest, key)
  {
    var r := [h] + rest;
    forall i, j | 0 <= i < j < |r|
      ensures key(r[i]) >= key(r[j])
    {
      assert r[j] == rest[j - 1];
      if i > 0 {
        assert r[i] == rest[i - 1];
      }
    }
  }

  /** Insertion keeps a descending sequence descending. */
  lemma {:induction false} InsertDescSorted<T>(xs: seq<T>, x: T, key: T -> int)
    requires SortedDesc(xs, key)
    ensures SortedDesc(InsertDesc(xs, x, key), key)
  {
    if |xs| > 0 && key(xs[0]) >= key(x) {
      var rest := InsertDesc(xs[1..], x, key);
      InsertDescSorted(xs[1..], x, key);
      forall k | 0 <= k < |rest|
        ensures key(xs[0]) >= key(rest[k])
      {
        assert rest[k] in multiset(rest);
        if rest[k] != x {
          assert rest[k] in multiset(xs[1..]);
          var j :| 0 <= j < |xs[1..]| && xs[1..][j] == rest[k];
          assert xs[j + 1] == rest[k];
        }
      }
      ConsSortedDesc(xs[0], rest, key);
    } else if |xs| > 0 {
      forall k | 0 <= k < |xs|
        ensures key(x) >= key(xs[k])
      {
        if k > 0 {
          assert key(xs[0]) >= key(xs[k]);
        }
      }
      ConsSortedDesc(x, xs, key);
    }
  }

  /** Insertion puts `x` at one position and leaves the rest in order. */
  lemma {:induction false} InsertDescShape<T>(xs: seq<T>, x: T, key: T -> int) returns (k: nat)
    ensures k <= |xs|
    ensures InsertDesc(xs, x, key) == xs[..k] + [x] + xs[k..]
  {
    if |xs| == 0 {
      k := 0;
    } else if key(xs[0]) >= key(x) {
      var k' := InsertDescShape(xs[1..], x, key);
      k := k' + 1;
      var tail := xs[1..];
      assert xs[..k] == [xs[0]] + tail[..k'];
      assert xs[k..] == tail[k'..];
      calc {
        InsertDesc(xs, x, key);
        [xs[0]] + InsertDesc(tail, x, key);
        [xs[0]] + (tail[..k'] + [x] + tail[k'..]);
        ([xs[0]] + tail[..k']) + [x] + tail[k'..];
      }
    } else {
      k := 0;
    }
  }

  /** Inserting an element related both ways to every other element keeps
      a pairwise property. */
  lemma PairwiseInsert<T>(xs: seq<T>, k: nat, x: T, rel: (T, T) -> bool)
    requires k <= |xs|
    requires Pairwise(xs, rel)
    requires forall i | 0 <= i < |xs| :: rel(xs[i], x) && rel(x, xs[i])
    ensures Pairwise(xs[..k] + [x] + xs[k..], rel)
  {
    var r := xs[..k] + [x] + xs[k..];
    forall i, j | 0 <= i < j < |r|
      ensures rel(r[i], r[j])
    {
      if j < k {
        assert r[i] == xs[i] && r[j] == xs[j];
      } else if j == k {
        assert r[i] == xs[i] && r[j] == x;
      } else if i < k {
        assert r[i] == xs[i] && r[j] == xs[j - 1];
      } else if i == k {
        assert r[i] == x && r[j] == xs[j - 1];
      } else {
        assert r[i] == xs[i - 1] && r[j] == xs[j - 1];
      }
    }
  }

  /** Replacing one element by one related both ways to all the others
      keeps a pairwise property. */
  lemma PairwiseReplace<T>(xs: seq<T>, k: nat, x: T, rel: (T, T) -> bool)
    requires k < |xs|
    requires Pairwise(xs, rel)
    requires forall i | 0 <= i < |xs| && i != k :: rel(xs[i], x) && rel(x, xs[i])
    ensures Pairwise(xs[k := x], rel)
  {
    var r := xs[k := x];
    forall i, j | 0 <= i < j < |r|
      ensures rel(r[i], r[j])
    {
      if i != k && j != k {
        assert r[i] == xs[i] && r[j] == xs[j];
      }
    }
  }

  /** Filtering a three-element list, spelled out. */
  lemma FilterThree<T>(a: T, b: T, c: T, keep: T -> bool)
    ensures Filter([a, b, c], keep) ==
      (if keep(a) then [a] else []) + (if keep(b) then [b] else []) + (if keep(c) then [c] else [])
  {
    assert [a, b, c][1..] == [b, c];
    assert [b, c][1..] == [c];
    assert [c][1..] == [];
    assert Filter([c], keep) == (if keep(c) then [c] else []) + Filter([], keep);
    assert Filter([b, c], keep) == (if keep(b) then [b] else []) + Filter([c], keep);
  }

  /** `order_by('-key')` over a whole table: a permutation of it. */
  function SortDesc<T>(xs: seq<T>, key: T -> int): (r: seq<T>)
    ensures |r| == |xs|
    ensures multiset(r) == multiset(xs)
  {
    if |xs| == 0 then []
    else
      assert xs == [xs[0]] + xs[1..];
      InsertDesc(SortDesc(xs[1..], key), xs[0], key)
  }

  /** ... and that permutation is descending. */
  lemma {:induction false} SortDescSorted<T>(xs: seq<T>, key: T -> int)
    ensures SortedDesc(SortDesc(xs, key), key)
  {
    if |xs| > 0 {
      SortDescSorted(xs[1..], key);
      InsertDescSorted(SortDesc(xs[1..], key), xs[0], key);
    }
  }

  /** `rel` holds of every element and each one after it: uniqueness of a
      column and descending order are both of this shape. */
  ghost predicate Pairwise<T>(xs: seq<T>, rel: (T, T) -> bool) {
    forall i, j | 0 <= i < j < |xs| :: rel(xs[i], xs[j])
  }

  /** A filter keeps a pairwise property, since it keeps relative order. */
  lemma {:induction false} FilterPairwise<T>(xs: seq<T>, keep: T -> bool, rel: (T, T) -> bool)
    requires Pairwise(xs, rel)
    ensures Pairwise(Filter(xs, keep), rel)
  {
    if |xs| > 0 {
      var rest := Filter(xs[1..], keep);
      FilterPairwise(xs[1..], keep, rel);
      assert Pairwise(xs[1..], rel) by {
        forall i, j | 0 <= i < j < |xs[1..]|
          ensures rel(xs[1..][i], xs[1..][j])
        {
          assert xs[1..][i] == xs[i + 1] && xs[1..][j] == xs[j + 1];
        }
      }
      if keep(xs[0]) {
        var r := [xs[0]] + rest;
        forall i, j | 0 <= i < j < |r|
          ensures rel(r[i], r[j])
        {
          if i == 0 {
            assert r[j] == rest[j - 1];
            assert rest[j - 1] in xs[1..];
            var m :| 0 <= m < |xs[1..]| && xs[1..][m] == rest[j - 1];
            assert xs[m + 1] == r[j];
          } else {
            assert r[i] == rest[i - 1] && r[j] == rest[j - 1];
          }
        }
      }
    }
  }

  /** `[f(x) for x in xs]`. */
  function MapSeq<T, U>(xs: seq<T>, f: T -> U): (r: seq<U>)
    ensures |r| == |xs|
    ensures forall i | 0 <= i < |xs| :: r[i] == f(xs[i])
  {
    seq(|xs|, i requires 0 <= i < |xs| => f(xs[i]))
  }

  /** Filtering a mapped list is mapping the elements whose images pass. */
  lemma {:induction false} FilterMapSeq<T, U>(xs: seq<T>, f: T -> U, keep: U -> bool, keepPre: T -> bool)
    requires forall i | 0 <= i < |xs| :: keepPre(xs[i]) == keep(f(xs[i]))
    ensures Filter(MapSeq(xs, f), keep) == MapSeq(Filter(xs, keepPre), f)
  {
    if |xs| > 0 {
      assert forall i | 0 <= i < |xs[1..]| :: xs[1..][i] == xs[i + 1];
      FilterMapSeq(xs[1..], f, keep, keepPre);
      FilterMapSeqStep(xs, f, keep, keepPre);
    }
  }

  lemma FilterMapSeqStep<T, U>(xs: seq<T>, f: T -> U, keep: U -> bool, keepPre: T -> bool)
    requires |xs| > 0 && keepPre(xs[0]) == keep(f(xs[0]))
    requires Filter(MapSeq(xs[1..], f), keep) == MapSeq(Filter(xs[1..], keepPre), f)
    ensures Filter(MapSeq(xs, f), keep) == MapSeq(Filter(xs, keepPre), f)
  {
    var ys := MapSeq(xs, f);
    MapSeqTail(xs, f);
    var rest := Filter(xs[1..], keepPre);
    if keepPre(xs[0]) {
      MapSeqCons(xs[0], rest, f);
      assert Filter(xs, keepPre) == [xs[0]] + rest;
      assert Filter(ys, keep) == [ys[0]] + Filter(ys[1..], keep);
    } else {
      assert Filter(xs, keepPre) == rest;
      assert Filter(ys, keep) == Filter(ys[1..], keep);
    }
  }

  lemma MapSeqTail<T, U>(xs: seq<T>, f: T -> U)
    requires |xs| > 0
    ensures MapSeq(xs, f)[0] == f(xs[0]) && MapSeq(xs, f)[1..] == MapSeq(xs[1..], f)
  {
  }

  lemma MapSeqCons<T, U>(x: T, xs: seq<T>, f: T -> U)
    ensures MapSeq([x] + xs, f) == [f(x)] + MapSeq(xs, f)
  {
  }

  lemma MapSeqAppend<T, U>(a: seq<T>, b: seq<T>, f: T -> U)
    ensures MapSeq(a + b, f) == MapSeq(a, f) + MapSeq(b, f)
  {
    var l := MapSeq(a + b, f);
    var r := MapSeq(a, f) + MapSeq(b, f);
    forall i | 0 <= i < |l|
      ensures l[i] == r[i]
    {
      if i < |a| {
        assert (a + b)[i] == a[i];
      } else {
        assert (a + b)[i] == b[i - |a|];
      }
    }
  }

  /** An auto-increment key: larger than every key in use. */
  function NextId<T>(xs: seq<T>, key: T -> nat): (id: nat)
    ensures forall i | 0 <= i < |xs| :: key(xs[i]) < id
  {
    if |xs| == 0 then 1
    else
      var rest := NextId(xs[1..], key);
      assert forall i | 1 <= i < |xs| :: xs[i] == xs[1..][i - 1];
      if key(xs[0]) + 1 > rest then key(xs[0]) + 1 else rest
  }

  function Min(a: int, b: int): int {
    if a <= b then a else b
  }
}

=== FILE: client.dfy ===
/** What the front-end pages share: the outcome of a request as the HTTP
    client reports it, and the `FormData` payloads two forms build from
    their state objects. */
module Client {
  import opened Base
  import Js
  import Text

  /** A request's outcome: a 2xx answer, an error answer with its status
      and body (`err.response`), or no answer at all. */
  datatype Reply =
    | Ok(data: Js.Value)
    | HttpError(status: nat, data: Js.Value)
    | NetworkError(message: string)

  /** `err.response?.data`: the error body, `undefined` without an answer. */
  function ErrorData(r: Reply): (d: Js.Value)
    ensures r.HttpError? ==> d == r.data
    ensures !r.HttpError? ==> d == Js.Undefined
  {
    if r.HttpError? then r.data else Js.Undefined
  }

  /** `err.message` as the HTTP client writes it: its own text for a lost
      connection, the status for an error answer. */
  function ErrorMessage(r: Reply): string {
    match r
    case NetworkError(message) => message
    case HttpError(status, _) => "Request failed with status code " + Text.NatToDecimal(status)
    case Ok(_) => ""
  }

  /** One `FormData` part: text, or an uploaded file. */
  datatype Part = Text(text: string) | Upload(file: Js.File)

  /** The parts appended for the entries of a form object, in entry order:
      each entry `send` accepts, written by `encode`. */
  function Payload(entries: seq<(string, Js.Value)>, send: ((string, Js.Value)) -> bool,
                   encode: ((string, Js.Value)) -> Part): (parts: seq<(string, Part)>)
    ensures |parts| <= |entries|
    ensures forall i | 0 <= i < |entries| && send(entries[i]) :: (entries[i].0, encode(entries[i])) in parts
  {
    if |entries| == 0 then []
    else
      var rest := Payload(entries[1..], send, encode);
      assert forall i | 1 <= i < |entries| :: entries[i] == entries[1..][i - 1];
      (if send(entries[0]) then [(entries[0].0, encode(entries[0]))] else []) + rest
  }

  /** Every part comes from an entry that is sent. */
  lemma {:induction false} PayloadSource(entries: seq<(string, Js.Value)>, send: ((string, Js.Value)) -> bool,
                                         encode: ((string, Js.Value)) -> Part, i: nat) returns (j: nat)
    requires i < |Payload(entries, send, encode)|
    ensures j < |entries| && send(entries[j])
    ensures Payload(entries, send, encode)[i] == (entries[j].0, encode(entries[j]))
  {
    var head := if send(entries[0]) then [(entries[0].0, encode(entries[0]))] else [];
    if i < |head| {
      j := 0;
    } else {
      var k := PayloadSource(entries[1..], send, encode, i - |head|);
      j := k + 1;
    }
  }

  /** A key the payload has a part for. */
  predicate HasPart(parts: seq<(string, Part)>, key: string) {
    exists i | 0 <= i < |parts| :: parts[i].0 == key
  }

  /** A key is in the payload exactly when some entry under it is sent. */
  lemma PayloadKeys(entries: seq<(string, Js.Value)>, send: ((string, Js.Value)) -> bool,
                    encode: ((string, Js.Value)) -> Part, key: string)
    ensures HasPart(Payload(entries, send, encode), key) <==>
      exists j | 0 <= j < |entries| :: entries[j].0 == key && send(entries[j])
  {
    var parts := Payload(entries, send, encode);
    if HasPart(parts, key) {
      PartHasEntry(entries, send, encode, parts, key);
    }
    if exists j | 0 <= j < |entries| :: entries[j].0 == key && send(entries[j]) {
      var j :| 0 <= j < |entries| && entries[j].0 == key && send(entries[j]);
      assert (entries[j].0, encode(entries[j])) in parts;
    }
  }

  lemma PartHasEntry(entries: seq<(string, Js.Value)>, send: ((string, Js.Value)) -> bool,
                     encode: ((string, Js.Value)) -> Part, parts: seq<(string, Part)>, key: string)
    requires parts == Payload(entries, send, encode) && HasPart(parts, key)
    ensures exists j | 0 <= j < |entries| :: entries[j].0 == key && send(entries[j])
  {
    var i :| 0 <= i < |parts| && parts[i].0 == key;
    var j := PayloadSource(entries, send, encode, i);
    assert entries[j].0 == key;
  }
}

=== FILE: dashboard.dfy ===
/** The dashboard page: where its cards lead, which panels it shows to
    whom, how it reads the statistics and its completion ratio. */
module Dashboard {
  import opened Base
  import opened Http
  import opened Session
  import Js
  import Models
  import Text
  import ParcelList
  import AccountViews

  /** A client-side route: a path and its query parameters. */
  datatype Route = Route(path: string, query: Query)

  /** `handleCardClick`: the route a card leads to, nothing for an unknown
      card. */
  function CardRoute(s: Session, card: string): (r: Option<Route>)
    ensures card == "total-users" ==> r == Some(Route(if IsRole(s, "admin") then "/users" else "/owners", map[]))
    ensures card == "total-owners" ==> r == Some(Route("/owners", map[]))
    ensures card == "total-lands" ==> r == Some(Route("/parcels", map[]))
    ensures card in ["active-lands", "inactive-lands", "pending-lands"] ==>
      r.Some? && r.value.path == "/parcels" && r.value.query.Keys == {"status"}
    ensures card == "land-value" ==> r == Some(Route("/parcels", map["sort" := "value", "order" := "desc"]))
    ensures r.None? <==>
      card !in ["total-users", "total-owners", "total-lands", "active-lands", "inactive-lands",
                "pending-lands", "land-value"]
  {
    match card
    case "total-users" => Some(Route(if IsRole(s, "admin") then "/users" else "/owners", map[]))
    case "total-owners" => Some(Route("/owners", map[]))
    case "total-lands" => Some(Route("/parcels", map[]))
    case "active-lands" => Some(Route("/parcels", map["status" := "Active"]))
    case "inactive-lands" => Some(Route("/parcels", map["status" := "Inactive"]))
    case "pending-lands" => Some(Route("/parcels", map["status" := "Pending"]))
    case "land-value" => Some(Route("/parcels", map["sort" := "value", "order" := "desc"]))
    case _ => None
  }

  /** The land-value card opens the parcel list sorted by value, largest
      first, and the list asks the server for `-current_market_value`. */
  lemma LandValueCardSortsByValue(s: Session)
    ensures var q := CardRoute(s, "land-value").value.query;
      var state := ParcelList.DecodeUrl(q, ParcelList.Initial);
      && state.sortBy == "value_desc"
      && state.(sortBy := "newest") == ParcelList.Initial
      && ParcelList.FetchParams(state)["ordering"] == "-current_market_value"
  {
    var q := CardRoute(s, "land-value").value.query;
    assert Param(q, "order") == Some("desc");
  }

  /** The active-lands card makes the list ask for `status=active`, the
      value a new parcel's status defaults to. */
  lemma ActiveCardAsksForDefaultStatus(s: Session)
    ensures var q := CardRoute(s, "active-lands").value.query;
      var params := ParcelList.FetchParams(ParcelList.DecodeUrl(q, ParcelList.Initial));
      "status" in params && params["status"] == Models.DefaultParcelStatus
  {
    var q := CardRoute(s, "active-lands").value.query;
    var state := ParcelList.DecodeUrl(q, ParcelList.Initial);
    assert state.status == "Active";
    assert Text.ToLower("Active") == "active";
  }

  // ------------------------------------------------------------ panels

  datatype Panel = AdminPanel | OfficerPanel | OwnerPanel

  /** `getUserDashboardContent`: one panel per known role, none without a
      user or for any other role. */
  function RolePanel(s: Session): (panel: Option<Panel>)
    ensures panel.None? <==> s.NoUser? || s.role !in ["admin", "officer", "owner"]
    ensures panel == Some(AdminPanel) <==> IsRole(s, "admin")
    ensures panel == Some(OfficerPanel) <==> IsRole(s, "officer")
    ensures panel == Some(OwnerPanel) <==> IsRole(s, "owner")
  {
    if s.NoUser? then None
    else match s.role
      case "admin" => Some(AdminPanel)
      case "officer" => Some(OfficerPanel)
      case "owner" => Some(OwnerPanel)
      case _ => None
  }

  /** The status cards and the recent-activity panels: shown once the
      statistics are loaded, and only to admins and officers. */
  predicate StaffSectionsShown(s: Session, statsLoaded: bool) {
    statsLoaded && IsStaff(s)
  }

  /** Whoever sees the staff sections sees the admin or the officer panel;
      an owner never does. */
  lemma StaffSectionsOnlyForStaff(s: Session, statsLoaded: bool)
    ensures StaffSectionsShown(s, statsLoaded) ==> RolePanel(s) in {Some(AdminPanel), Some(OfficerPanel)}
    ensures RolePanel(s) == Some(OwnerPanel) ==> !StaffSectionsShown(s, statsLoaded)
  {
  }

  // ------------------------------------------------------------ statistics

  /** The statistics as the page keeps them. */
  datatype ViewStats = ViewStats(
    totalLands: Js.Value,
    totalUsers: Js.Value,
    totalOwners: Js.Value,
    activeLands: Js.Value,
    inactiveLands: Js.Value,
    pendingLands: Js.Value,
    landValue: Js.Value,
    userDistribution: Js.Value,
    ownersWithProfiles: Js.Value,
    totalRegisteredOwners: Js.Value,
    recentActivities: Js.Value,
    recentRegistrations: Js.Value)

  /** `v || fallback`. */
  function Or(v: Js.Value, fallback: Js.Value): (r: Js.Value)
    ensures Js.Truthy(v) ==> r == v
    ensures !Js.Truthy(v) ==> r == fallback
  {
    if Js.Truthy(v) then v else fallback
  }

  const ZeroDistribution := Js.Obj([("owners", Js.Num(0)), ("officers", Js.Num(0)), ("admins", Js.Num(0))])

  /** How the page reads the answer: a missing or falsy count is 0, a
      missing list is empty. */
  function ReadStats(data: Js.Value): (v: ViewStats)
    ensures !Js.Truthy(Js.Get(data, "totalLands")) ==> v.totalLands == Js.Num(0)
    ensures Js.Truthy(Js.Get(data, "totalLands")) ==> v.totalLands == Js.Get(data, "totalLands")
    ensures !Js.Truthy(Js.Get(data, "recentActivities")) ==> v.recentActivities == Js.Arr([])
    ensures !Js.Truthy(Js.Get(data, "userDistribution")) ==> v.userDistribution == ZeroDistribution
  {
    ViewStats(
      Or(Js.Get(data, "totalLands"), Js.Num(0)),
      Or(Js.Get(data, "totalUsers"), Js.Num(0)),
      Or(Js.Get(data, "totalOwners"), Js.Num(0)),
      Or(Js.Get(data, "activeLands"), Js.Num(0)),
      Or(Js.Get(data, "inactiveLands"), Js.Num(0)),
      Or(Js.Get(data, "pendingLands"), Js.Num(0)),
      Or(Js.Get(data, "landValue"), Js.Num(0)),
      Or(Js.Get(data, "userDistribution"), ZeroDistribution),
      Or(Js.Get(data, "ownersWithProfiles"), Js.Num(0)),
      Or(Js.Get(data, "totalRegisteredOwners"), Js.Num(0)),
      Or(Js.Get(data, "recentActivities"), Js.Arr([])),
      Or(Js.Get(data, "recentRegistrations"), Js.Arr([])))
  }

  /** Reading anything at all, every count is a number when the answer's
      is, and every list is a list. */
  lemma ReadStatsDefaults(data: Js.Value)
    ensures var v := ReadStats(data);
      && (Js.Get(data, "pendingLands").Num? ==> v.pendingLands.Num?)
      && (Js.Get(data, "recentRegistrations").Arr? || !Js.Truthy(Js.Get(data, "recentRegistrations"))
          ==> v.recentRegistrations.Arr?)
  {
  }

  /** The JSON the dashboard endpoint answers with. */
  function StatsJson(st: AccountViews.Stats): Js.Value {
    Js.Obj([
      ("totalUsers", Js.Num(st.totalUsers)),
      ("totalOwners", Js.Num(st.totalOwners)),
      ("totalLands", Js.Num(st.totalLands)),
      ("activeLands", Js.Num(st.activeLands)),
      ("inactiveLands", Js.Num(st.inactiveLands)),
      ("pendingLands", Js.Num(st.pendingLands)),
      ("landValue", Js.Num(st.landValue)),
      ("userDistribution", Js.Obj([("owners", Js.Num(st.owners)), ("officers", Js.Num(st.officers)),
                                   ("admins", Js.Num(st.admins))])),
      ("ownersWithProfiles", Js.Num(st.ownersWithProfiles)),
      ("totalRegisteredOwners", Js.Num(st.totalRegisteredOwners)),
      ("recentActivities", Js.Arr(MapSeq(st.recentActivities, ActivityJson)))])
  }

  function ActivityJson(a: AccountViews.Activity): Js.Value {
    Js.Obj([("id", Js.Num(a.id)), ("description", Js.Str(a.description))])
  }

  /** The page shows the server's counts unchanged (a 0 read as the
      default 0), and the registrations list, which the server never
      sends, as empty. */
  lemma ReadStatsOfServer(st: AccountViews.Stats)
    ensures var v := ReadStats(StatsJson(st));
      && v.totalLands == Js.Num(st.totalLands)
      && v.activeLands == Js.Num(st.activeLands)
      && v.inactiveLands == Js.Num(st.inactiveLands)
      && v.ownersWithProfiles == Js.Num(st.ownersWithProfiles)
      && v.totalRegisteredOwners == Js.Num(st.totalRegisteredOwners)
      && v.recentRegistrations == Js.Arr([])
  {
    StatsCounts(st);
    ReadCounts(StatsJson(st), st);
  }

  /** What the page's reads of the server's answer find. */
  lemma StatsCounts(st: AccountViews.Stats)
    ensures Js.Get(StatsJson(st), "totalLands") == Js.Num(st.totalLands)
    ensures Js.Get(StatsJson(st), "activeLands") == Js.Num(st.activeLands)
    ensures Js.Get(StatsJson(st), "inactiveLands") == Js.Num(st.inactiveLands)
    ensures Js.Get(StatsJson(st), "ownersWithProfiles") == Js.Num(st.ownersWithProfiles)
    ensures Js.Get(StatsJson(st), "totalRegisteredOwners") == Js.Num(st.totalRegisteredOwners)
    ensures Js.Get(StatsJson(st), "recentRegistrations") == Js.Undefined
  {
    StatsGet(st, 2);
    StatsGet(st, 3);
    StatsGet(st, 4);
    StatsGet(st, 8);
    StatsGet(st, 9);
    NoRegistrations(st);
  }

  lemma StatsGet(st: AccountViews.Stats, i: nat)
    requires i < |StatsKeys|
    ensures Js.Get(StatsJson(st), StatsKeys[i]) == StatsJson(st).entries[i].1
  {
    StatsLookup(st, StatsKeys[i], i);
  }

  lemma ReadCounts(j: Js.Value, st: AccountViews.Stats)
    requires Js.Get(j, "totalLands") == Js.Num(st.totalLands)
    requires Js.Get(j, "activeLands") == Js.Num(st.activeLands)
    requires Js.Get(j, "inactiveLands") == Js.Num(st.inactiveLands)
    requires Js.Get(j, "ownersWithProfiles") == Js.Num(st.ownersWithProfiles)
    requires Js.Get(j, "totalRegisteredOwners") == Js.Num(st.totalRegisteredOwners)
    requires Js.Get(j, "recentRegistrations") == Js.Undefined
    ensures var v := ReadStats(j);
      && v.totalLands == Js.Num(st.totalLands)
      && v.activeLands == Js.Num(st.activeLands)
      && v.inactiveLands == Js.Num(st.inactiveLands)
      && v.ownersWithProfiles == Js.Num(st.ownersWithProfiles)
      && v.totalRegisteredOwners == Js.Num(st.totalRegisteredOwners)
      && v.recentRegistrations == Js.Arr([])
  {
  }

  /** The keys of the server's answer, in order. */
  const StatsKeys := ["totalUsers", "totalOwners", "totalLands", "activeLands", "inactiveLands",
                      "pendingLands", "landValue", "userDistribution", "ownersWithProfiles",
                      "totalRegisteredOwners", "recentActivities"]

  /** Reading the `i`-th key of the answer finds the `i`-th entry. */
  lemma StatsLookup(st: AccountViews.Stats, key: string, i: nat)
    requires i < |StatsKeys| && StatsKeys[i] == key
    ensures Js.Lookup(StatsJson(st).entries, key) == StatsJson(st).entries[i].1
  {
    var e := StatsJson(st).entries;
    assert Js.Keys(e) == StatsKeys;
    forall j | 0 <= j < i
      ensures e[j].0 != key
    {
      assert StatsKeys[j] != StatsKeys[i];
    }
    Js.LookupAt(e, key, i);
  }

  /** The server's answer has no `recentRegistrations` key. */
  lemma NoRegistrations(st: AccountViews.Stats)
    ensures !Js.HasKey(StatsJson(st).entries, "recentRegistrations")
  {
    var e := StatsJson(st).entries;
    forall i | 0 <= i < |e|
      ensures e[i].0 != "recentRegistrations"
    {
      assert e[i].0[6] != "recentRegistrations"[6] || e[i].0[0] != 'r';
    }
  }

  /** `Math.round(x)` of `n / d`: the nearest integer, halves rounded up. */
  function RoundDiv(n: int, d: int): (r: int)
    requires d > 0
    ensures 2 * r * d - d <= 2 * n < 2 * r * d + d
  {
    (2 * n + d) / (2 * d)
  }

  /** The profile completion rate, in percent: the division uses at least
      1, so no registered owner gives a plain ratio instead of a division
      by zero. */
  function CompletionPercent(withProfiles: int, registered: int): (pct: int)
    ensures registered <= 1 ==> pct == 100 * withProfiles
    ensures 0 <= withProfiles <= registered ==> 0 <= pct <= 100
  {
    var d := if registered > 1 then registered else 1;
    if 0 <= withProfiles <= registered then
      RoundDivRange(100 * withProfiles, d, 100);
      RoundDiv(100 * withProfiles, d)
    else
      RoundDiv(100 * withProfiles, d)
  }

  /** A ratio between 0 and `hi` rounds to an integer between 0 and `hi`. */
  lemma RoundDivRange(n: int, d: int, hi: nat)
    requires d > 0 && 0 <= n <= hi * d
    ensures 0 <= RoundDiv(n, d) <= hi
  {
    var r := RoundDiv(n, d);
    assert (2 * r - 2 * hi - 1) * d == 2 * r * d - 2 * hi * d - d;
    NonPositiveFactor(2 * r - 2 * hi - 1, d);
    assert (-2 * r - 1) * d == -(2 * r * d) - d;
    NonPositiveFactor(-2 * r - 1, d);
  }

  lemma NonPositiveFactor(a: int, d: int)
    requires d > 0 && a * d <= 0
    ensures a <= 0
  {
  }
}

=== FILE: http.dfy ===
/** What the REST views answer and how they read their query strings. A
    query string is a map from parameter name to its (first) value; the
    percent-encoding of the URL is not modelled. */
module Http {
  import opened Base
  import opened Accounts
  import Text

  const OK := 200
  const CREATED := 201
  const BAD_REQUEST := 400
  const UNAUTHORIZED := 401
  const FORBIDDEN := 403
  const NOT_FOUND := 404
  const SERVER_ERROR := 500

  /** A response: a success status with a body, or an error status with
      the message of its body. */
  datatype Reply<T> = Success(status: nat, body: T) | Failure(status: nat, detail: string)

  /** What DRF answers when a permission check fails: 401 to a request
      without credentials, 403 to a signed-in user. */
  function Refuse<T>(p: Principal): (r: Reply<T>)
    ensures r.Failure?
    ensures r.status == UNAUTHORIZED <==> p.Anonymous?
    ensures r.status == FORBIDDEN <==> p.SignedIn?
  {
    if p.Anonymous? then Failure(UNAUTHORIZED, "Authentication credentials were not provided.")
    else Failure(FORBIDDEN, "You do not have permission to perform this action.")
  }

  const NoRoleAttribute := "'AnonymousUser' object has no attribute 'role'"

  /** DRF's answer to a request whose permission check did not grant it:
      the refusal for a denial, and a 500 for an exception that escapes
      the check (DRF's handler converts only its own exceptions). */
  function Unpermitted<T>(p: Principal, c: Check): (r: Reply<T>)
    requires c != Granted
    ensures r.Failure?
    ensures r.status == SERVER_ERROR <==> c == Raised
    ensures c == Denied ==> r == Refuse(p)
  {
    if c == Raised then Failure(SERVER_ERROR, NoRoleAttribute) else Refuse(p)
  }

  /** With the guarded role check an anonymous request gets DRF's 401 and
      a signed-in one the answer it gets as written. */
  lemma GuardedCheckRefusesAnonymous<T>(p: Principal, roles: seq<string>)
    requires GuardedRoleCheck(p, roles) != Granted
    ensures p.Anonymous? ==> Unpermitted<T>(p, GuardedRoleCheck(p, roles)).status == UNAUTHORIZED
    ensures p.SignedIn? ==> Unpermitted<T>(p, GuardedRoleCheck(p, roles)) == Unpermitted<T>(p, RoleCheck(p, roles))
  {
  }

  type Query = map<string, string>

  /** `request.query_params.get(key)`. */
  function Param(q: Query, key: string): (v: Option<string>)
    ensures v.Some? <==> key in q
    ensures v.Some? ==> v.value == q[key]
  {
    if key in q then Some(q[key]) else None
  }

  /** `if value:` on a query parameter: present and non-empty. */
  predicate Given(q: Query, key: string) {
    key in q && q[key] != ""
  }

  /** A query parameter compared with an integer key: the key's decimal
      numeral. */
  predicate IdText(text: string, id: nat) {
    text == Text.NatToDecimal(id)
  }
}

=== FILE: js.dfy ===
/** JavaScript values as the front end sees them: decoded JSON response
    bodies, form state objects and the files a user picks. Objects keep
    their keys in insertion order, as `Object.entries` and object spread
    do. */
module Js {
  import opened Base
  import Text

  /** A `File` chosen in an `<input type="file">`. */
  datatype File = File(name: string, mimeType: string, size: nat)

  datatype Value =
    | Undefined
    | Null
    | Bool(b: bool)
    | Num(n: int)
    | Str(s: string)
    | Arr(items: seq<Value>)
    | Obj(entries: seq<(string, Value)>)
    | FileVal(file: File)

  /** JavaScript truthiness: `undefined`, `null`, `false`, `0` and `""` are
      falsy; arrays, objects and files are truthy even when empty. */
  predicate Truthy(v: Value) {
    match v
    case Undefined => false
    case Null => false
    case Bool(b) => b
    case Num(n) => n != 0
    case Str(s) => s != ""
    case _ => true
  }

  /** `v === null || v === undefined`, the test behind `??`. */
  predicate IsNullish(v: Value) {
    v.Undefined? || v.Null?
  }

  /** `v !== null && v !== undefined && v !== ""`: the test both forms use
      to decide which fields go into a `FormData` payload. */
  predicate IsFilled(v: Value) {
    !IsNullish(v) && v != Str("")
  }

  predicate HasKey(entries: seq<(string, Value)>, key: string) {
    exists i | 0 <= i < |entries| :: entries[i].0 == key
  }

  /** `obj[key]`: the value stored under `key`, `undefined` when absent. */
  function Lookup(entries: seq<(string, Value)>, key: string): (v: Value)
    ensures !HasKey(entries, key) ==> v == Undefined
  {
    if |entries| == 0 then Undefined
    else if entries[0].0 == key then entries[0].1
    else Lookup(entries[1..], key)
  }

  /** The first entry with the key decides the lookup. */
  lemma {:induction false} LookupAt(entries: seq<(string, Value)>, key: string, i: nat)
    requires i < |entries| && entries[i].0 == key
    requires forall j | 0 <= j < i :: entries[j].0 != key
    ensures Lookup(entries, key) == entries[i].1
  {
    if i > 0 {
      LookupAt(entries[1..], key, i - 1);
    }
  }

  /** `v.key` on any value; only objects have own keys here. Reading a
      property of `null` or `undefined` throws in JavaScript; that case is
      read as `undefined`. */
  function Get(v: Value, key: string): Value {
    if v.Obj? then Lookup(v.entries, key) else Undefined
  }

  function Keys(entries: seq<(string, Value)>): (ks: seq<string>)
    ensures |ks| == |entries|
    ensures forall i | 0 <= i < |entries| :: ks[i] == entries[i].0
  {
    seq(|entries|, i requires 0 <= i < |entries| => entries[i].0)
  }

  /** No key occurs twice: what every JavaScript object satisfies. */
  predicate DistinctKeys(entries: seq<(string, Value)>) {
    forall i, j | 0 <= i < j < |entries| :: entries[i].0 != entries[j].0
  }

  /** `{...obj, [key]: val}`: an existing key keeps its position and takes
      the new value; a new key is appended. */
  function Set(entries: seq<(string, Value)>, key: string, val: Value): (r: seq<(string, Value)>)
    ensures HasKey(entries, key) ==> |r| == |entries|
    ensures !HasKey(entries, key) ==> r == entries + [(key, val)]
  {
    if |entries| == 0 then [(key, val)]
    else if entries[0].0 == key then [(key, val)] + entries[1..]
    else
      assert HasKey(entries, key) ==> HasKey(entries[1..], key);
      [entries[0]] + Set(entries[1..], key, val)
  }

  lemma {:induction false} SetLookup(entries: seq<(string, Value)>, key: string, val: Value, k: string)
    ensures Lookup(Set(entries, key, val), k) == (if k == key then val else Lookup(entries, k))
    ensures HasKey(Set(entries, key, val), k) <==> k == key || HasKey(entries, k)
  {
    var r := Set(entries, key, val);
    if |entries| == 0 {
    } else if entries[0].0 == key {
      assert r[1..] == entries[1..];
      if HasKey(entries, k) && k != key {
        var i :| 0 <= i < |entries| && entries[i].0 == k;
        assert r[i].0 == k;
      }
      if HasKey(r, k) && k != key {
        var i :| 0 <= i < |r| && r[i].0 == k;
        assert entries[i].0 == k;
      }
    } else {
      SetLookup(entries[1..], key, val, k);
      assert r[1..] == Set(entries[1..], key, val);
      if HasKey(entries, k) && entries[0].0 != k {
        var i :| 0 <= i < |entries| && entries[i].0 == k;
        assert entries[1..][i - 1].0 == k;
      }
      if HasKey(r, k) && entries[0].0 != k {
        var i :| 0 <= i < |r| && r[i].0 == k;
        assert r[1..][i - 1].0 == k;
      }
    }
  }

  /** Setting one key changes the lookup of that key only. */
  lemma SetOnly(entries: seq<(string, Value)>, key: string, val: Value)
    ensures Lookup(Set(entries, key, val), key) == val
    ensures forall k | k != key :: Lookup(Set(entries, key, val), k) == Lookup(entries, k)
  {
    forall k {
      SetLookup(entries, key, val, k);
    }
  }

  /** `{...a, ...b}`: the keys of `b` are set on `a` one after another. */
  function Spread(a: seq<(string, Value)>, b: seq<(string, Value)>): seq<(string, Value)>
    decreases |b|
  {
    if |b| == 0 then a else Spread(Set(a, b[0].0, b[0].1), b[1..])
  }

  /** After a spread a key reads from `b` when `b` has it, else from `a`. */
  lemma {:induction false} SpreadLookup(a: seq<(string, Value)>, b: seq<(string, Value)>, k: string)
    requires DistinctKeys(b)
    ensures Lookup(Spread(a, b), k) == (if HasKey(b, k) then Lookup(b, k) else Lookup(a, k))
    ensures HasKey(Spread(a, b), k) <==> HasKey(a, k) || HasKey(b, k)
    decreases |b|
  {
    if |b| > 0 {
      var a' := Set(a, b[0].0, b[0].1);
      SpreadLookup(a', b[1..], k);
      SetLookup(a, b[0].0, b[0].1, k);
      if HasKey(b[1..], k) {
        var i :| 0 <= i < |b[1..]| && b[1..][i].0 == k;
        assert b[i + 1].0 == k;
        assert b[0].0 != k;
      }
      if HasKey(b, k) && b[0].0 != k {
        var i :| 0 <= i < |b| && b[i].0 == k;
        assert b[1..][i - 1].0 == k;
      }
    }
  }

  /** `String(v)`, as `FormData.append` and `toString` write a value. */
  function ToString(v: Value): string
    decreases v
  {
    match v
    case Undefined => "undefined"
    case Null => "null"
    case Bool(b) => if b then "true" else "false"
    case Num(n) => Text.IntToString(n)
    case Str(s) => s
    case Arr(items) =>
      Text.Join(seq(|items|, i requires 0 <= i < |items| =>
        if IsNullish(items[i]) then "" else ToString(items[i])), ",")
    case Obj(_) => "[object Object]"
    case FileVal(_) => "[object File]"
  }

  /** The list a response body stands for, trying the body itself, then its
      `results`, then its `data`, and falling back to the empty list. */
  function ListFromArrayResultsOrData(data: Value): (r: seq<Value>)
    ensures data.Arr? ==> r == data.items
    ensures !data.Arr? && Get(data, "results").Arr? ==> r == Get(data, "results").items
    ensures !data.Arr? && !Get(data, "results").Arr? && Get(data, "data").Arr? ==> r == Get(data, "data").items
    ensures !data.Arr? && !Get(data, "results").Arr? && !Get(data, "data").Arr? ==> r == []
  {
    if data.Arr? then data.items
    else if Truthy(Get(data, "results")) && Get(data, "results").Arr? then Get(data, "results").items
    else if Truthy(Get(data, "data")) && Get(data, "data").Arr? then Get(data, "data").items
    else []
  }

  /** The same without the `data` fallback. */
  function ListFromArrayOrResults(data: Value): (r: seq<Value>)
    ensures data.Arr? ==> r == data.items
    ensures !data.Arr? && Get(data, "results").Arr? ==> r == Get(data, "results").items
    ensures !data.Arr? && !Get(data, "results").Arr? ==> r == []
  {
    if data.Arr? then data.items
    else if Truthy(Get(data, "results")) && Get(data, "results").Arr? then Get(data, "results").items
    else []
  }

  /** `v.length` for the values that have one. */
  function Length(v: Value): Option<nat> {
    match v
    case Arr(items) => Some(|items|)
    case Str(s) => Some(|s|)
    case _ => None
  }

  /** `v[0]` for the values that can be indexed. */
  function First(v: Value): Value {
    match v
    case Arr(items) => if |items| > 0 then items[0] else Undefined
    case Str(s) => if |s| > 0 then Str([s[0]]) else Undefined
    case _ => Undefined
  }

  /** `v.join(", ")` for a list, as an error text shows it; any other value
      as it is. */
  function Joined(v: Value): (r: Value)
    ensures !v.Arr? ==> r == v
    ensures v.Arr? ==> r.Str?
  {
    if v.Arr? then
      Str(Text.Join(seq(|v.items|, i requires 0 <= i < |v.items| =>
        if IsNullish(v.items[i]) then "" else ToString(v.items[i])), ", "))
    else v
  }

  /** `Object.keys(v)` with the values under them: an object's entries, an
      array's or a string's positions; nothing for other values. */
  function OwnEntries(v: Value): (entries: seq<(string, Value)>)
    ensures v.Obj? ==> entries == v.entries
  {
    match v
    case Obj(entries) => entries
    case Arr(items) => seq(|items|, i requires 0 <= i < |items| => (Text.NatToDecimal(i), items[i]))
    case Str(s) => seq(|s|, i requires 0 <= i < |s| => (Text.NatToDecimal(i), Str([s[i]])))
    case _ => []
  }
}

=== FILE: land_api.dfy ===
/** The parcel API: the serializer's `owner_name` and exposed fields, the
    list's custom filters and ordering, and the `owners` action. */
module LandApi {
  import opened Base
  import opened Accounts
  import opened Models
  import opened Registry
  import opened Http
  import Text
  import Js

  // ------------------------------------------------------------ serializer

  /** `get_owner_name`: "first last" of the owner of the parcel's first
      current record, "No Owner" when there is none. */
  function OwnerName(db: Db, parcel: nat): (name: string)
    ensures PrimaryOwner(db, parcel).Some? ==>
      name == PrimaryOwner(db, parcel).value.firstName + " " + PrimaryOwner(db, parcel).value.lastName
    ensures PrimaryOwner(db, parcel).None? ==> name == "No Owner"
  {
    var current := Filter(db.records, (r: OwnershipRecord) => r.parcel == parcel && r.isCurrentOwner);
    if |current| == 0 then "No Owner"
    else match FindProfile(db.profiles, current[0].owner)
      case None => "No Owner"
      case Some(owner) => owner.firstName + " " + owner.lastName
  }

  /** In a valid registry the name is "No Owner" exactly when the parcel
      has no current record (or its owner is literally named "No" "Owner"). */
  lemma NoOwnerIffNoCurrentRecord(db: Db, parcel: nat)
    requires Valid(db)
    ensures |CurrentOwners(db, parcel)| == 0 ==> OwnerName(db, parcel) == "No Owner"
    ensures |CurrentOwners(db, parcel)| > 0 ==>
      var owner := PrimaryOwner(db, parcel).value;
      owner.id == CurrentOwners(db, parcel)[0].owner && OwnerName(db, parcel) == owner.firstName + " " + owner.lastName
  {
  }

  /** `LandParcelSerializer.Meta.fields`, as written (`land_use_zone` is
      listed twice). */
  const ParcelFieldList: seq<string> := [
    "parcel_id", "cadastral_number", "survey_number", "block_number", "sector_number",
    "mouza_name", "location", "area", "land_use_zone", "status", "in_north", "in_east",
    "in_west", "in_south", "parcel_file", "land_use_zone", "registration_date",
    "registration_number", "title_deed_number", "current_market_value", "annual_tax_value",
    "development_status", "has_structures", "date_created", "last_updated", "is_active",
    "owner_name"]

  /** The keys a serialized parcel carries. */
  function ExposedParcelFields(): (keys: set<string>)
    ensures forall k :: k in keys <==> k in ParcelFieldList
  {
    set i | 0 <= i < |ParcelFieldList| :: ParcelFieldList[i]
  }

  /** The key is `parcel_id`, never `id`, and `land_use_type` is neither
      read nor written through the API. */
  lemma ExposedParcelFieldsFacts()
    ensures "parcel_id" in ExposedParcelFields() && "owner_name" in ExposedParcelFields()
    ensures "id" !in ExposedParcelFields()
    ensures "land_use_type" !in ExposedParcelFields()
    ensures |ParcelFieldList| == 27
  {
    assert ParcelFieldList[0] == "parcel_id";
    assert ParcelFieldList[26] == "owner_name";
    NotAField("id");
    NotAField("land_use_type");
  }

  /** Neither `id` nor `land_use_type` is a declared field. */
  lemma NotAField(key: string)
    requires key == "id" || key == "land_use_type"
    ensures key !in ParcelFieldList
  {
    forall i | 0 <= i < |ParcelFieldList|
      ensures ParcelFieldList[i] != key
    {
    }
  }

  function OptText(o: Option<string>): Js.Value {
    if o.Some? then Js.Str(o.value) else Js.Null
  }

  /** A parcel as the list and detail endpoints serialize it (the fields
      kept by this model, in the serializer's order). */
  function ParcelJson(db: Db, p: Parcel): (v: Js.Value)
    ensures v.Obj? && |v.entries| == 9
    ensures Js.Get(v, "parcel_id") == Js.Num(p.parcelId)
    ensures !Js.HasKey(v.entries, "id")
    ensures Js.Get(v, "owner_name") == Js.Str(OwnerName(db, p.parcelId))
  {
    var entries := [
      ("parcel_id", Js.Num(p.parcelId)),
      ("cadastral_number", Js.Str(p.cadastralNumber)),
      ("location", Js.Str(p.location)),
      ("land_use_zone", OptText(p.landUseZone)),
      ("status", Js.Str(p.status)),
      ("registration_number", OptText(p.registrationNumber)),
      ("has_structures", Js.Bool(p.hasStructures)),
      ("is_active", Js.Bool(p.isActive)),
      ("owner_name", Js.Str(OwnerName(db, p.parcelId)))];
    Js.LookupAt(entries, "owner_name", 8);
    Js.Obj(entries)
  }

  /** The keys of a serialized parcel, in order. */
  const ParcelJsonKeyList: seq<string> := [
    "parcel_id", "cadastral_number", "location", "land_use_zone", "status",
    "registration_number", "has_structures", "is_active", "owner_name"]

  lemma ParcelJsonKeyOrder(db: Db, p: Parcel)
    ensures Js.Keys(ParcelJson(db, p).entries) == ParcelJsonKeyList
  {
  }

  /** No key of a serialized parcel repeats. */
  lemma ParcelJsonDistinct(db: Db, p: Parcel)
    ensures Js.DistinctKeys(ParcelJson(db, p).entries)
  {
    ParcelJsonKeyOrder(db, p);
    KeyListDistinct();
  }

  lemma KeyListDistinct()
    ensures forall i, j | 0 <= i < j < |ParcelJsonKeyList| :: ParcelJsonKeyList[i] != ParcelJsonKeyList[j]
  {
    var ks := ParcelJsonKeyList;
    forall i, j | 0 <= i < j < |ks|
      ensures ks[i] != ks[j]
    {
      assert |ks[i]| != |ks[j]| || ks[i][0] != ks[j][0];
    }
  }

  /** Every key of a serialized parcel is one the serializer declares. */
  lemma ParcelJsonExposed(db: Db, p: Parcel)
    ensures forall i | 0 <= i < 9 :: ParcelJson(db, p).entries[i].0 in ExposedParcelFields()
  {
    ParcelJsonKeyOrder(db, p);
    KeysDeclared();
  }

  /** Each key of a serialized parcel stands at some place in the field
      list. */
  lemma KeysDeclared()
    ensures forall i | 0 <= i < |ParcelJsonKeyList| :: ParcelJsonKeyList[i] in ParcelFieldList
  {
    forall i | 0 <= i < |ParcelJsonKeyList|
      ensures ParcelJsonKeyList[i] in ParcelFieldList
    {
      var j := FieldPlace(i);
    }
  }

  /** Where the `i`-th key of a serialized parcel stands in the field list. */
  lemma FieldPlace(i: nat) returns (j: nat)
    requires i < |ParcelJsonKeyList|
    ensures j < |ParcelFieldList| && ParcelFieldList[j] == ParcelJsonKeyList[i]
  {
    var places := [0, 1, 6, 8, 9, 17, 22, 25, 26];
    j := places[i];
    if i == 0 { assert ParcelFieldList[0] == "parcel_id"; }
    else if i == 1 { assert ParcelFieldList[1] == "cadastral_number"; }
    else if i == 2 { assert ParcelFieldList[6] == "location"; }
    else if i == 3 { assert ParcelFieldList[8] == "land_use_zone"; }
    else if i == 4 { assert ParcelFieldList[9] == "status"; }
    else if i == 5 { assert ParcelFieldList[17] == "registration_number"; }
    else if i == 6 { assert ParcelFieldList[22] == "has_structures"; }
    else if i == 7 { assert ParcelFieldList[25] == "is_active"; }
    else { assert ParcelFieldList[26] == "owner_name"; }
  }

  // ------------------------------------------------------------ list

  /** The owner holds a current record for the parcel. */
  predicate HeldBy(db: Db, parcel: nat, owner: string) {
    exists i | 0 <= i < |db.records| ::
      db.records[i].parcel == parcel && db.records[i].isCurrentOwner && IdText(owner, db.records[i].owner)
  }

  /** `field__icontains=text` on a name part. */
  predicate NameContains(part: string, text: string) {
    Text.Contains(Text.ToLower(part), Text.ToLower(text))
  }

  predicate NameMatches(p: OwnerProfile, text: string) {
    || NameContains(p.firstName, text)
    || NameContains(p.lastName, text)
    || (p.middleName.Some? && NameContains(p.middleName.value, text))
  }

  /** A current record of the parcel belongs to a profile whose first, last
      or middle name contains the text, ignoring case. */
  predicate HeldByName(db: Db, parcel: nat, text: string) {
    exists i, j | 0 <= i < |db.records| && 0 <= j < |db.profiles| ::
      && db.records[i].parcel == parcel && db.records[i].isCurrentOwner
      && db.profiles[j].id == db.records[i].owner && NameMatches(db.profiles[j], text)
  }

  /** The four filters of `get_queryset`; an absent or empty parameter
      lets every parcel through. */
  predicate OwnerFilter(db: Db, q: Query, p: Parcel) {
    Given(q, "owner") ==> HeldBy(db, p.parcelId, q["owner"])
  }

  predicate OwnerNameFilter(db: Db, q: Query, p: Parcel) {
    Given(q, "owner_name") ==> HeldByName(db, p.parcelId, q["owner_name"])
  }

  predicate LandUseZoneFilter(q: Query, p: Parcel) {
    Given(q, "land_use_zone") ==> p.landUseZone == Some(q["land_use_zone"])
  }

  predicate LandZoneFilter(q: Query, p: Parcel) {
    Given(q, "land_zone") ==> p.landUseZone == Some(q["land_zone"])
  }

  predicate ParcelMatches(db: Db, q: Query, p: Parcel) {
    OwnerFilter(db, q, p) && OwnerNameFilter(db, q, p) && LandUseZoneFilter(q, p) && LandZoneFilter(q, p)
  }

  /** `LandParcelViewSet.get_queryset`: the filters applied one after
      another. */
  function ParcelQuery(db: Db, q: Query): (r: seq<Parcel>)
    ensures |r| <= |db.parcels|
  {
    var byOwner := Filter(db.parcels, (p: Parcel) => OwnerFilter(db, q, p));
    var byName := Filter(byOwner, (p: Parcel) => OwnerNameFilter(db, q, p));
    var byZone := Filter(byName, (p: Parcel) => LandUseZoneFilter(q, p));
    Filter(byZone, (p: Parcel) => LandZoneFilter(q, p))
  }

  /** A filter whose parameter is absent keeps everything. */
  lemma AbsentFiltersKeepAll(db: Db, q: Query)
    requires !Given(q, "owner") && !Given(q, "owner_name") && !Given(q, "land_use_zone") && !Given(q, "land_zone")
    ensures ParcelQuery(db, q) == db.parcels
  {
    FilterKeepsAll(db.parcels, (p: Parcel) => OwnerFilter(db, q, p));
    FilterKeepsAll(db.parcels, (p: Parcel) => OwnerNameFilter(db, q, p));
    FilterKeepsAll(db.parcels, (p: Parcel) => LandUseZoneFilter(q, p));
    FilterKeepsAll(db.parcels, (p: Parcel) => LandZoneFilter(q, p));
  }

  /** The chain of filters is one filter on their conjunction: the result
      is a sub-list of the parcels and the filters intersect. */
  lemma ParcelQueryIsConjunction(db: Db, q: Query)
    ensures ParcelQuery(db, q) == Filter(db.parcels, (p: Parcel) => ParcelMatches(db, q, p))
  {
    var f1 := (p: Parcel) => OwnerFilter(db, q, p);
    var f2 := (p: Parcel) => OwnerNameFilter(db, q, p);
    var f3 := (p: Parcel) => LandUseZoneFilter(q, p);
    var f4 := (p: Parcel) => LandZoneFilter(q, p);
    var f12 := (p: Parcel) => OwnerFilter(db, q, p) && OwnerNameFilter(db, q, p);
    var f123 := (p: Parcel) => OwnerFilter(db, q, p) && OwnerNameFilter(db, q, p) && LandUseZoneFilter(q, p);
    FilterFilter(db.parcels, f1, f2, f12);
    FilterFilter(db.parcels, f12, f3, f123);
    FilterFilter(db.parcels, f123, f4, (p: Parcel) => ParcelMatches(db, q, p));
  }

  /** Hence a parcel is listed exactly when it passes every filter. */
  lemma ParcelQueryMembership(db: Db, q: Query, p: Parcel)
    requires p in db.parcels
    ensures p in ParcelQuery(db, q) <==> ParcelMatches(db, q, p)
  {
    ParcelQueryIsConjunction(db, q);
    var i :| 0 <= i < |db.parcels| && db.parcels[i] == p;
  }

  /** `land_use_zone` and `land_zone` filter the same column: giving both
      with different values leaves nothing. */
  lemma ZoneFiltersClash(db: Db, q: Query)
    requires Given(q, "land_use_zone") && Given(q, "land_zone") && q["land_use_zone"] != q["land_zone"]
    ensures ParcelQuery(db, q) == []
  {
    ParcelQueryIsConjunction(db, q);
    FilterNone(db.parcels, (p: Parcel) => ParcelMatches(db, q, p));
  }

  /** `ordering_fields`. */
  const OrderingFields: seq<string> := [
    "parcel_id", "cadastral_number", "registration_date", "current_market_value", "area",
    "date_created", "last_updated"]

  const DefaultOrdering := "-date_created"

  /** The field an ordering term names: the term without one leading '-'. */
  function OrderingField(term: string): string {
    if |term| > 0 && term[0] == '-' then term[1..] else term
  }

  /** DRF's `OrderingFilter` for one `ordering` term: a term on one of the
      ordering fields is used, anything else falls back to the default. */
  function EffectiveOrdering(q: Query): (term: string)
    ensures OrderingField(term) in OrderingFields
    ensures Given(q, "ordering") && OrderingField(q["ordering"]) in OrderingFields ==> term == q["ordering"]
    ensures !(Given(q, "ordering") && OrderingField(q["ordering"]) in OrderingFields) ==> term == DefaultOrdering
  {
    assert OrderingField(DefaultOrdering) == "date_created";
    if Given(q, "ordering") && OrderingField(q["ordering"]) in OrderingFields then q["ordering"]
    else DefaultOrdering
  }

  function ParcelIdKey(p: Parcel): int { p.parcelId }
  function RegistrationDateKey(p: Parcel): int { p.registrationDate }
  function DateCreatedKey(p: Parcel): int { p.dateCreated }

  /** The integer columns among the ordering fields, with the value each
      sorts on. The other ordering fields are not modelled. */
  function OrderingKey(field: string): (k: Option<Parcel -> int>)
    ensures k.Some? ==> field in OrderingFields
  {
    if field == "parcel_id" then Some(ParcelIdKey)
    else if field == "registration_date" then Some(RegistrationDateKey)
    else if field == "date_created" then Some(DateCreatedKey)
    else None
  }

  /** A term with a leading '-' orders from the largest value down. */
  predicate Descending(term: string) {
    |term| > 0 && term[0] == '-'
  }

  function Negated(key: Parcel -> int): Parcel -> int {
    (p: Parcel) => -key(p)
  }

  /** `order_by(term)` on the filtered parcels: a permutation of them,
      descending or ascending on the term's column when that column is
      modelled, and in table order otherwise. */
  function OrderParcels(rows: seq<Parcel>, term: string): (r: seq<Parcel>)
    ensures multiset(r) == multiset(rows)
    ensures OrderingKey(OrderingField(term)).Some? && Descending(term) ==>
      forall i, j | 0 <= i < j < |r| ::
        OrderingKey(OrderingField(term)).value(r[i]) >= OrderingKey(OrderingField(term)).value(r[j])
    ensures OrderingKey(OrderingField(term)).Some? && !Descending(term) ==>
      forall i, j | 0 <= i < j < |r| ::
        OrderingKey(OrderingField(term)).value(r[i]) <= OrderingKey(OrderingField(term)).value(r[j])
    ensures OrderingKey(OrderingField(term)).None? ==> r == rows
  {
    match OrderingKey(OrderingField(term))
    case None => rows
    case Some(key) =>
      if Descending(term) then
        SortDescSorted(rows, key);
        SortDesc(rows, key)
      else
        SortDescSorted(rows, Negated(key));
        SortDesc(rows, Negated(key))
  }

  /** The list endpoint: signed-in users only, the filtered parcels in the
      effective ordering. */
  function ListParcels(db: Db, p: Principal, q: Query): (r: Reply<seq<Parcel>>)
    ensures p.Anonymous? <==> r.Failure?
    ensures r.Success? ==> multiset(r.body) == multiset(ParcelQuery(db, q))
    ensures r.Success? ==> r.body == OrderParcels(ParcelQuery(db, q), EffectiveOrdering(q))
  {
    if p.Anonymous? then Refuse(p) else Success(OK, OrderParcels(ParcelQuery(db, q), EffectiveOrdering(q)))
  }

  /** Without an `ordering` parameter the listing is newest first. */
  lemma DefaultListingNewestFirst(db: Db, p: Principal, q: Query)
    requires p.SignedIn? && !Given(q, "ordering")
    ensures var r := ListParcels(db, p, q).body;
      forall i, j | 0 <= i < j < |r| :: r[i].dateCreated >= r[j].dateCreated
  {
    assert EffectiveOrdering(q) == DefaultOrdering;
    DefaultOrderNewestFirst(ParcelQuery(db, q));
  }

  /** The default term sorts any rows from the newest down. */
  lemma DefaultOrderNewestFirst(rows: seq<Parcel>)
    ensures var r := OrderParcels(rows, DefaultOrdering);
      forall i, j | 0 <= i < j < |r| :: r[i].dateCreated >= r[j].dateCreated
  {
    assert OrderingField(DefaultOrdering) == "date_created";
    var r := OrderParcels(rows, DefaultOrdering);
    assert forall i, j | 0 <= i < j < |r| :: DateCreatedKey(r[i]) >= DateCreatedKey(r[j]);
  }

  /** A parcel is listed exactly when it passes the filters, whatever the
      ordering. */
  lemma ListedIffFiltered(db: Db, p: Principal, q: Query, x: Parcel)
    requires p.SignedIn?
    ensures x in ListParcels(db, p, q).body <==> x in ParcelQuery(db, q)
  {
    var r := ListParcels(db, p, q).body;
    assert x in r <==> x in multiset(r);
    assert x in ParcelQuery(db, q) <==> x in multiset(ParcelQuery(db, q));
  }

  // ------------------------------------------------------------ owners action

  /** One entry of the `owners` action: the serialized owner, with the
      record's share and acquisition date. */
  datatype OwnerEntry = OwnerEntry(owner: Option<OwnerProfile>, percentage: int, acquisitionDate: int)

  function EntryOf(db: Db, r: OwnershipRecord): OwnerEntry {
    OwnerEntry(FindProfile(db.profiles, r.owner), r.percentage, r.acquisitionDate)
  }

  /** The `owners` action: the parcel is looked up through the filtered
      queryset (404 when it is not there), then one entry per current
      record. */
  function ParcelOwners(db: Db, p: Principal, q: Query, parcel: nat): (r: Reply<seq<OwnerEntry>>)
    ensures p.Anonymous? ==> r.Failure? && r.status == UNAUTHORIZED
    ensures p.SignedIn? && !HasParcel(ParcelQuery(db, q), parcel) ==> r.Failure? && r.status == NOT_FOUND
    ensures r.Success? ==> |r.body| == |CurrentOwners(db, parcel)| && forall i | 0 <= i < |r.body| ::
      && r.body[i].percentage == CurrentOwners(db, parcel)[i].percentage
      && r.body[i].acquisitionDate == CurrentOwners(db, parcel)[i].acquisitionDate
  {
    if p.Anonymous? then Refuse(p)
    else if !HasParcel(ParcelQuery(db, q), parcel) then Failure(NOT_FOUND, "No LandParcel matches the given query.")
    else Success(OK, MapSeq(CurrentOwners(db, parcel), (r: OwnershipRecord) => EntryOf(db, r)))
  }

  /** In a valid registry every entry carries its owner, the first entry's
      owner is the parcel's `owner`, and its share the parcel's
      `ownership_percentage`. */
  lemma ParcelOwnersAgreeWithParcel(db: Db, p: Principal, q: Query, parcel: nat)
    requires Valid(db)
    requires ParcelOwners(db, p, q, parcel).Success?
    ensures var entries := ParcelOwners(db, p, q, parcel).body;
      && (forall i | 0 <= i < |entries| :: entries[i].owner.Some?)
      && (|entries| > 0 ==> entries[0].owner == PrimaryOwner(db, parcel)
                            && entries[0].percentage == PrimaryShare(db, parcel))
      && (|entries| == 0 <==> PrimaryOwner(db, parcel).None?)
  {
    var cur := CurrentOwners(db, parcel);
    forall i | 0 <= i < |cur|
      ensures HasProfile(db.profiles, cur[i].owner)
    {
      assert cur[i] in db.records;
    }
  }
}

=== FILE: land_create.dfy ===
/** The land registration page: the form check, the two requests a submit
    sends and how it reads their answers, and the owner search an officer
    uses to pick the parcel's owner. The form is a JavaScript object, so
    the payload is built from its entries in declaration order. */
module LandCreate {
  import opened Base
  import Js
  import Text
  import Client
  import Models
  import LandApi
  import RecordApi
  import Registry

  type Form = seq<(string, Js.Value)>

  /** The form's keys, in declaration order. */
  const FormKeys: seq<string> := [
    "location", "area", "land_use_type", "in_north", "in_east", "in_west", "in_south",
    "parcel_file", "cadastral_number", "survey_number", "block_number", "sector_number",
    "mouza_name", "land_use_zone", "registration_date", "registration_number",
    "title_deed_number", "current_market_value", "annual_tax_value", "development_status",
    "has_structures", "selected_owner_id"]

  /** The form the page opens with; `today` is the ISO date of the day. */
  function InitialForm(today: string): (form: Form)
    ensures Js.Keys(form) == FormKeys
  {
    var form := [
      ("location", Js.Str("")), ("area", Js.Num(0)), ("land_use_type", Js.Str("")),
      ("in_north", Js.Str("")), ("in_east", Js.Str("")), ("in_west", Js.Str("")),
      ("in_south", Js.Str("")), ("parcel_file", Js.Null), ("cadastral_number", Js.Str("")),
      ("survey_number", Js.Str("")), ("block_number", Js.Str("")), ("sector_number", Js.Str("")),
      ("mouza_name", Js.Str("")), ("land_use_zone", Js.Str("")), ("registration_date", Js.Str(today)),
      ("registration_number", Js.Str("")), ("title_deed_number", Js.Str("")),
      ("current_market_value", Js.Num(0)), ("annual_tax_value", Js.Num(0)),
      ("development_status", Js.Str("Undeveloped")), ("has_structures", Js.Bool(false)),
      ("selected_owner_id", Js.Undefined)];
    form
  }

  // ------------------------------------------------------------ validation

  /** The six fields the page insists on. */
  const RequiredFields: set<string> :=
    {"selected_owner_id", "location", "area", "land_use_type", "cadastral_number", "land_use_zone"}

  /** `!form.area || form.area <= 0`. */
  predicate AreaInvalid(v: Js.Value) {
    !Js.Truthy(v) || (v.Num? && v.n <= 0)
  }

  /** Whether one required field is missing or wrong. */
  predicate FieldFails(form: Form, key: string) {
    if key == "area" then AreaInvalid(Js.Lookup(form, key)) else !Js.Truthy(Js.Lookup(form, key))
  }

  /** All six fields pass. */
  predicate Complete(form: Form) {
    && Js.Truthy(Js.Lookup(form, "selected_owner_id"))
    && Js.Truthy(Js.Lookup(form, "location"))
    && !AreaInvalid(Js.Lookup(form, "area"))
    && Js.Truthy(Js.Lookup(form, "land_use_type"))
    && Js.Truthy(Js.Lookup(form, "cadastral_number"))
    && Js.Truthy(Js.Lookup(form, "land_use_zone"))
  }

  function Flag(errors: map<string, string>, fails: bool, key: string, message: string): map<string, string> {
    if fails then errors[key := message] else errors
  }

  /** `validateForm`: one message per failing required field. */
  function ValidateForm(form: Form): (errors: map<string, string>)
    ensures errors.Keys <= RequiredFields
    ensures forall k | k in RequiredFields :: k in errors <==> FieldFails(form, k)
  {
    var e := Flag(map[], FieldFails(form, "selected_owner_id"), "selected_owner_id", "Owner is required");
    var e := Flag(e, FieldFails(form, "location"), "location", "Location is required");
    var e := Flag(e, FieldFails(form, "area"), "area", "Valid area is required");
    var e := Flag(e, FieldFails(form, "land_use_type"), "land_use_type", "Land use type is required");
    var e := Flag(e, FieldFails(form, "cadastral_number"), "cadastral_number", "Cadastral number is required");
    Flag(e, FieldFails(form, "land_use_zone"), "land_use_zone", "Land use zone is required")
  }

  /** The form passes its check exactly when all six fields are filled in. */
  lemma ValidIffComplete(form: Form)
    ensures ValidateForm(form) == map[] <==> Complete(form)
  {
    var errors := ValidateForm(form);
    if Complete(form) {
      assert forall k | k in RequiredFields :: k !in errors;
      assert errors.Keys == {};
    } else {
      var k :| k in RequiredFields && FieldFails(form, k);
      assert k in errors;
    }
  }

  // ------------------------------------------------------------ payloads

  /** The entries the parcel request carries: every field but the selected
      owner whose value is neither `null`, `undefined` nor `""`. */
  predicate ParcelSends(e: (string, Js.Value)) {
    e.0 != "selected_owner_id" && Js.IsFilled(e.1)
  }

  /** A file under `parcel_file` is uploaded; anything else, booleans
      included, is written as text. */
  function ParcelPart(e: (string, Js.Value)): (part: Client.Part)
    ensures e.1.Bool? ==> part == Client.Text(if e.1.b then "true" else "false")
    ensures part.Upload? <==> e.0 == "parcel_file" && e.1.FileVal?
  {
    if e.0 == "parcel_file" && e.1.FileVal? then Client.Upload(e.1.file)
    else Client.Text(Js.ToString(e.1))
  }

  function ParcelPayload(form: Form): seq<(string, Client.Part)> {
    Client.Payload(form, ParcelSends, ParcelPart)
  }

  /** The parcel payload never names the selected owner; it has a part for
      a key exactly when the form has a filled-in value under it. */
  lemma ParcelPayloadKeys(form: Form, key: string)
    ensures !Client.HasPart(ParcelPayload(form), "selected_owner_id")
    ensures key != "selected_owner_id" ==>
      (Client.HasPart(ParcelPayload(form), key) <==>
       exists j | 0 <= j < |form| :: form[j].0 == key && Js.IsFilled(form[j].1))
  {
    Client.PayloadKeys(form, ParcelSends, ParcelPart, "selected_owner_id");
    Client.PayloadKeys(form, ParcelSends, ParcelPart, key);
  }

  /** A filled-in field of the form goes out as the part it encodes to: a
      boolean as "true" or "false", a chosen file as an upload. */
  lemma ParcelPayloadCarries(form: Form, i: nat)
    requires i < |form| && form[i].0 != "selected_owner_id" && Js.IsFilled(form[i].1)
    ensures form[i].1.Bool? ==>
      (form[i].0, Client.Text(if form[i].1.b then "true" else "false")) in ParcelPayload(form)
    ensures form[i].0 == "parcel_file" && form[i].1.FileVal? ==>
      ("parcel_file", Client.Upload(form[i].1.file)) in ParcelPayload(form)
  {
  }

  // ------------------------------------------------------------ answers

  /** `parcelRes.data.parcel_id || parcelRes.data.id`. */
  function ParcelIdOf(data: Js.Value): (id: Js.Value)
    ensures Js.Truthy(Js.Get(data, "parcel_id")) ==> id == Js.Get(data, "parcel_id")
    ensures !Js.Truthy(Js.Get(data, "parcel_id")) ==> id == Js.Get(data, "id")
  {
    if Js.Truthy(Js.Get(data, "parcel_id")) then Js.Get(data, "parcel_id") else Js.Get(data, "id")
  }

  /** On a parcel as the server writes it the id is its `parcel_id`; the
      `id` fallback never helps, since that key is not written. */
  lemma ParcelIdOfServer(db: Registry.Db, p: Models.Parcel)
    ensures p.parcelId > 0 ==> ParcelIdOf(LandApi.ParcelJson(db, p)) == Js.Num(p.parcelId)
    ensures p.parcelId == 0 ==> ParcelIdOf(LandApi.ParcelJson(db, p)) == Js.Undefined
  {
  }

  /** The ownership request: the new parcel wholly owned by the selected
      owner, bought on the registration date (today when it is empty). */
  function OwnershipRequest(parcelId: Js.Value, owner: Js.Value, registrationDate: Js.Value,
                            today: string, userId: Js.Value): Js.Value
  {
    Js.Obj([
      ("parcel", parcelId),
      ("owner", owner),
      ("ownership_type", Js.Str("Sole")),
      ("ownership_percentage", Js.Num(100)),
      ("acquisition_type", Js.Str("Purchase")),
      ("acquisition_date", if Js.Truthy(registrationDate) then registrationDate else Js.Str(today)),
      ("is_current_owner", Js.Bool(true)),
      ("created_by", userId)])
  }

  const OwnershipKeys: seq<string> := [
    "parcel", "owner", "ownership_type", "ownership_percentage", "acquisition_type",
    "acquisition_date", "is_current_owner", "created_by"]

  /** Reading the `i`-th key of the ownership request finds its `i`-th entry. */
  lemma OwnershipGet(parcelId: Js.Value, owner: Js.Value, registrationDate: Js.Value,
                     today: string, userId: Js.Value, i: nat)
    requires i < |OwnershipKeys|
    ensures var req := OwnershipRequest(parcelId, owner, registrationDate, today, userId);
      Js.Get(req, OwnershipKeys[i]) == req.entries[i].1
  {
    var e := OwnershipRequest(parcelId, owner, registrationDate, today, userId).entries;
    assert Js.Keys(e) == OwnershipKeys;
    forall j | 0 <= j < i
      ensures e[j].0 != OwnershipKeys[i]
    {
      assert OwnershipKeys[4][12] != OwnershipKeys[5][12];
    }
    Js.LookupAt(e, OwnershipKeys[i], i);
  }

  /** A JSON number the backend takes as a primary key. */
  function KeyOf(v: Js.Value): Option<nat> {
    if v.Num? && v.n >= 0 then Some(v.n) else None
  }

  function TextOf(v: Js.Value): Option<string> {
    if v.Str? then Some(v.s) else None
  }

  /** How the ownership-record endpoint reads a JSON body once `parcel` and
      `owner` are writable primary keys: percentages become hundredths,
      dates go through `parseDate`, `created_by` is read-only and ignored. */
  function ReadRecordRequest(body: Js.Value, parseDate: string -> Option<int>): (input: RecordApi.RecordInput)
    ensures Js.Get(body, "verification_status").Undefined? ==> input.verificationStatus.None?
  {
    var pct := Js.Get(body, "ownership_percentage");
    var date := Js.Get(body, "acquisition_date");
    var current := Js.Get(body, "is_current_owner");
    var transferred := Js.Get(body, "transfer_date");
    RecordApi.RecordInput(
      KeyOf(Js.Get(body, "parcel")),
      KeyOf(Js.Get(body, "owner")),
      TextOf(Js.Get(body, "ownership_type")),
      if pct.Num? then Some(pct.n * 100) else None,
      TextOf(Js.Get(body, "acquisition_type")),
      if date.Str? then parseDate(date.s) else None,
      TextOf(Js.Get(body, "verification_status")),
      if current.Bool? then Some(current.b) else None,
      if transferred.Str? then parseDate(transferred.s) else None,
      TextOf(Js.Get(body, "transfer_type")),
      KeyOf(Js.Get(body, "transfer_to")),
      KeyOf(Js.Get(body, "verified_by")))
  }

  /** The ownership request the page sends names the new parcel and the
      chosen owner, and its fixed values pass every field check of the
      record endpoint: a sole, full, purchased, current holding. */
  lemma OwnershipRequestAccepted(parcel: nat, owner: nat, registrationDate: Js.Value, today: string,
                                 userId: Js.Value, parseDate: string -> Option<int>, day: int)
    requires registrationDate.Str? || !Js.Truthy(registrationDate)
    requires parseDate(if Js.Truthy(registrationDate) then registrationDate.s else today) == Some(day)
    ensures var input := ReadRecordRequest(
        OwnershipRequest(Js.Num(parcel), Js.Num(owner), registrationDate, today, userId), parseDate);
      && input == RecordApi.RecordInput(Some(parcel), Some(owner), Some("Sole"), Some(Models.FullShare),
                                        Some("Purchase"), Some(day), None, Some(true), None, None, None, None)
      && RecordApi.ValidateRecord(input) == RecordApi.Accepted(day)
  {
    OwnershipGet(Js.Num(parcel), Js.Num(owner), registrationDate, today, userId, 0);
    OwnershipGet(Js.Num(parcel), Js.Num(owner), registrationDate, today, userId, 1);
    OwnershipGet(Js.Num(parcel), Js.Num(owner), registrationDate, today, userId, 2);
    OwnershipGet(Js.Num(parcel), Js.Num(owner), registrationDate, today, userId, 3);
    OwnershipGet(Js.Num(parcel), Js.Num(owner), registrationDate, today, userId, 4);
    OwnershipGet(Js.Num(parcel), Js.Num(owner), registrationDate, today, userId, 5);
    OwnershipGet(Js.Num(parcel), Js.Num(owner), registrationDate, today, userId, 6);
    NoVerificationStatus(Js.Num(parcel), Js.Num(owner), registrationDate, today, userId);
    NotSent(Js.Num(parcel), Js.Num(owner), registrationDate, today, userId, "transfer_date");
    NotSent(Js.Num(parcel), Js.Num(owner), registrationDate, today, userId, "transfer_type");
    NotSent(Js.Num(parcel), Js.Num(owner), registrationDate, today, userId, "transfer_to");
    NotSent(Js.Num(parcel), Js.Num(owner), registrationDate, today, userId, "verified_by");
  }

  /** No key of the ownership request starts with `t` or `v`, so no
      transfer detail and no verifier is sent. */
  lemma NotSent(parcelId: Js.Value, owner: Js.Value, registrationDate: Js.Value,
                today: string, userId: Js.Value, key: string)
    requires |key| > 0 && (key[0] == 't' || key[0] == 'v')
    ensures Js.Get(OwnershipRequest(parcelId, owner, registrationDate, today, userId), key) == Js.Undefined
  {
    var e := OwnershipRequest(parcelId, owner, registrationDate, today, userId).entries;
    forall i | 0 <= i < |e|
      ensures e[i].0 != key
    {
      assert e[i].0[0] != 't' && e[i].0[0] != 'v';
    }
  }

  lemma NoVerificationStatus(parcelId: Js.Value, owner: Js.Value, registrationDate: Js.Value,
                             today: string, userId: Js.Value)
    ensures Js.Get(OwnershipRequest(parcelId, owner, registrationDate, today, userId), "verification_status")
      == Js.Undefined
  {
    var e := OwnershipRequest(parcelId, owner, registrationDate, today, userId).entries;
    forall i | 0 <= i < |e|
      ensures e[i].0 != "verification_status"
    {
      assert e[i].0[0] != 'v';
    }
  }

  /** The error map built key by key; a later key overwrites an earlier one. */
  function ErrorsOf(entries: seq<(string, Js.Value)>): (errors: map<string, Js.Value>)
    ensures forall k :: k in errors <==> exists i | 0 <= i < |entries| :: entries[i].0 == k
    ensures Js.DistinctKeys(entries) ==>
      forall i | 0 <= i < |entries| :: errors[entries[i].0] == Js.Joined(entries[i].1)
    decreases |entries|
  {
    if |entries| == 0 then map[]
    else
      var last := entries[|entries| - 1];
      var init := entries[..|entries| - 1];
      assert entries == init + [last];
      ErrorsStep(init, last, ErrorsOf(init));
      ErrorsOf(init)[last.0 := Js.Joined(last.1)]
  }

  /** One more entry: its key is added to the map, with its joined value. */
  lemma ErrorsStep(init: seq<(string, Js.Value)>, last: (string, Js.Value), m: map<string, Js.Value>)
    requires forall k :: k in m <==> exists i | 0 <= i < |init| :: init[i].0 == k
    requires Js.DistinctKeys(init) ==> forall i | 0 <= i < |init| :: m[init[i].0] == Js.Joined(init[i].1)
    ensures var e, m' := init + [last], m[last.0 := Js.Joined(last.1)];
      && (forall k :: k in m' <==> exists i | 0 <= i < |e| :: e[i].0 == k)
      && (Js.DistinctKeys(e) ==> forall i | 0 <= i < |e| :: m'[e[i].0] == Js.Joined(e[i].1))
  {
    var e, m' := init + [last], m[last.0 := Js.Joined(last.1)];
    forall k
      ensures k in m' <==> exists i | 0 <= i < |e| :: e[i].0 == k
    {
      if k in m && k != last.0 {
        var i :| 0 <= i < |init| && init[i].0 == k;
        assert e[i].0 == k;
      }
      if k == last.0 {
        assert e[|init|].0 == k;
      }
      if exists i | 0 <= i < |e| :: e[i].0 == k {
        var i :| 0 <= i < |e| && e[i].0 == k;
        if i < |init| {
          assert init[i].0 == k;
        }
      }
    }
    if Js.DistinctKeys(e) {
      assert Js.DistinctKeys(init) by {
        forall i, j | 0 <= i < j < |init|
          ensures init[i].0 != init[j].0
        {
          assert e[i] == init[i] && e[j] == init[j];
        }
      }
      forall i | 0 <= i < |e|
        ensures m'[e[i].0] == Js.Joined(e[i].1)
      {
        if i < |init| {
          assert e[i] == init[i];
          assert e[i].0 != last.0 by { assert e[|init|] == last; }
        }
      }
    }
  }

  /** The error map of a DRF answer: every field named in the body, its
      messages joined with ", ". */
  lemma DrfErrorsMapped(field: string, first: string, second: string)
    ensures ErrorsOf(Js.OwnEntries(Js.Obj([(field, Js.Arr([Js.Str(first)]))]))) == map[field := Js.Str(first)]
    ensures ErrorsOf(Js.OwnEntries(Js.Obj([(field, Js.Arr([Js.Str(first), Js.Str(second)]))])))
      == map[field := Js.Str(first + ", " + second)]
  {
    var one := [(field, Js.Arr([Js.Str(first)]))];
    assert one[..0] == [];
    var two := [(field, Js.Arr([Js.Str(first), Js.Str(second)]))];
    assert two[..0] == [];
    var items := [Js.Str(first), Js.Str(second)];
    var texts := seq(|items|, i requires 0 <= i < |items| =>
      if Js.IsNullish(items[i]) then "" else Js.ToString(items[i]));
    assert texts == [first, second];
    assert Text.Join(texts, ", ") == first + ", " + Text.Join([second], ", ");
  }

  // ------------------------------------------------------------ submit

  datatype Request = PostParcel(parts: seq<(string, Client.Part)>) | PostOwnership(body: Js.Value)

  /** What a submit leaves behind: the requests sent in order, the error map
      (`None` when it is left as it was), the alert shown, where it went. */
  datatype Outcome = Outcome(
    requests: seq<Request>,
    errors: Option<map<string, Js.Value>>,
    alert: Option<string>,
    navigateTo: Option<string>)

  const NoOwnerAlert := "Please select an owner!"
  const SavedAlert := "✅ Land parcel registered successfully!"
  const FailedAlert := "❌ Registration failed. Please check your input and try again."

  function AsValues(errors: map<string, string>): (r: map<string, Js.Value>)
    ensures r.Keys == errors.Keys
    ensures forall k | k in errors :: r[k] == Js.Str(errors[k])
  {
    map k | k in errors :: Js.Str(errors[k])
  }

  /** A failed request: the server's body as an error map when it sent a
      truthy one, an alert otherwise. */
  function Failed(requests: seq<Request>, reply: Client.Reply): Outcome {
    var data := Client.ErrorData(reply);
    if Js.Truthy(data) then Outcome(requests, Some(ErrorsOf(Js.OwnEntries(data))), None, None)
    else Outcome(requests, Some(map[]), Some(FailedAlert), None)
  }

  /** `submit`, given the answers the two requests would get. */
  function Submit(form: Form, today: string, userId: Js.Value,
                  parcelReply: Client.Reply, ownershipReply: Client.Reply): (o: Outcome)
    ensures !Js.Truthy(Js.Lookup(form, "selected_owner_id")) ==>
      o == Outcome([], None, Some(NoOwnerAlert), None)
    ensures |o.requests| > 0 <==> Complete(form)
    ensures Js.Truthy(Js.Lookup(form, "selected_owner_id")) && !Complete(form) ==>
      o.requests == [] && o.errors.Some? && o.errors.value != map[] && o.alert.None?
    ensures |o.requests| > 0 ==> o.requests[0] == PostParcel(ParcelPayload(form))
    ensures |o.requests| == 2 <==> Complete(form) && parcelReply.Ok?
    ensures |o.requests| == 2 ==> o.requests[1] == PostOwnership(OwnershipRequest(
      ParcelIdOf(parcelReply.data), Js.Lookup(form, "selected_owner_id"),
      Js.Lookup(form, "registration_date"), today, userId))
    ensures o.navigateTo.Some? <==> Complete(form) && parcelReply.Ok? && ownershipReply.Ok?
    ensures o.navigateTo.Some? ==> o.navigateTo.value == "/parcels" && o.errors == Some(map[])
  {
    if !Js.Truthy(Js.Lookup(form, "selected_owner_id")) then
      Outcome([], None, Some(NoOwnerAlert), None)
    else if ValidateForm(form) != map[] then
      ValidIffComplete(form);
      Outcome([], Some(AsValues(ValidateForm(form))), None, None)
    else
      ValidIffComplete(form);
      var parcel := PostParcel(ParcelPayload(form));
      if !parcelReply.Ok? then Failed([parcel], parcelReply)
      else
        var ownership := PostOwnership(OwnershipRequest(
          ParcelIdOf(parcelReply.data), Js.Lookup(form, "selected_owner_id"),
          Js.Lookup(form, "registration_date"), today, userId));
        if !ownershipReply.Ok? then Failed([parcel, ownership], ownershipReply)
        else Outcome([parcel, ownership], Some(map[]), Some(SavedAlert), Some("/parcels"))
  }

  // ------------------------------------------------------------ owner search

  /** What a search leaves: how many requests it sent and the results. */
  datatype SearchRun = SearchRun(requests: nat, results: Js.Value)

  /** `searchOwners`, given the answers of the search and of its fallback. */
  function SearchOwners(query: string, first: Client.Reply, fallback: Client.Reply): (run: SearchRun)
    ensures run.requests == 0 <==> Text.IsBlank(query)
    ensures run.requests == 0 ==> run.results == Js.Arr([])
    ensures first.Ok? && run.requests > 0 ==>
      run.requests == 1 && run.results == Js.Arr(Js.ListFromArrayResultsOrData(first.data))
    ensures !first.Ok? && !fallback.Ok? && run.requests > 0 ==> run.results == Js.Arr([])
  {
    Text.TrimEmptyIffBlank(query);
    if Text.Trim(query) == "" then SearchRun(0, Js.Arr([]))
    else if first.Ok? then SearchRun(1, Js.Arr(Js.ListFromArrayResultsOrData(first.data)))
    else if fallback.Ok? then
      var d := fallback.data;
      SearchRun(2, if Js.Truthy(Js.Get(d, "results")) then Js.Get(d, "results")
                   else if Js.Truthy(d) then d else Js.Arr([]))
    else SearchRun(2, Js.Arr([]))
  }

  /** The fallback reads a list body or a paginated body as the first
      search does; only a body of another shape stays unnormalised. */
  lemma FallbackAgrees(query: string, first: Client.Reply, d: Js.Value)
    requires !Text.IsBlank(query) && !first.Ok?
    requires d.Arr? || Js.Get(d, "results").Arr?
    ensures SearchOwners(query, first, Client.Ok(d)).results == Js.Arr(Js.ListFromArrayResultsOrData(d))
  {
    Text.TrimEmptyIffBlank(query);
    var results := Js.Get(d, "results");
    if d.Arr? {
      assert !Js.Truthy(results);
    } else {
      assert Js.Truthy(results);
    }
  }

  /** The owner picker next to the form. */
  datatype Picker = Picker(query: string, results: seq<Js.Value>, chosen: Js.Value, form: Form)

  /** `handleSearchChange`: a new query drops the chosen owner, and a blank
      one the results; no other field changes. */
  function OnSearchChange(p: Picker, value: string): (p': Picker)
    ensures p'.query == value && p'.chosen == Js.Null
    ensures Js.Lookup(p'.form, "selected_owner_id") == Js.Undefined
    ensures forall k | k != "selected_owner_id" :: Js.Lookup(p'.form, k) == Js.Lookup(p.form, k)
    ensures Text.IsBlank(value) ==> p'.results == []
    ensures !Text.IsBlank(value) ==> p'.results == p.results
  {
    Text.TrimEmptyIffBlank(value);
    Js.SetOnly(p.form, "selected_owner_id", Js.Undefined);
    Picker(value, if Text.Trim(value) == "" then [] else p.results, Js.Null,
           Js.Set(p.form, "selected_owner_id", Js.Undefined))
  }

  /** `handleSelectOwner`: the owner's id becomes the selected owner and the
      result list closes; no other field changes. */
  function OnSelectOwner(p: Picker, owner: Js.Value): (p': Picker)
    ensures p'.chosen == owner && p'.results == [] && p'.query == p.query
    ensures Js.Lookup(p'.form, "selected_owner_id") == Js.Get(owner, "id")
    ensures forall k | k != "selected_owner_id" :: Js.Lookup(p'.form, k) == Js.Lookup(p.form, k)
  {
    Js.SetOnly(p.form, "selected_owner_id", Js.Get(owner, "id"));
    Picker(p.query, [], owner, Js.Set(p.form, "selected_owner_id", Js.Get(owner, "id")))
  }

  /** Editing the query after choosing an owner means choosing again: a
      submit then only asks for an owner. */
  lemma EditingDropsOwner(p: Picker, value: string, today: string, userId: Js.Value,
                          r1: Client.Reply, r2: Client.Reply)
    ensures Submit(OnSearchChange(p, value).form, today, userId, r1, r2) ==
      Outcome([], None, Some(NoOwnerAlert), None)
  {
  }

  /** The owner picked is the owner the ownership request names. */
  lemma ChosenOwnerIsRecorded(p: Picker, owner: Js.Value, today: string, userId: Js.Value,
                              r1: Client.Reply, r2: Client.Reply)
    requires Complete(OnSelectOwner(p, owner).form) && r1.Ok?
    ensures var f := OnSelectOwner(p, owner).form;
      Submit(f, today, userId, r1, r2).requests[1] == PostOwnership(OwnershipRequest(
        ParcelIdOf(r1.data), Js.Get(owner, "id"), Js.Lookup(f, "registration_date"), today, userId))
  {
    var f := OnSelectOwner(p, owner).form;
    assert Js.Lookup(f, "selected_owner_id") == Js.Get(owner, "id");
  }
}

=== FILE: models.dfy ===
/** The registry's rows: owner profiles, land parcels, ownership records
    and documents, with their choice lists and the defaults a new row
    takes. Decimal amounts are kept in hundredths, dates as day numbers. */
module Models {
  import opened Base

  /** A `FileField`/`ImageField`. Django treats a field whose name is empty
      as holding no file. */
  datatype StoredFile = NoFile | Stored(name: string, url: string)

  /** `bool(field)` for a file field. */
  predicate HasFile(f: StoredFile) {
    f.Stored? && f.name != ""
  }

  /** The `*_url` properties of the owner model and the matching
      serializer methods: the file's URL when there is a file, `None`
      otherwise. */
  function FileUrl(f: StoredFile): (r: Option<string>)
    ensures r.None? <==> !HasFile(f)
    ensures r.Some? ==> f.Stored? && r.value == f.url
  {
    if HasFile(f) then Some(f.url) else None
  }

  // ---------------------------------------------------------------- owners

  const GenderChoices: set<string> := {"Male", "Female", "Other"}
  const OwnerTypeChoices: set<string> := {"Individual", "Company", "Government", "Trust"}
  const OwnerStatusChoices: set<string> := {"Active", "Inactive", "Deceased"}
  const DefaultOwnerType := "Individual"
  const DefaultOwnerStatus := "Active"

  datatype OwnerProfile = OwnerProfile(
    id: nat,
    user: nat,
    nationalId: string,
    firstName: string,
    middleName: Option<string>,
    lastName: string,
    dateOfBirth: Option<int>,
    gender: string,
    profilePicture: StoredFile,
    idCardFront: StoredFile,
    idCardBack: StoredFile,
    signature: StoredFile,
    permanentAddress: string,
    ownerType: string,
    status: string,
    dateCreated: int)

  /** An optional choice field: left out, or one of the choices. */
  predicate ChoiceOk(v: Option<string>, choices: set<string>) {
    v.None? || v.value in choices
  }

  /** An optional choice field declared `blank=True`: the empty text is
      accepted besides the choices. */
  predicate BlankChoiceOk(v: Option<string>, choices: set<string>) {
    ChoiceOk(v, choices) || v == Some("")
  }

  /** What the model's field declarations allow a profile to hold: the
      names, the national id and the permanent address are not blank, and
      every choice field holds a declared choice. */
  predicate ProfileFieldsValid(p: OwnerProfile) {
    && p.nationalId != "" && p.firstName != "" && p.lastName != "" && p.permanentAddress != ""
    && p.gender in GenderChoices
    && p.ownerType in OwnerTypeChoices
    && p.status in OwnerStatusChoices
  }

  /** The fields a new profile is created from (the serializer's validated
      data without `username`); `ownerType` and `status` are `None` when the
      request leaves them to their defaults. */
  datatype ProfileFields = ProfileFields(
    nationalId: string,
    firstName: string,
    middleName: Option<string>,
    lastName: string,
    dateOfBirth: Option<int>,
    gender: string,
    profilePicture: StoredFile,
    idCardFront: StoredFile,
    idCardBack: StoredFile,
    signature: StoredFile,
    permanentAddress: string,
    ownerType: Option<string>,
    status: Option<string>)

  /** `OwnerProfile.objects.create(user=user, **fields)`. */
  function NewProfile(id: nat, user: nat, f: ProfileFields, now: int): (p: OwnerProfile)
    ensures p.id == id && p.user == user && p.nationalId == f.nationalId && p.dateCreated == now
    ensures f.ownerType.None? ==> p.ownerType == DefaultOwnerType
    ensures f.status.None? ==> p.status == DefaultOwnerStatus
  {
    OwnerProfile(id, user, f.nationalId, f.firstName, f.middleName, f.lastName, f.dateOfBirth,
      f.gender, f.profilePicture, f.idCardFront, f.idCardBack, f.signature, f.permanentAddress,
      f.ownerType.GetOr(DefaultOwnerType), f.status.GetOr(DefaultOwnerStatus), now)
  }

  // ---------------------------------------------------------------- parcels

  const LandUseZoneChoices: set<string> :=
    {"Residential", "Commercial", "Industrial", "Agricultural", "Public", "Mixed"}
  const DevelopmentStatusChoices: set<string> :=
    {"Undeveloped", "Under_Construction", "Developed", "Government_Hold"}
  const DefaultParcelStatus := "active"

  datatype Parcel = Parcel(
    parcelId: nat,
    location: string,
    landUseType: string,
    status: string,
    cadastralNumber: string,
    landUseZone: Option<string>,
    registrationDate: int,
    registrationNumber: Option<string>,
    marketValue: Option<int>,
    developmentStatus: Option<string>,
    hasStructures: bool,
    dateCreated: int,
    isActive: bool)

  /** The optional choice fields hold a declared choice or nothing. */
  predicate ParcelChoicesValid(p: Parcel) {
    && (p.landUseZone.Some? ==> p.landUseZone.value in LandUseZoneChoices)
    && (p.developmentStatus.Some? ==> p.developmentStatus.value in DevelopmentStatusChoices)
  }

  /** A parcel saved with only its required fields: status "active", no
      structures, active, registered today. */
  function NewParcel(id: nat, location: string, landUseType: string, cadastral: string, today: int, now: int)
    : (p: Parcel)
    ensures p.status == DefaultParcelStatus && !p.hasStructures && p.isActive
    ensures p.registrationDate == today && p.landUseZone.None? && p.registrationNumber.None?
    ensures ParcelChoicesValid(p)
  {
    Parcel(id, location, landUseType, DefaultParcelStatus, cadastral, None, today, None, None, None,
      false, now, true)
  }

  // ---------------------------------------------------------------- records

  const OwnershipTypes: set<string> :=
    {"Sole", "Joint", "Co-owner", "Leasehold", "Mortgage", "Easement", "Power_of_Attorney"}
  const AcquisitionTypes: set<string> :=
    {"Purchase", "Inheritance", "Gift", "Government_Allocation", "Auction", "Exchange",
     "Court_Order", "Partition"}
  const VerificationStatuses: set<string> :=
    {"Pending", "Verified", "Rejected", "Under_Review", "Disputed"}
  const TransferTypes: set<string> := {"Sale", "Gift", "Inheritance", "Foreclosure", "Surrender"}

  /** 100.00 in hundredths: the upper bound of `ownership_percentage`. */
  const FullShare := 10000

  datatype OwnershipRecord = OwnershipRecord(
    id: nat,
    parcel: nat,
    owner: nat,
    ownershipType: string,
    percentage: int,
    acquisitionType: string,
    acquisitionDate: int,
    transferDate: Option<int>,
    transferType: Option<string>,
    transferTo: Option<nat>,
    verificationStatus: string,
    verifiedBy: Option<nat>,
    isCurrentOwner: bool,
    createdBy: Option<nat>)

  /** What the field validators and choice lists allow: a share between 0
      and 100 and declared choices. */
  predicate RecordFieldsValid(r: OwnershipRecord) {
    && 0 <= r.percentage <= FullShare
    && r.ownershipType in OwnershipTypes
    && r.acquisitionType in AcquisitionTypes
    && r.verificationStatus in VerificationStatuses
    && BlankChoiceOk(r.transferType, TransferTypes)
  }

  /** A record saved with only its required fields: a sole, 100 % purchase,
      pending verification, current. */
  function NewRecord(id: nat, parcel: nat, owner: nat, acquisitionDate: int, createdBy: Option<nat>)
    : (r: OwnershipRecord)
    ensures r.ownershipType == "Sole" && r.percentage == FullShare
    ensures r.acquisitionType == "Purchase" && r.verificationStatus == "Pending"
    ensures r.isCurrentOwner && r.transferDate.None? && r.transferTo.None?
    ensures RecordFieldsValid(r)
  {
    OwnershipRecord(id, parcel, owner, "Sole", FullShare, "Purchase", acquisitionDate, None, None,
      None, "Pending", None, true, createdBy)
  }

  // ---------------------------------------------------------------- documents

  const DocumentTypes: set<string> :=
    {"Title_Deed", "Survey_Map", "Tax_Receipt", "Identity_Proof", "Address_Proof", "Sale_Deed",
     "Gift_Deed", "Mortgage_Deed", "Partition_Deed", "Court_Order", "Death_Certificate",
     "Succession_Certificate", "Building_Permit", "Encumbrance_Certificate"}

  /** A document may hang off an ownership record, a parcel, both, or
      neither: both links are optional. */
  datatype Document = Document(
    id: nat,
    ownershipRecord: Option<nat>,
    relatedParcel: Option<nat>,
    docType: string,
    file: StoredFile,
    fileUrl: Option<string>,
    uploadedBy: Option<nat>,
    isVerified: bool,
    verifiedBy: Option<nat>)
}

=== FILE: owner_api.dfy ===
/** The owner-profile API: the serializer's derived fields, its `create`
    and `update`, and the view's queryset, permissions, update and search
    endpoints. */
module OwnerApi {
  import opened Base
  import opened Accounts
  import opened Models
  import opened Registry
  import opened Http
  import Text

  // ------------------------------------------------------------ derived fields

  /** Python truthiness of an optional text: present and non-empty. */
  predicate Filled(s: Option<string>) {
    s.Some? && s.value != ""
  }

  predicate NonEmpty(s: string) { s != "" }

  /** `get_full_name`: the non-empty name parts joined by single spaces. */
  function FullName(p: OwnerProfile): (name: string)
    ensures name == "" <==> p.firstName == "" && !Filled(p.middleName) && p.lastName == ""
    ensures p.firstName != "" && !Filled(p.middleName) && p.lastName != "" ==>
      name == p.firstName + " " + p.lastName
    ensures p.firstName != "" && Filled(p.middleName) && p.lastName != "" ==>
      name == p.firstName + " " + p.middleName.value + " " + p.lastName
    ensures p.firstName == "" && !Filled(p.middleName) ==> name == p.lastName
    ensures !Filled(p.middleName) && p.lastName == "" ==> name == p.firstName
    ensures p.firstName != "" && Filled(p.middleName) && p.lastName == "" ==>
      name == p.firstName + " " + p.middleName.value
    ensures p.firstName == "" && Filled(p.middleName) && p.lastName != "" ==>
      name == p.middleName.value + " " + p.lastName
    ensures p.firstName == "" && Filled(p.middleName) && p.lastName == "" ==> name == p.middleName.value
  {
    var middle := p.middleName.GetOr("");
    JoinedNameParts(p.firstName, middle, p.lastName);
    Text.Join(Filter([p.firstName, middle, p.lastName], NonEmpty), " ")
  }

  /** The three name parts with the empty ones dropped, joined by spaces. */
  lemma JoinedNameParts(first: string, middle: string, last: string)
    ensures var name := Text.Join(Filter([first, middle, last], NonEmpty), " ");
      && (name == "" <==> first == "" && middle == "" && last == "")
      && (first != "" && middle == "" && last != "" ==> name == first + " " + last)
      && (first != "" && middle != "" && last != "" ==> name == first + " " + middle + " " + last)
      && (first == "" && middle == "" ==> name == last)
      && (middle == "" && last == "" ==> name == first)
      && (first != "" && middle != "" && last == "" ==> name == first + " " + middle)
      && (first == "" && middle != "" && last != "" ==> name == middle + " " + last)
      && (first == "" && middle != "" && last == "" ==> name == middle)
  {
    var parts := Filter([first, middle, last], NonEmpty);
    FilterThree(first, middle, last, NonEmpty);
    if first != "" && middle != "" && last != "" {
      assert parts == [first, middle, last];
      Text.JoinThree(first, middle, last, " ");
    } else if first != "" && middle != "" {
      assert parts == [first, middle];
      Text.JoinTwo(first, middle, " ");
    } else if first != "" && last != "" {
      assert parts == [first, last];
      Text.JoinTwo(first, last, " ");
    } else if middle != "" && last != "" {
      assert parts == [middle, last];
      Text.JoinTwo(middle, last, " ");
    } else if first != "" {
      assert parts == [first];
    } else if middle != "" {
      assert parts == [middle];
    } else if last != "" {
      assert parts == [last];
    } else {
      assert parts == [];
    }
  }

  /** A stored image is reported by its URL, a missing one by `None`. */
  datatype ImageUrls = ImageUrls(
    profilePicture: Option<string>,
    idCardFront: Option<string>,
    idCardBack: Option<string>,
    signature: Option<string>)

  /** `get_profile_picture_url` and its three siblings, and the model
      properties of the same names. */
  function ProfileImageUrls(p: OwnerProfile): (r: ImageUrls)
    ensures r.profilePicture.None? <==> !HasFile(p.profilePicture)
    ensures r.idCardFront.None? <==> !HasFile(p.idCardFront)
    ensures r.idCardBack.None? <==> !HasFile(p.idCardBack)
    ensures r.signature.None? <==> !HasFile(p.signature)
  {
    ImageUrls(FileUrl(p.profilePicture), FileUrl(p.idCardFront), FileUrl(p.idCardBack),
      FileUrl(p.signature))
  }

  /** One entry of `owned_lands`. */
  datatype OwnedLand = OwnedLand(
    parcel: Parcel,
    ownershipType: string,
    percentage: int,
    acquisitionDate: int,
    acquisitionType: string)

  predicate CurrentRecordOf(owner: nat, r: OwnershipRecord) {
    r.owner == owner && r.isCurrentOwner
  }

  /** The parcels behind the records, in order; `None` as soon as one of
      them cannot be loaded. */
  function LandsOf(parcels: seq<Parcel>, records: seq<OwnershipRecord>): (r: Option<seq<OwnedLand>>)
    ensures r.Some? <==> forall i | 0 <= i < |records| :: HasParcel(parcels, records[i].parcel)
    ensures r.Some? ==> |r.value| == |records| && forall i | 0 <= i < |records| ::
      && r.value[i].parcel in parcels
      && r.value[i].parcel.parcelId == records[i].parcel
      && r.value[i].percentage == records[i].percentage
      && r.value[i].acquisitionDate == records[i].acquisitionDate
  {
    if |records| == 0 then Some([])
    else
      var rec := records[0];
      match FindParcel(parcels, rec.parcel)
      case None => None
      case Some(parcel) =>
        match LandsOf(parcels, records[1..])
        case None => None
        case Some(rest) =>
          Some([OwnedLand(parcel, rec.ownershipType, rec.percentage, rec.acquisitionDate,
            rec.acquisitionType)] + rest)
  }

  /** `get_owned_lands`: one entry per current record of the owner; any
      failure while loading them gives the empty list. */
  function OwnedLands(db: Db, owner: nat): (r: seq<OwnedLand>)
    ensures LandsOf(db.parcels, Filter(db.records, (x: OwnershipRecord) => CurrentRecordOf(owner, x))).None? ==> r == []
  {
    LandsOf(db.parcels, Filter(db.records, (x: OwnershipRecord) => CurrentRecordOf(owner, x))).GetOr([])
  }

  /** In a valid registry nothing fails: every current record of the owner
      appears, with its parcel, share and date. */
  lemma OwnedLandsComplete(db: Db, owner: nat)
    requires Valid(db)
    ensures var recs := Filter(db.records, (x: OwnershipRecord) => CurrentRecordOf(owner, x));
      var lands := OwnedLands(db, owner);
      && |lands| == |recs|
      && forall i | 0 <= i < |recs| ::
           lands[i].parcel.parcelId == recs[i].parcel && lands[i].percentage == recs[i].percentage
           && recs[i].owner == owner && recs[i].isCurrentOwner
  {
    var recs := Filter(db.records, (x: OwnershipRecord) => CurrentRecordOf(owner, x));
    forall i | 0 <= i < |recs|
      ensures HasParcel(db.parcels, recs[i].parcel)
    {
      assert recs[i] in db.records;
    }
  }

  // ------------------------------------------------------------ create

  predicate NationalIdTaken(profiles: seq<OwnerProfile>, nationalId: string) {
    exists i | 0 <= i < |profiles| :: profiles[i].nationalId == nationalId
  }

  function ProfileId(p: OwnerProfile): nat { p.id }

  /** `OwnerProfileSerializer.create`: refused without a username, when no
      account with that name has role "owner", or when that account already
      has a profile; otherwise the profile is created for that account. The
      unique `national_id` column refuses a number already in use. */
  function CreateProfile(db: Db, username: Option<string>, f: ProfileFields, now: int)
    : (r: Result<(Db, OwnerProfile)>)
    ensures !Filled(username) ==> r == Err("Username is required")
    ensures Filled(username) && FindUserByName(db.users, username.value, OWNER).None? ==>
      r == Err("User not found or user is not an owner")
    ensures (Filled(username) && FindUserByName(db.users, username.value, OWNER).Some?
      && ProfileOfUser(db.profiles, FindUserByName(db.users, username.value, OWNER).value.id).Some?) ==>
      r == Err("Owner profile already exists for this user")
    ensures r.Ok? ==> var (db', p) := r.value;
      && Filled(username)
      && (exists i | 0 <= i < |db.users| ::
            db.users[i].id == p.user && db.users[i].username == username.value && db.users[i].role == OWNER)
      && (forall i | 0 <= i < |db.profiles| :: db.profiles[i].user != p.user && db.profiles[i].id != p.id)
      && !NationalIdTaken(db.profiles, f.nationalId)
      && db' == db.(profiles := db.profiles + [p])
      && p == NewProfile(p.id, p.user, f, now)
  {
    if !Filled(username) then Err("Username is required")
    else match FindUserByName(db.users, username.value, OWNER)
      case None => Err("User not found or user is not an owner")
      case Some(user) =>
        if ProfileOfUser(db.profiles, user.id).Some? then Err("Owner profile already exists for this user")
        else if NationalIdTaken(db.profiles, f.nationalId) then
          Err("UNIQUE constraint failed: owners_ownerprofile.national_id")
        else
          var p := NewProfile(NextId(db.profiles, ProfileId), user.id, f, now);
          assert exists i | 0 <= i < |db.users| :: db.users[i] == user;
          Ok((db.(profiles := db.profiles + [p]), p))
  }

  /** Creating a profile keeps the registry valid; in particular every
      account still has at most one profile. */
  lemma CreateProfileValid(db: Db, username: Option<string>, f: ProfileFields, now: int)
    requires Valid(db)
    requires CreateProfile(db, username, f, now).Ok?
    ensures Valid(CreateProfile(db, username, f, now).value.0)
    ensures Pairwise(CreateProfile(db, username, f, now).value.0.profiles, DistinctProfileUsers)
  {
    var (db', p) := CreateProfile(db, username, f, now).value;
    var i :| 0 <= i < |db.users| && db.users[i].id == p.user;
    assert HasUser(db.users, p.user);
    assert forall i | 0 <= i < |db.profiles| :: db.profiles[i].nationalId != p.nationalId;
    AppendProfileValid(db, p);
  }

  // ------------------------------------------------------------ field validation

  /** What a create request carries for a profile, as parsed; `None` is a
      field the request leaves out. */
  datatype ProfileInput = ProfileInput(
    nationalId: Option<string>,
    firstName: Option<string>,
    middleName: Option<string>,
    lastName: Option<string>,
    dateOfBirth: Option<int>,
    gender: Option<string>,
    profilePicture: StoredFile,
    idCardFront: StoredFile,
    idCardBack: StoredFile,
    signature: StoredFile,
    permanentAddress: Option<string>,
    ownerType: Option<string>,
    status: Option<string>)

  /** One entry of DRF's error body for a profile: the field and what is
      wrong with it. */
  datatype ProfileError =
    | FieldRequired(field: string)
    | FieldBlank(field: string)
    | NotAChoice(field: string, value: string)
    | NotUnique(field: string)

  /** The error body's text for one field. */
  function ProfileMessage(e: ProfileError): string {
    match e
    case FieldRequired(f) => f + ": This field is required."
    case FieldBlank(f) => f + ": This field may not be blank."
    case NotAChoice(f, v) => f + ": \"" + v + "\" is not a valid choice."
    case NotUnique(f) => f + ": owner profile with this national id already exists."
  }

  /** DRF's `CharField` strips the surrounding white space of what it
      receives (`trim_whitespace`), so a given text counts as filled only
      when something is left after stripping. */
  predicate NotBlank(v: Option<string>) {
    v.Some? && Text.Trim(v.value) != ""
  }

  /** The value a `CharField` hands on: the text stripped. */
  function Cleaned(v: Option<string>): (r: Option<string>)
    ensures r.None? <==> v.None?
    ensures v.Some? ==> r.value == Text.Trim(v.value)
  {
    if v.Some? then Some(Text.Trim(v.value)) else None
  }

  /** A text field the model declares without `blank=True` (and the
      serializer's own `username`): required, and refused when nothing is
      left after stripping. */
  function TextProblem(field: string, v: Option<string>): (r: Option<ProfileError>)
    ensures r.None? <==> NotBlank(v)
    ensures v.None? ==> r == Some(FieldRequired(field))
    ensures v.Some? && Text.IsBlank(v.value) ==> r == Some(FieldBlank(field))
  {
    if v.None? then Some(FieldRequired(field))
    else if Text.Trim(v.value) == "" then (Text.TrimEmptyIffBlank(v.value); Some(FieldBlank(field)))
    else (Text.TrimEmptyIffBlank(v.value); None)
  }

  /** A field with `choices`: a given value must be one of them; the field
      is required unless the model gives it a default. */
  function ChoiceProblem(field: string, v: Option<string>, choices: set<string>, required: bool)
    : (r: Option<ProfileError>)
    ensures r.None? <==> (v.Some? || !required) && ChoiceOk(v, choices)
    ensures v.Some? && v.value !in choices ==> r == Some(NotAChoice(field, v.value))
  {
    if v.None? then (if required then Some(FieldRequired(field)) else None)
    else if v.value !in choices then Some(NotAChoice(field, v.value))
    else None
  }

  /** The validated data handed to `create`: the text fields stripped, the
      choice fields as given. */
  function FieldsOf(input: ProfileInput): ProfileFields {
    ProfileFields(Cleaned(input.nationalId).GetOr(""), Cleaned(input.firstName).GetOr(""),
      Cleaned(input.middleName), Cleaned(input.lastName).GetOr(""), input.dateOfBirth,
      input.gender.GetOr(""), input.profilePicture, input.idCardFront, input.idCardBack, input.signature,
      Cleaned(input.permanentAddress).GetOr(""), input.ownerType, input.status)
  }

  /** The outcome of field validation: the stripped username and the
      validated fields, or the first failing field. */
  datatype Validated = Passed(username: string, fields: ProfileFields) | Failed(error: ProfileError)

  /** DRF's field validation in front of `create`, in the serializer's
      field order: `username` (the serializer's own required field),
      `first_name`, `last_name` and `national_id` (required and not blank;
      the national id also unique), `gender` (a required choice),
      `permanent_address` (required and not blank), and the choices
      `owner_type` and `status`, which have defaults. The optional fields
      accept anything. Only the first failing field is reported. */
  function ValidateCreate(db: Db, username: Option<string>, input: ProfileInput): (r: Validated)
    ensures r.Passed? <==>
      && NotBlank(username) && NotBlank(input.firstName) && NotBlank(input.lastName)
      && NotBlank(input.nationalId) && !NationalIdTaken(db.profiles, Text.Trim(input.nationalId.value))
      && input.gender.Some? && input.gender.value in GenderChoices
      && NotBlank(input.permanentAddress)
      && ChoiceOk(input.ownerType, OwnerTypeChoices) && ChoiceOk(input.status, OwnerStatusChoices)
    ensures r.Passed? ==> r.username == Text.Trim(username.value) && r.fields == FieldsOf(input)
    ensures !NotBlank(username) ==> r.Failed? && r.error.field == "username"
    ensures NotBlank(username) && input.firstName.Some? && Text.IsBlank(input.firstName.value) ==>
      r == Failed(FieldBlank("first_name"))
    ensures r.Failed? && r.error.NotUnique? ==>
      NotBlank(input.nationalId) && NationalIdTaken(db.profiles, Text.Trim(input.nationalId.value))
  {
    match TextProblem("username", username)
    case Some(e) => Failed(e)
    case None => ValidateFields(db, Text.Trim(username.value), input)
  }

  /** The checks after the username, in serializer order, for a username
      already stripped and not blank. */
  function ValidateFields(db: Db, username: string, input: ProfileInput): (r: Validated)
    ensures r.Passed? <==>
      && NotBlank(input.firstName) && NotBlank(input.lastName)
      && NotBlank(input.nationalId) && !NationalIdTaken(db.profiles, Text.Trim(input.nationalId.value))
      && input.gender.Some? && input.gender.value in GenderChoices
      && NotBlank(input.permanentAddress)
      && ChoiceOk(input.ownerType, OwnerTypeChoices) && ChoiceOk(input.status, OwnerStatusChoices)
    ensures r.Passed? ==> r.username == username && r.fields == FieldsOf(input)
    ensures input.firstName.Some? && Text.IsBlank(input.firstName.value) ==>
      r == Failed(FieldBlank("first_name"))
    ensures r.Failed? && r.error.NotUnique? ==>
      NotBlank(input.nationalId) && NationalIdTaken(db.profiles, Text.Trim(input.nationalId.value))
  {
    var first := TextProblem("first_name", input.firstName);
    var last := TextProblem("last_name", input.lastName);
    var national := TextProblem("national_id", input.nationalId);
    var gender := ChoiceProblem("gender", input.gender, GenderChoices, true);
    var address := TextProblem("permanent_address", input.permanentAddress);
    var ownerType := ChoiceProblem("owner_type", input.ownerType, OwnerTypeChoices, false);
    var status := ChoiceProblem("status", input.status, OwnerStatusChoices, false);
    if first.Some? then Failed(first.value)
    else if last.Some? then Failed(last.value)
    else if national.Some? then Failed(national.value)
    else if NationalIdTaken(db.profiles, Text.Trim(input.nationalId.value)) then Failed(NotUnique("national_id"))
    else if gender.Some? then Failed(gender.value)
    else if address.Some? then Failed(address.value)
    else if ownerType.Some? then Failed(ownerType.value)
    else if status.Some? then Failed(status.value)
    else Passed(username, FieldsOf(input))
  }

  /** White space around the username changes nothing: `" alice"` is
      validated, and then looked up, as `"alice"`. */
  lemma PaddedUsernameValidatesAlike(db: Db, name: string, input: ProfileInput)
    ensures ValidateCreate(db, Some(" " + name), input) == ValidateCreate(db, Some(name), input)
  {
    assert (" " + name)[1..] == name;
    assert Text.Trim(" " + name) == Text.Trim(name);
    SameStrippedUsernameValidatesAlike(db, " " + name, name, input);
  }

  /** Validation sees the username only once stripped. */
  lemma SameStrippedUsernameValidatesAlike(db: Db, a: string, b: string, input: ProfileInput)
    requires Text.Trim(a) == Text.Trim(b)
    ensures ValidateCreate(db, Some(a), input) == ValidateCreate(db, Some(b), input)
  {
    assert TextProblem("username", Some(a)) == TextProblem("username", Some(b));
  }

  /** A profile built from validated data holds only what the model's
      field declarations allow, and its national id is free. */
  lemma ValidatedProfileValid(db: Db, username: Option<string>, input: ProfileInput, id: nat, user: nat, now: int)
    requires ValidateCreate(db, username, input).Passed?
    ensures var p := NewProfile(id, user, ValidateCreate(db, username, input).fields, now);
      ProfileFieldsValid(p) && !NationalIdTaken(db.profiles, p.nationalId)
  {
  }

  // ------------------------------------------------------------ views

  /** `OwnerProfileViewSet.get_queryset`. */
  function VisibleProfiles(db: Db, user: User, q: Query): (r: seq<OwnerProfile>)
    ensures forall i | 0 <= i < |r| :: r[i] in db.profiles
  {
    if Given(q, "username") && (user.role == ADMIN || user.role == OFFICER) then
      var name := q["username"];
      Filter(db.profiles, (p: OwnerProfile) => ProfileHasUsername(db, p, name))
    else if user.role == OWNER then
      Filter(db.profiles, (p: OwnerProfile) => p.user == user.id)
    else if user.role in [ADMIN, OFFICER] && !Given(q, "username") then
      db.profiles
    else []
  }

  /** The profile's account carries the username (`user__username`). */
  predicate ProfileHasUsername(db: Db, p: OwnerProfile, name: string) {
    exists i | 0 <= i < |db.users| :: db.users[i].id == p.user && db.users[i].username == name
  }

  /** An owner sees its own profile and nothing else, whatever it asks for. */
  lemma OwnerSeesOnlyOwnProfile(db: Db, user: User, q: Query)
    requires user.role == OWNER
    ensures forall i | 0 <= i < |VisibleProfiles(db, user, q)| :: VisibleProfiles(db, user, q)[i].user == user.id
    ensures forall i | 0 <= i < |db.profiles| :: db.profiles[i].user == user.id ==>
      db.profiles[i] in VisibleProfiles(db, user, q)
  {
  }

  /** The staff roles: with a username exactly that account's profiles,
      without one every profile. Any other role sees none. */
  lemma StaffVisibility(db: Db, user: User, q: Query)
    ensures (user.role == ADMIN || user.role == OFFICER) && Given(q, "username") ==>
      var r := VisibleProfiles(db, user, q);
      && (forall i | 0 <= i < |r| :: ProfileHasUsername(db, r[i], q["username"]))
      && (forall i | 0 <= i < |db.profiles| :: ProfileHasUsername(db, db.profiles[i], q["username"]) ==>
            db.profiles[i] in r)
    ensures (user.role == ADMIN || user.role == OFFICER) && !Given(q, "username") ==>
      VisibleProfiles(db, user, q) == db.profiles
    ensures user.role !in RoleChoices ==> VisibleProfiles(db, user, q) == []
  {
  }

  /** The `national_id` and `first_name` filters the owner search page
      sends, which the listing above never reads. */
  predicate SearchFilters(q: Query, p: OwnerProfile) {
    && (Given(q, "national_id") ==> p.nationalId == q["national_id"])
    && (Given(q, "first_name") ==> p.firstName == q["first_name"])
  }

  /** The listing with those two filters honoured as exact matches, on top
      of the role rules. */
  function SearchableProfiles(db: Db, user: User, q: Query): (r: seq<OwnerProfile>)
    ensures forall i | 0 <= i < |r| :: r[i] in VisibleProfiles(db, user, q) && SearchFilters(q, r[i])
    ensures forall i | 0 <= i < |VisibleProfiles(db, user, q)| ::
      SearchFilters(q, VisibleProfiles(db, user, q)[i]) ==> VisibleProfiles(db, user, q)[i] in r
  {
    Filter(VisibleProfiles(db, user, q), (p: OwnerProfile) => SearchFilters(q, p))
  }

  /** Without the two filters nothing changes. */
  lemma SearchableWithoutFilters(db: Db, user: User, q: Query)
    requires !Given(q, "national_id") && !Given(q, "first_name")
    ensures SearchableProfiles(db, user, q) == VisibleProfiles(db, user, q)
  {
    FilterKeepsAll(VisibleProfiles(db, user, q), (p: OwnerProfile) => SearchFilters(q, p));
  }

  datatype Action = List | Retrieve | Create | Update | PartialUpdate | Destroy | Search

  /** `get_permissions`: create and destroy need a staff account
      (`is_staff`), every other action any signed-in user. That includes
      `search`: the override never reads the `permission_classes` its
      decorator declares. */
  predicate Permitted(action: Action, p: Principal) {
    if action in {Create, Destroy} then IsAdminUser(p) else IsAuthenticated(p)
  }

  /** The staff flag, not the role, decides creation: an admin-role account
      without it is refused, a staff account of any role is let through. */
  lemma CreateNeedsStaffFlag(p: Principal)
    requires p.SignedIn?
    ensures Permitted(Create, p) <==> p.user.isStaff
    ensures IsAdmin(p) && !p.user.isStaff ==> !Permitted(Create, p)
    ensures Permitted(Update, p) && Permitted(List, p) && Permitted(Search, p)
  {
  }

  /** The create endpoint: permission, field validation, then `create`. */
  function CreateView(db: Db, p: Principal, username: Option<string>, input: ProfileInput, now: int)
    : (r: Reply<(Db, OwnerProfile)>)
    ensures !IsAdminUser(p) ==> r.Failure? && r.status in {UNAUTHORIZED, FORBIDDEN}
    ensures IsAdminUser(p) && ValidateCreate(db, username, input).Failed? ==>
      r == Failure(BAD_REQUEST, ProfileMessage(ValidateCreate(db, username, input).error))
    ensures r.Success? ==>
      && r.status == CREATED && ValidateCreate(db, username, input).Passed?
      && CreateProfile(db, Some(ValidateCreate(db, username, input).username), ValidateCreate(db, username, input).fields, now) == Ok(r.body)
      && ProfileFieldsValid(r.body.1)
    ensures IsAdminUser(p) && ValidateCreate(db, username, input).Passed? ==>
      (r.Success? <==> CreateProfile(db, Some(ValidateCreate(db, username, input).username), ValidateCreate(db, username, input).fields, now).Ok?)
  {
    if !IsAdminUser(p) then Refuse(p)
    else match ValidateCreate(db, username, input)
      case Failed(e) => Failure(BAD_REQUEST, ProfileMessage(e))
      case Passed(u, f) =>
        match CreateProfile(db, Some(u), f, now)
        case Err(e) => Failure(BAD_REQUEST, e)
        case Ok(v) =>
          ValidatedProfileValid(db, username, input, v.1.id, v.1.user, now);
          Success(CREATED, v)
  }

  /** Through the endpoint the missing-username branch of `create` is never
      reached, and neither is the database's national-id refusal: field
      validation answers first. What `create` can still refuse is an
      unknown or non-owner account and an account that has a profile. */
  lemma CreateViewRefusals(db: Db, username: Option<string>, input: ProfileInput, now: int)
    requires ValidateCreate(db, username, input).Passed?
    ensures var r := CreateProfile(db, Some(ValidateCreate(db, username, input).username), ValidateCreate(db, username, input).fields, now);
      r.Err? ==> r.error in {"User not found or user is not an owner", "Owner profile already exists for this user"}
  {
  }

  /** A field a partial update can set. `Username` is accepted by the
      serializer and then dropped. */
  datatype FieldChange =
    | Username(name: string)
    | NationalId(nationalId: string)
    | FirstName(firstName: string)
    | MiddleName(middleName: Option<string>)
    | LastName(lastName: string)
    | DateOfBirth(dateOfBirth: Option<int>)
    | Gender(gender: string)
    | ProfilePicture(profilePicture: StoredFile)
    | IdCardFront(idCardFront: StoredFile)
    | IdCardBack(idCardBack: StoredFile)
    | Signature(signature: StoredFile)
    | PermanentAddress(permanentAddress: string)
    | OwnerType(ownerType: string)
    | Status(status: string)

  /** `setattr(instance, attr, value)` for one field. */
  function SetField(p: OwnerProfile, c: FieldChange): OwnerProfile {
    match c
    case Username(_) => p
    case NationalId(v) => p.(nationalId := v)
    case FirstName(v) => p.(firstName := v)
    case MiddleName(v) => p.(middleName := v)
    case LastName(v) => p.(lastName := v)
    case DateOfBirth(v) => p.(dateOfBirth := v)
    case Gender(v) => p.(gender := v)
    case ProfilePicture(v) => p.(profilePicture := v)
    case IdCardFront(v) => p.(idCardFront := v)
    case IdCardBack(v) => p.(idCardBack := v)
    case Signature(v) => p.(signature := v)
    case PermanentAddress(v) => p.(permanentAddress := v)
    case OwnerType(v) => p.(ownerType := v)
    case Status(v) => p.(status := v)
  }

  /** A supplied field as the serializer hands it on: text fields
      stripped, the others as given. */
  function CleanChange(c: FieldChange): FieldChange {
    match c
    case Username(v) => Username(Text.Trim(v))
    case NationalId(v) => NationalId(Text.Trim(v))
    case FirstName(v) => FirstName(Text.Trim(v))
    case MiddleName(v) => MiddleName(Cleaned(v))
    case LastName(v) => LastName(Text.Trim(v))
    case PermanentAddress(v) => PermanentAddress(Text.Trim(v))
    case _ => c
  }

  /** The partial update's check of one supplied field: the blank and
      choice rules of create, blank meaning nothing is left after
      stripping. `username` is checked although it is then dropped; the
      optional fields accept anything. */
  function ChangeProblem(c: FieldChange): (r: Option<ProfileError>)
    ensures c.Username? ==> (r.None? <==> Text.Trim(c.name) != "")
    ensures c.NationalId? ==> (r.None? <==> Text.Trim(c.nationalId) != "")
    ensures c.FirstName? ==> (r.None? <==> Text.Trim(c.firstName) != "")
    ensures c.LastName? ==> (r.None? <==> Text.Trim(c.lastName) != "")
    ensures c.PermanentAddress? ==> (r.None? <==> Text.Trim(c.permanentAddress) != "")
    ensures c.Gender? ==> (r.None? <==> c.gender in GenderChoices)
    ensures c.OwnerType? ==> (r.None? <==> c.ownerType in OwnerTypeChoices)
    ensures c.Status? ==> (r.None? <==> c.status in OwnerStatusChoices)
    ensures (c.MiddleName? || c.DateOfBirth? || c.ProfilePicture? || c.IdCardFront? || c.IdCardBack?
             || c.Signature?) ==> r.None?
  {
    match c
    case Username(v) => TextProblem("username", Some(v))
    case NationalId(v) => TextProblem("national_id", Some(v))
    case FirstName(v) => TextProblem("first_name", Some(v))
    case LastName(v) => TextProblem("last_name", Some(v))
    case Gender(v) => ChoiceProblem("gender", Some(v), GenderChoices, true)
    case PermanentAddress(v) => TextProblem("permanent_address", Some(v))
    case OwnerType(v) => ChoiceProblem("owner_type", Some(v), OwnerTypeChoices, false)
    case Status(v) => ChoiceProblem("status", Some(v), OwnerStatusChoices, false)
    case _ => None
  }

  /** A change that passes its check, stored stripped, keeps a profile
      within what the model's field declarations allow. */
  lemma SetFieldKeepsValid(p: OwnerProfile, c: FieldChange)
    ensures ProfileFieldsValid(p) && ChangeProblem(c).None? ==> ProfileFieldsValid(SetField(p, CleanChange(c)))
  {
  }

  /** Storing one change keeps the account, the key and the creation
      date, and changes the national id only to a stripped new one. */
  lemma StoredChangeKeepsKeys(p: OwnerProfile, c: FieldChange)
    ensures var p' := SetField(p, CleanChange(c));
      && p'.user == p.user && p'.id == p.id && p'.dateCreated == p.dateCreated
      && (c.NationalId? ==> p'.nationalId == Text.Trim(c.nationalId))
      && (!c.NationalId? ==> p'.nationalId == p.nationalId)
  {
  }

  /** A change passes the field check and, when it sets the national id,
      no other profile than `id` holds that number once stripped. */
  predicate ChangeAccepted(db: Db, id: nat, c: FieldChange) {
    ChangeProblem(c).None? && (c.NationalId? ==> !NationalIdHeldElsewhere(db.profiles, id, Text.Trim(c.nationalId)))
  }

  /** One supplied change's verdict: its field check first, then the
      uniqueness of a national id it sets. */
  function ChangeVerdict(db: Db, id: nat, c: FieldChange): (r: Option<ProfileError>)
    ensures r.None? <==> ChangeAccepted(db, id, c)
    ensures c.NationalId? && ChangeProblem(c).None? && r.Some? ==> r == Some(NotUnique("national_id"))
  {
    if ChangeProblem(c).Some? then ChangeProblem(c)
    else if c.NationalId? && NationalIdHeldElsewhere(db.profiles, id, Text.Trim(c.nationalId)) then
      Some(NotUnique("national_id"))
    else None
  }

  function ChangeCheck(db: Db, id: nat): FieldChange -> Option<ProfileError> {
    c => ChangeVerdict(db, id, c)
  }

  /** The partial update's validation: the first supplied field that fails,
      if any. */
  function ChangesProblem(db: Db, id: nat, changes: seq<FieldChange>): (r: Option<ProfileError>)
    ensures r.None? <==> forall i | 0 <= i < |changes| :: ChangeAccepted(db, id, changes[i])
    ensures r.Some? ==> exists i | 0 <= i < |changes| :: ChangeVerdict(db, id, changes[i]) == r
  {
    FirstProblem(changes, ChangeCheck(db, id))
  }

  /** `OwnerProfileSerializer.update`: the validated (stripped) changes
      applied in order. The linked account, the key and the creation date
      never change; the national id and the field declarations are the
      subject of `ApplyChangesNationalId` and `ApplyChangesKeepsValid`. */
  function ApplyChanges(p: OwnerProfile, changes: seq<FieldChange>): (r: OwnerProfile)
    ensures r.user == p.user && r.id == p.id && r.dateCreated == p.dateCreated
    decreases |changes|
  {
    if |changes| == 0 then p
    else
      StoredChangeKeepsKeys(p, changes[0]);
      ApplyChanges(SetField(p, CleanChange(changes[0])), changes[1..])
  }

  /** The national id after an update is the old one or the stripped value
      of one the changes set; without such a change it is the old one. */
  lemma {:induction false} ApplyChangesNationalId(p: OwnerProfile, changes: seq<FieldChange>)
    ensures (forall i | 0 <= i < |changes| :: !changes[i].NationalId?) ==>
      ApplyChanges(p, changes).nationalId == p.nationalId
    ensures ApplyChanges(p, changes).nationalId == p.nationalId ||
      exists i | 0 <= i < |changes| ::
        changes[i].NationalId? && Text.Trim(changes[i].nationalId) == ApplyChanges(p, changes).nationalId
    decreases |changes|
  {
    if |changes| > 0 {
      var p' := SetField(p, CleanChange(changes[0]));
      StoredChangeKeepsKeys(p, changes[0]);
      ApplyChangesNationalId(p', changes[1..]);
      SuffixIndex(changes);
    }
  }

  /** Changes that pass their field checks keep a valid profile valid. */
  lemma {:induction false} ApplyChangesKeepsValid(p: OwnerProfile, changes: seq<FieldChange>)
    ensures ProfileFieldsValid(p) && (forall i | 0 <= i < |changes| :: ChangeProblem(changes[i]).None?) ==>
      ProfileFieldsValid(ApplyChanges(p, changes))
    decreases |changes|
  {
    if |changes| > 0 {
      SetFieldKeepsValid(p, changes[0]);
      ApplyChangesKeepsValid(SetField(p, CleanChange(changes[0])), changes[1..]);
      SuffixIndex(changes);
    }
  }

  lemma SuffixIndex(changes: seq<FieldChange>)
    requires |changes| > 0
    ensures forall i | 1 <= i < |changes| :: changes[1..][i - 1] == changes[i]
  {
  }

  /** Changes that only name a username leave the profile as it was. */
  lemma {:induction false} UsernameChangesIgnored(p: OwnerProfile, changes: seq<FieldChange>)
    requires forall i | 0 <= i < |changes| :: changes[i].Username?
    ensures ApplyChanges(p, changes) == p
    decreases |changes|
  {
    if |changes| > 0 {
      UsernameChangesIgnored(p, changes[1..]);
    }
  }

  /** Another profile than `id` already holds the national id. */
  predicate NationalIdHeldElsewhere(ps: seq<OwnerProfile>, id: nat, nationalId: string) {
    exists i | 0 <= i < |ps| :: ps[i].id != id && ps[i].nationalId == nationalId
  }

  /** The rows with the key `id` replaced by `updated`. */
  function ReplaceProfile(ps: seq<OwnerProfile>, id: nat, updated: OwnerProfile): (r: seq<OwnerProfile>)
    ensures |r| == |ps|
    ensures forall i | 0 <= i < |ps| :: r[i] == if ps[i].id == id then updated else ps[i]
  {
    MapSeq(ps, (x: OwnerProfile) => if x.id == id then updated else x)
  }

  /** The update endpoint: the instance is looked up through the queryset
      (404 when it is not visible), an owner touching another account's
      profile is refused with 403, the supplied fields are validated (the
      national id against every other profile), and the partial changes
      are saved. */
  function UpdateView(db: Db, p: Principal, q: Query, id: nat, changes: seq<FieldChange>)
    : (r: Reply<(Db, OwnerProfile)>)
    ensures p.Anonymous? ==> r == Failure(UNAUTHORIZED, "Authentication credentials were not provided.")
    ensures p.SignedIn? && FindProfile(VisibleProfiles(db, p.user, q), id).None? ==> r.Failure? && r.status == NOT_FOUND
    ensures r.Success? ==>
      && r.status == OK && p.SignedIn?
      && FindProfile(VisibleProfiles(db, p.user, q), id).Some?
      && var before := FindProfile(VisibleProfiles(db, p.user, q), id).value;
         && r.body.1 == ApplyChanges(before, changes)
         && r.body.0 == db.(profiles := ReplaceProfile(db.profiles, id, r.body.1))
         && ChangesProblem(db, id, changes).None?
         && (ProfileFieldsValid(before) ==> ProfileFieldsValid(r.body.1))
    ensures (p.SignedIn? && FindProfile(VisibleProfiles(db, p.user, q), id).Some?
             && (p.user.role != OWNER || FindProfile(VisibleProfiles(db, p.user, q), id).value.user == p.user.id))
      ==> (r.Success? <==> ChangesProblem(db, id, changes).None?)
    ensures ChangesProblem(db, id, changes).Some? ==> r.Failure?
  {
    if p.Anonymous? then Refuse(p)
    else match FindProfile(VisibleProfiles(db, p.user, q), id)
      case None => Failure(NOT_FOUND, "No OwnerProfile matches the given query.")
      case Some(before) =>
        if p.user.role == OWNER && before.user != p.user.id then
          Failure(FORBIDDEN, "You can only update your own profile")
        else
          match ChangesProblem(db, id, changes)
          case Some(e) => Failure(BAD_REQUEST, ProfileMessage(e))
          case None =>
            ApplyChangesKeepsValid(before, changes);
            var updated := ApplyChanges(before, changes);
            Success(OK, (db.(profiles := ReplaceProfile(db.profiles, id, updated)), updated))
  }

  /** An owner is never answered 403: a profile of another account is not
      in its queryset, so the lookup answers 404 first. Whatever an owner
      manages to change is its own profile. */
  lemma OwnerUpdateNeverForbidden(db: Db, p: Principal, q: Query, id: nat, changes: seq<FieldChange>)
    requires HasRole(p, OWNER)
    ensures UpdateView(db, p, q, id, changes).Failure? ==> UpdateView(db, p, q, id, changes).status != FORBIDDEN
    ensures UpdateView(db, p, q, id, changes).Success? ==> UpdateView(db, p, q, id, changes).body.1.user == p.user.id
  {
    match FindProfile(VisibleProfiles(db, p.user, q), id)
    case None =>
    case Some(before) =>
      OwnerSeesOnlyOwnProfile(db, p.user, q);
      var vis := VisibleProfiles(db, p.user, q);
      var k :| 0 <= k < |vis| && vis[k] == before;
  }

  /** A saved update rewrites exactly the row with the updated key. */
  lemma UpdateReplacesOne(db: Db, p: Principal, q: Query, id: nat, changes: seq<FieldChange>) returns (k: nat)
    requires Valid(db)
    requires UpdateView(db, p, q, id, changes).Success?
    ensures k < |db.profiles| && db.profiles[k].id == id
    ensures db.profiles[k] == FindProfile(VisibleProfiles(db, p.user, q), id).value
    ensures UpdateView(db, p, q, id, changes).body.0.profiles == db.profiles[k := UpdateView(db, p, q, id, changes).body.1]
  {
    var (db', updated) := UpdateView(db, p, q, id, changes).body;
    var before := FindProfile(VisibleProfiles(db, p.user, q), id).value;
    var ps := db.profiles;
    k :| 0 <= k < |ps| && ps[k] == before;
    forall i | 0 <= i < |ps| && i != k
      ensures ps[i].id != id
    {
      if i < k { assert DistinctProfileIds(ps[i], ps[k]); } else { assert DistinctProfileIds(ps[k], ps[i]); }
    }
    assert db'.profiles == ps[k := updated];
  }

  /** A saved update keeps the registry valid. */
  lemma UpdateViewValid(db: Db, p: Principal, q: Query, id: nat, changes: seq<FieldChange>)
    requires Valid(db)
    requires UpdateView(db, p, q, id, changes).Success?
    ensures Valid(UpdateView(db, p, q, id, changes).body.0)
  {
    var (db', updated) := UpdateView(db, p, q, id, changes).body;
    var k := UpdateReplacesOne(db, p, q, id, changes);
    var ps := db.profiles;
    UpdatedNationalIdFree(db, k, changes);
    forall i | 0 <= i < |ps| && i != k
      ensures DistinctProfileIds(ps[i], updated) && DistinctProfileIds(updated, ps[i])
      ensures DistinctProfileUsers(ps[i], updated) && DistinctProfileUsers(updated, ps[i])
      ensures DistinctNationalIds(ps[i], updated) && DistinctNationalIds(updated, ps[i])
    {
      if i < k {
        assert DistinctProfileIds(ps[i], ps[k]) && DistinctProfileUsers(ps[i], ps[k]);
      } else {
        assert DistinctProfileIds(ps[k], ps[i]) && DistinctProfileUsers(ps[k], ps[i]);
      }
    }
    PairwiseReplace(ps, k, updated, DistinctProfileIds);
    PairwiseReplace(ps, k, updated, DistinctProfileUsers);
    PairwiseReplace(ps, k, updated, DistinctNationalIds);
    UpdateKeepsLinks(db, db', k, updated);
  }

  /** After accepted changes the national id is held by no other profile:
      it is either the profile's own, unique in a valid registry, or one
      the validator found free. */
  lemma UpdatedNationalIdFree(db: Db, k: nat, changes: seq<FieldChange>)
    requires Pairwise(db.profiles, DistinctNationalIds) && k < |db.profiles|
    requires forall i | 0 <= i < |changes| :: ChangeAccepted(db, db.profiles[k].id, changes[i])
    ensures !NationalIdHeldElsewhere(db.profiles, db.profiles[k].id, ApplyChanges(db.profiles[k], changes).nationalId)
  {
    var before := db.profiles[k];
    var v := ApplyChanges(before, changes).nationalId;
    ApplyChangesNationalId(before, changes);
    if v == before.nationalId {
      OwnNationalIdFree(db.profiles, k);
    } else {
      var j :| 0 <= j < |changes| && changes[j].NationalId? && Text.Trim(changes[j].nationalId) == v;
      assert ChangeAccepted(db, before.id, changes[j]);
    }
  }

  /** In a table of distinct national ids a profile's own number is held by
      no other profile. */
  lemma OwnNationalIdFree(ps: seq<OwnerProfile>, k: nat)
    requires Pairwise(ps, DistinctNationalIds) && k < |ps|
    ensures !NationalIdHeldElsewhere(ps, ps[k].id, ps[k].nationalId)
  {
    forall i | 0 <= i < |ps| && ps[i].id != ps[k].id
      ensures ps[i].nationalId != ps[k].nationalId
    {
      if i < k { assert DistinctNationalIds(ps[i], ps[k]); } else { assert DistinctNationalIds(ps[k], ps[i]); }
    }
  }

  /** Keys and accounts are unchanged, so every link still resolves. */
  lemma UpdateKeepsLinks(db: Db, db': Db, k: nat, updated: OwnerProfile)
    requires Valid(db)
    requires k < |db.profiles| && updated.id == db.profiles[k].id && updated.user == db.profiles[k].user
    requires db' == db.(profiles := db.profiles[k := updated])
    ensures forall i | 0 <= i < |db'.profiles| :: HasUser(db'.users, db'.profiles[i].user)
    ensures forall i | 0 <= i < |db'.records| :: RecordLinksValid(db', db'.records[i])
    ensures DocumentsValid(db')
  {
    forall x | HasProfile(db.profiles, x)
      ensures HasProfile(db'.profiles, x)
    {
      var j :| 0 <= j < |db.profiles| && db.profiles[j].id == x;
      assert db'.profiles[j].id == x;
    }
    forall i | 0 <= i < |db.records|
      ensures RecordLinksValid(db', db.records[i])
    {
      assert RecordLinksValid(db, db.records[i]);
    }
    forall i | 0 <= i < |db.documents|
      ensures DocumentLinksValid(db', db.documents[i])
    {
      assert DocumentLinksValid(db, db.documents[i]);
    }
  }

  /** The `search` action as written: any signed-in user; 400 without a
      username, otherwise every profile whose account has that username,
      in table order, whoever asks. */
  function SearchView(db: Db, p: Principal, q: Query): (r: Reply<seq<OwnerProfile>>)
    ensures r.Success? <==> Permitted(Search, p) && Given(q, "username")
    ensures p.Anonymous? ==> r == Refuse(p)
    ensures p.SignedIn? && !Given(q, "username") ==> r == Failure(BAD_REQUEST, "username required")
    ensures r.Success? ==> forall i | 0 <= i < |r.body| ::
      r.body[i] in db.profiles && ProfileHasUsername(db, r.body[i], q["username"])
    ensures r.Success? ==> forall i | 0 <= i < |db.profiles| ::
      ProfileHasUsername(db, db.profiles[i], q["username"]) ==> db.profiles[i] in r.body
  {
    if !Permitted(Search, p) then Refuse(p)
    else if !Given(q, "username") then Failure(BAD_REQUEST, "username required")
    else
      var name := q["username"];
      Success(OK, Filter(db.profiles, (x: OwnerProfile) => ProfileHasUsername(db, x, name)))
  }

  /** For the staff roles the search answers what the listing with the same
      username answers, in the same order. */
  lemma SearchMatchesStaffListing(db: Db, p: Principal, q: Query)
    requires p.SignedIn? && (p.user.role == ADMIN || p.user.role == OFFICER) && Given(q, "username")
    ensures SearchView(db, p, q).body == VisibleProfiles(db, p.user, q)
  {
  }

  /** As written, an owner account without the staff flag that searches for
      another account's username receives that account's profile, which its
      own listing never shows it. */
  lemma SearchLeaksToOwners(db: Db, p: Principal, q: Query, k: nat)
    requires HasRole(p, OWNER) && !p.user.isStaff
    requires Given(q, "username") && k < |db.profiles| && ProfileHasUsername(db, db.profiles[k], q["username"])
    requires db.profiles[k].user != p.user.id
    ensures SearchView(db, p, q).Success? && db.profiles[k] in SearchView(db, p, q).body
    ensures db.profiles[k] !in VisibleProfiles(db, p.user, q)
  {
    OwnerSeesOnlyOwnProfile(db, p.user, q);
  }

  /** The search with the staff-only permission its decorator declares:
      callers without the staff flag are refused, staff get the search as
      written. */
  function SearchViewStaffOnly(db: Db, p: Principal, q: Query): (r: Reply<seq<OwnerProfile>>)
    ensures !IsAdminUser(p) ==> r.Failure? && r.status in {UNAUTHORIZED, FORBIDDEN}
    ensures IsAdminUser(p) ==> r == SearchView(db, p, q)
  {
    if !IsAdminUser(p) then Refuse(p) else SearchView(db, p, q)
  }

  /** With the intended permission no profile reaches a caller without the
      staff flag, and a staff caller loses nothing. */
  lemma StaffOnlySearchKeepsProfilesPrivate(db: Db, p: Principal, q: Query)
    ensures SearchViewStaffOnly(db, p, q).Success? ==> IsAdminUser(p)
    ensures IsAdminUser(p) && Given(q, "username") ==> SearchViewStaffOnly(db, p, q).Success?
    ensures HasRole(p, OWNER) && !p.user.isStaff ==> SearchViewStaffOnly(db, p, q).status == FORBIDDEN
  {
  }
}

=== FILE: owner_search.dfy ===
/** The staff page that looks owners up by username, national id or first
    name: the query it sends, how it reads the answer, the messages it
    shows and the count of active owners among the results. */
module OwnerSearch {
  import opened Base
  import Js
  import Text
  import Client
  import Session
  import Accounts
  import Models
  import Registry
  import OwnerApi
  import Http

  datatype SearchType = ByUsername | ByNationalId | ByName

  /** The name the messages use for the search type. */
  function TypeName(t: SearchType): string {
    match t
    case ByUsername => "username"
    case ByNationalId => "national_id"
    case ByName => "name"
  }

  /** The query parameter each search type fills. */
  function QueryKey(t: SearchType): string {
    match t
    case ByUsername => "username"
    case ByNationalId => "national_id"
    case ByName => "first_name"
  }

  /** `/owners/?<key>=<value>`: one parameter, holding the value as typed
      (neither trimmed nor encoded). */
  function QueryOf(t: SearchType, value: string): (q: map<string, string>)
    ensures q.Keys == {QueryKey(t)} && q[QueryKey(t)] == value
  {
    map[QueryKey(t) := value]
  }

  /** The three messages the page shows. */
  datatype Problem =
    | EnterValue(searchType: SearchType)
    | NoneFound(searchType: SearchType)
    | Failed(message: Js.Value)

  function Message(p: Problem): Js.Value {
    match p
    case EnterValue(t) => Js.Str("Please enter a " + TypeName(t) + " to search")
    case NoneFound(t) => Js.Str("No owners found with that " + TypeName(t))
    case Failed(m) => m
  }

  /** The page's state: the search type, the value typed, the results and
      the message shown. */
  datatype Page = Page(searchType: SearchType, value: string, results: Js.Value, problem: Option<Problem>)

  const InitialPage := Page(ByUsername, "", Js.Arr([]), None)

  /** `Array.isArray(data) ? data : data.results ?? []`; reading `results`
      of `null` or `undefined` throws, which is `None` here. */
  function Normalise(data: Js.Value): (r: Option<Js.Value>)
    ensures r.None? <==> Js.IsNullish(data)
  {
    if data.Arr? then Some(data)
    else if Js.IsNullish(data) then None
    else if Js.IsNullish(Js.Get(data, "results")) then Some(Js.Arr([]))
    else Some(Js.Get(data, "results"))
  }

  /** A plain list and a page of results both read as their list of
      owners. */
  lemma NormaliseListOrPage(items: seq<Js.Value>, rest: seq<(string, Js.Value)>)
    ensures Normalise(Js.Arr(items)) == Some(Js.Arr(items))
    ensures Normalise(Js.Obj([("results", Js.Arr(items))] + rest)) == Some(Js.Arr(items))
  {
    Js.LookupAt([("results", Js.Arr(items))] + rest, "results", 0);
  }

  /** `err.response?.data?.detail || "Search failed"`. */
  function FailureText(reply: Client.Reply): (m: Js.Value)
    ensures Js.Truthy(m)
    ensures Js.Truthy(Js.Get(Client.ErrorData(reply), "detail")) ==> m == Js.Get(Client.ErrorData(reply), "detail")
    ensures !reply.HttpError? ==> m == Js.Str("Search failed")
  {
    var detail := Js.Get(Client.ErrorData(reply), "detail");
    if Js.Truthy(detail) then detail else Js.Str("Search failed")
  }

  /** What a search leaves: the query sent, if any, and the new page. */
  datatype Outcome = Outcome(request: Option<map<string, string>>, page: Page)

  /** `handleSearch`, given the answer the request would get. A blank value
      sends nothing; an answer that reads as a list replaces the results,
      with the "none found" message exactly when the list is empty; any
      other outcome empties the results and reports the failure. */
  function HandleSearch(p: Page, reply: Client.Reply): (o: Outcome)
    ensures o.request.None? <==> Text.IsBlank(p.value)
    ensures o.request.None? ==> o.page == p.(problem := Some(EnterValue(p.searchType)))
    ensures o.request.Some? ==> o.request.value == QueryOf(p.searchType, p.value)
    ensures o.page.searchType == p.searchType && o.page.value == p.value
    ensures o.request.Some? && reply.Ok? && Normalise(reply.data).Some? ==>
      && o.page.results == Normalise(reply.data).value
      && (o.page.problem == Some(NoneFound(p.searchType)) <==> Js.Length(o.page.results) == Some(0))
      && (o.page.problem.None? <==> Js.Length(o.page.results) != Some(0))
    ensures o.request.Some? && !(reply.Ok? && Normalise(reply.data).Some?) ==>
      o.page.results == Js.Arr([]) && o.page.problem == Some(Failed(FailureText(reply)))
  {
    Text.TrimEmptyIffBlank(p.value);
    if Text.Trim(p.value) == "" then Outcome(None, p.(problem := Some(EnterValue(p.searchType))))
    else
      var q := QueryOf(p.searchType, p.value);
      if reply.Ok? && Normalise(reply.data).Some? then
        var data := Normalise(reply.data).value;
        Outcome(Some(q), p.(results := data,
                            problem := if Js.Length(data) == Some(0) then Some(NoneFound(p.searchType)) else None))
      else
        Outcome(Some(q), p.(results := Js.Arr([]), problem := Some(Failed(FailureText(reply)))))
  }

  /** Choosing a search type starts over: no value, no results, no
      message. */
  function SwitchType(p: Page, t: SearchType): (p': Page)
    ensures p'.searchType == t && p'.problem.None? && Js.Length(p'.results) == Some(0)
    ensures Text.IsBlank(p'.value)
  {
    Page(t, "", Js.Arr([]), None)
  }

  /** Right after a switch a search sends nothing and asks for a value of
      the new type. */
  lemma SwitchThenSearchAsks(p: Page, t: SearchType, reply: Client.Reply)
    ensures var o := HandleSearch(SwitchType(p, t), reply);
      o.request.None? && o.page.problem == Some(EnterValue(t))
  {
  }

  /** The page sends anyone who is neither admin nor officer to `/`. */
  function Redirect(s: Session.Session): (to: Option<string>)
    ensures to.None? <==> Session.IsStaff(s)
    ensures to.Some? ==> to.value == "/"
  {
    if Session.IsStaff(s) then None else Some("/")
  }

  /** The accounts the page lets in are those whose unfiltered listing is
      every profile. */
  lemma AdmittedSeeEveryProfile(db: Registry.Db, u: Accounts.User, q: map<string, string>)
    requires Redirect(Session.LoggedIn(u.id, u.username, u.role)).None?
    requires !Http.Given(q, "username")
    ensures OwnerApi.VisibleProfiles(db, u, q) == db.profiles
  {
    OwnerApi.StaffVisibility(db, u, q);
  }

  /** The fields of a listed profile the page reads. */
  function ProfileSummary(p: Models.OwnerProfile): (v: Js.Value)
    ensures v.Obj?
  {
    Js.Obj([("id", Js.Num(p.id)), ("national_id", Js.Str(p.nationalId)), ("first_name", Js.Str(p.firstName)),
            ("last_name", Js.Str(p.lastName)), ("status", Js.Str(p.status))])
  }

  lemma SummaryFields(p: Models.OwnerProfile)
    ensures Js.Get(ProfileSummary(p), "id") == Js.Num(p.id)
    ensures Js.Get(ProfileSummary(p), "national_id") == Js.Str(p.nationalId)
    ensures Js.Get(ProfileSummary(p), "first_name") == Js.Str(p.firstName)
    ensures Js.Get(ProfileSummary(p), "status") == Js.Str(p.status)
  {
    var e := ProfileSummary(p).entries;
    assert "national_id"[0] != "id"[0];
    Js.LookupAt(e, "national_id", 1);
    assert "first_name"[0] != "id"[0] && "first_name"[0] != "national_id"[0];
    Js.LookupAt(e, "first_name", 2);
    assert "status"[0] != "id"[0] && "status"[0] != "national_id"[0];
    assert "status"[0] != "first_name"[0] && "status"[0] != "last_name"[0];
    Js.LookupAt(e, "status", 4);
  }

  /** The body a listing answers with: each visible profile's fields. */
  function ListingBody(profiles: seq<Models.OwnerProfile>): (v: Js.Value)
    ensures v.Arr? && |v.items| == |profiles|
    ensures forall i | 0 <= i < |profiles| :: v.items[i] == ProfileSummary(profiles[i])
  {
    Js.Arr(MapSeq(profiles, ProfileSummary))
  }

  /** `owner.id` of a listed profile leads to that profile's page. */
  function SelectPath(owner: Js.Value): string {
    "/owners/" + Js.ToString(Js.Get(owner, "id"))
  }

  lemma SelectLeadsToProfile(p: Models.OwnerProfile)
    ensures SelectPath(ProfileSummary(p)) == "/owners/" + Text.NatToDecimal(p.id)
  {
    SummaryFields(p);
  }

  // ------------------------------------------------------ active owners

  predicate IsActive(o: Js.Value) {
    Js.Get(o, "status") == Js.Str("Active")
  }

  /** `searchResults.filter(o => o.status === "Active").length`. */
  function ActiveCount(results: seq<Js.Value>): (n: nat)
    ensures n <= |results|
  {
    Count(results, IsActive)
  }

  /** Among the listed profiles the active count is the number whose
      status is `Active`. */
  lemma {:induction false} ActiveCountOfListing(ps: seq<Models.OwnerProfile>)
    ensures ActiveCount(ListingBody(ps).items) == Count(ps, (p: Models.OwnerProfile) => p.status == Models.DefaultOwnerStatus)
  {
    if |ps| > 0 {
      var items := ListingBody(ps).items;
      ActiveCountOfListing(ps[1..]);
      assert items[1..] == ListingBody(ps[1..]).items;
      SummaryFields(ps[0]);
      assert IsActive(items[0]) <==> ps[0].status == Models.DefaultOwnerStatus;
    }
  }

  // ------------------------------------------------ against the server

  /** A search as the page runs it against the listing as written: the
      answer is the listing of `VisibleProfiles`. */
  function SearchAsWritten(db: Registry.Db, u: Accounts.User, t: SearchType, value: string): (o: Outcome)
    ensures o.request.Some? <==> !Text.IsBlank(value)
  {
    var p := Page(t, value, Js.Arr([]), None);
    HandleSearch(p, Client.Ok(ListingBody(OwnerApi.VisibleProfiles(db, u, QueryOf(t, value)))))
  }

  /** The listing reads only `username`: a staff search by national id or
      by name lists every profile, whatever the value, so a profile whose
      national id differs from the value is still shown, and "No owners
      found" appears only when there are no profiles at all. */
  lemma SearchIgnoresFilterAsWritten(db: Registry.Db, u: Accounts.User, t: SearchType, value: string)
    requires u.role == Accounts.ADMIN || u.role == Accounts.OFFICER
    requires t != ByUsername && !Text.IsBlank(value)
    ensures SearchAsWritten(db, u, t, value).page.results == ListingBody(db.profiles)
    ensures SearchAsWritten(db, u, t, value).page.problem == Some(NoneFound(t)) <==> |db.profiles| == 0
  {
    var q := QueryOf(t, value);
    assert !Http.Given(q, "username");
    OwnerApi.StaffVisibility(db, u, q);
    HandleListing(Page(t, value, Js.Arr([]), None), ListingBody(db.profiles).items);
  }

  /** A list answer to a search becomes the results, and "none found"
      exactly when it is empty. */
  lemma HandleListing(p: Page, items: seq<Js.Value>)
    requires !Text.IsBlank(p.value)
    ensures HandleSearch(p, Client.Ok(Js.Arr(items))).page.results == Js.Arr(items)
    ensures HandleSearch(p, Client.Ok(Js.Arr(items))).page.problem == Some(NoneFound(p.searchType)) <==> |items| == 0
  {
    NormaliseListOrPage(items, []);
  }

  /** A concrete instance: one profile with national id `A1`, a search for
      `B2`, and the profile is listed. */
  lemma SearchIgnoresFilterExample()
    ensures var p := Models.OwnerProfile(1, 1, "A1", "Ann", None, "Lee", None, "Female",
                                         Models.NoFile, Models.NoFile, Models.NoFile, Models.NoFile,
                                         "", "Individual", "Active", 0);
      var db := Registry.Db([], [p], [], [], []);
      var u := Accounts.User(2, "clerk", Accounts.OFFICER, None, true, true, false);
      && SearchAsWritten(db, u, ByNationalId, "B2").page.results == Js.Arr([ProfileSummary(p)])
      && p.nationalId != "B2"
  {
    var p := Models.OwnerProfile(1, 1, "A1", "Ann", None, "Lee", None, "Female",
                                 Models.NoFile, Models.NoFile, Models.NoFile, Models.NoFile,
                                 "", "Individual", "Active", 0);
    var db := Registry.Db([], [p], [], [], []);
    var u := Accounts.User(2, "clerk", Accounts.OFFICER, None, true, true, false);
    assert !Text.IsBlank("B2") by { assert !Text.IsSpace("B2"[0]); }
    SearchIgnoresFilterAsWritten(db, u, ByNationalId, "B2");
    assert ListingBody(db.profiles) == Js.Arr([ProfileSummary(p)]);
  }

  /** The same search against the listing with its filters honoured. */
  function Search(db: Registry.Db, u: Accounts.User, t: SearchType, value: string): (o: Outcome)
    ensures o.request.Some? <==> !Text.IsBlank(value)
  {
    var p := Page(t, value, Js.Arr([]), None);
    HandleSearch(p, Client.Ok(ListingBody(OwnerApi.SearchableProfiles(db, u, QueryOf(t, value)))))
  }

  /** The field a search type compares with the value. */
  function Searched(t: SearchType, p: Models.OwnerProfile): string
    requires t != ByUsername
  {
    if t == ByNationalId then p.nationalId else p.firstName
  }

  /** A value that is not blank is not empty. */
  lemma FilledValue(value: string)
    requires !Text.IsBlank(value)
    ensures value != ""
  {
  }

  /** For a search by national id or by name the honoured filters are the
      comparison of the searched field with the value. */
  lemma FiltersCompareSearched(t: SearchType, value: string, x: Models.OwnerProfile)
    requires t != ByUsername && value != ""
    ensures OwnerApi.SearchFilters(QueryOf(t, value), x) <==> Searched(t, x) == value
  {
  }

  /** With the filters honoured, a staff search by national id or by name
      shows exactly the profiles whose field equals the value, and "No
      owners found" exactly when there is none. */
  lemma SearchFindsMatches(db: Registry.Db, u: Accounts.User, t: SearchType, value: string)
    requires u.role == Accounts.ADMIN || u.role == Accounts.OFFICER
    requires t != ByUsername && !Text.IsBlank(value)
    ensures var r := OwnerApi.SearchableProfiles(db, u, QueryOf(t, value));
      && Search(db, u, t, value).page.results == ListingBody(r)
      && (forall i | 0 <= i < |r| :: Searched(t, r[i]) == value)
      && (forall i | 0 <= i < |db.profiles| :: Searched(t, db.profiles[i]) == value ==> db.profiles[i] in r)
    ensures Search(db, u, t, value).page.problem == Some(NoneFound(t)) <==>
      forall i | 0 <= i < |db.profiles| :: Searched(t, db.profiles[i]) != value
  {
    var q := QueryOf(t, value);
    FilledValue(value);
    assert !Http.Given(q, "username");
    OwnerApi.StaffVisibility(db, u, q);
    var r := OwnerApi.SearchableProfiles(db, u, q);
    forall i | 0 <= i < |r|
      ensures Searched(t, r[i]) == value
    {
      FiltersCompareSearched(t, value, r[i]);
    }
    forall i | 0 <= i < |db.profiles| && Searched(t, db.profiles[i]) == value
      ensures db.profiles[i] in r
    {
      FiltersCompareSearched(t, value, db.profiles[i]);
    }
    HandleListing(Page(t, value, Js.Arr([]), None), ListingBody(r).items);
    if |r| > 0 {
      assert r[0] in db.profiles;
      var k :| 0 <= k < |db.profiles| && db.profiles[k] == r[0];
      assert Searched(t, db.profiles[k]) == value;
    }
  }
}

=== FILE: parcel_list.dfy ===
/** The parcel list page's view state: how it is read from and written to
    the address bar, the parameters of the request it sends, its paging
    and how it reads the answer. Query strings are key-value maps; their
    percent-encoding is not modelled. */
module ParcelList {
  import opened Base
  import opened Http
  import Text
  import Js
  import LandApi

  /** The page number as the page keeps it: `parseInt` of a URL parameter
      may give `NaN`. */
  datatype PageNumber = NaN | Page(n: int)

  datatype ViewState = ViewState(
    status: string,
    landType: string,
    search: string,
    sortBy: string,
    page: PageNumber)

  /** The state the page starts in. */
  const Initial := ViewState("all", "all", "", "newest", Page(1))

  /** The choices of the sort menu. */
  const SortChoices: seq<string> := ["newest", "oldest", "value_desc", "value_asc", "area_desc", "area_asc"]

  // ------------------------------------------------------------ address bar

  /** The sort a `sort`/`order` pair names: only "value", "area" and
      "date" are recognised; any `order` but "asc" means descending. */
  function SortFromUrl(sort: string, order: Option<string>): (choice: Option<string>)
    ensures choice.Some? <==> sort in ["value", "area", "date"]
    ensures choice.Some? ==> choice.value in SortChoices
    ensures choice.Some? && order != Some("asc") ==> choice.value in ["newest", "value_desc", "area_desc"]
    ensures choice.Some? && order == Some("asc") ==> choice.value in ["oldest", "value_asc", "area_asc"]
  {
    var asc := order == Some("asc");
    if sort == "value" then Some(if asc then "value_asc" else "value_desc")
    else if sort == "area" then Some(if asc then "area_asc" else "area_desc")
    else if sort == "date" then Some(if asc then "oldest" else "newest")
    else None
  }

  /** The effect that reads the address bar: every non-empty parameter
      overrides its part of the current state; `page` goes through
      `parseInt`. */
  function DecodeUrl(q: Query, s: ViewState): (r: ViewState)
    ensures r.status == (if Given(q, "status") then q["status"] else s.status)
    ensures r.landType == (if Given(q, "type") then q["type"] else s.landType)
    ensures r.search == (if Given(q, "search") then q["search"] else s.search)
    ensures !Given(q, "page") ==> r.page == s.page
    ensures r.sortBy != s.sortBy ==> Given(q, "sort") && q["sort"] in ["value", "area", "date"]
    ensures Given(q, "sort") && q["sort"] == "value" ==>
      r.sortBy == (if Param(q, "order") == Some("asc") then "value_asc" else "value_desc")
  {
    var page := if !Given(q, "page") then s.page
      else match Text.ParseInt(q["page"]) case Some(n) => Page(n) case None => NaN;
    var sortBy := if !Given(q, "sort") then s.sortBy
      else SortFromUrl(q["sort"], Param(q, "order")).GetOr(s.sortBy);
    ViewState(
      if Given(q, "status") then q["status"] else s.status,
      if Given(q, "type") then q["type"] else s.landType,
      if Given(q, "search") then q["search"] else s.search,
      sortBy,
      page)
  }

  /** The `sort`/`order` pair a sort choice is written as; "newest" and
      unknown choices write nothing. */
  function SortToUrl(sortBy: string): (pair: Option<(string, string)>)
    ensures sortBy == "newest" ==> pair.None?
    ensures sortBy in SortChoices && sortBy != "newest" ==> pair.Some?
  {
    if sortBy == "newest" then None
    else if Text.StartsWith(sortBy, "value") then Some(("value", if sortBy == "value_desc" then "desc" else "asc"))
    else if Text.StartsWith(sortBy, "area") then Some(("area", if sortBy == "area_desc" then "desc" else "asc"))
    else if sortBy == "oldest" then Some(("date", "asc"))
    else None
  }

  /** The effect that writes the address bar: only what differs from the
      initial state is written, and the page only beyond the first. */
  function EncodeUrl(s: ViewState): (q: Query)
    ensures "status" in q <==> s.status != "all"
    ensures "type" in q <==> s.landType != "all"
    ensures "search" in q <==> s.search != ""
    ensures "page" in q <==> s.page.Page? && s.page.n > 1
    ensures "status" in q ==> q["status"] == s.status
    ensures "type" in q ==> q["type"] == s.landType
    ensures "search" in q ==> q["search"] == s.search
    ensures "page" in q ==> q["page"] == Text.IntToString(s.page.n)
    ensures "sort" in q <==> SortToUrl(s.sortBy).Some?
    ensures "order" in q <==> SortToUrl(s.sortBy).Some?
    ensures "sort" in q ==> q["sort"] == SortToUrl(s.sortBy).value.0 && q["order"] == SortToUrl(s.sortBy).value.1
  {
    var q0: Query := map[];
    var q1 := if s.status != "all" then q0["status" := s.status] else q0;
    var q2 := if s.landType != "all" then q1["type" := s.landType] else q1;
    var q3 := if s.search != "" then q2["search" := s.search] else q2;
    var q4 := if s.page.Page? && s.page.n > 1 then q3["page" := Text.IntToString(s.page.n)] else q3;
    match SortToUrl(s.sortBy)
    case None => q4
    case Some(pair) => q4["sort" := pair.0]["order" := pair.1]
  }

  /** The initial state leaves the address bare ("/parcels"). */
  lemma InitialStateWritesNothing()
    ensures EncodeUrl(Initial) == map[]
  {
  }

  /** A state the page can be in: filters chosen from their menus (never
      empty), a sort from the sort menu and a page from 1 on. */
  predicate Reachable(s: ViewState) {
    s.status != "" && s.landType != "" && s.sortBy in SortChoices && s.page.Page? && s.page.n >= 1
  }

  /** Each menu sort is written as a pair that reads back as itself. */
  lemma SortRoundTrip(sortBy: string)
    requires sortBy in SortChoices
    ensures SortToUrl(sortBy).None? <==> sortBy == "newest"
    ensures SortToUrl(sortBy).Some? ==>
      SortFromUrl(SortToUrl(sortBy).value.0, Some(SortToUrl(sortBy).value.1)) == Some(sortBy)
  {
    if sortBy == "value_desc" || sortBy == "value_asc" {
      assert sortBy[..5] == "value";
    } else if sortBy == "area_desc" || sortBy == "area_asc" {
      assert sortBy[..4] == "area";
      assert sortBy[..5][0] != "value"[0];
    } else if sortBy == "oldest" {
      assert sortBy[..4][0] != "area"[0];
      assert sortBy[..5][0] != "value"[0];
    }
  }

  /** Writing the state to the address bar and reading it back from the
      initial state gives the state again. */
  lemma UrlRoundTrip(s: ViewState)
    requires Reachable(s)
    ensures DecodeUrl(EncodeUrl(s), Initial) == s
  {
    var q := EncodeUrl(s);
    var r := DecodeUrl(q, Initial);
    if s.page.n > 1 {
      Text.ParseIntOfDecimal(s.page.n);
      assert Text.IntToString(s.page.n) == Text.NatToDecimal(s.page.n);
    }
    SortRoundTrip(s.sortBy);
    assert r.page == s.page;
    assert r.sortBy == s.sortBy;
    assert r.status == s.status && r.landType == s.landType && r.search == s.search;
  }

  // ------------------------------------------------------------ request

  /** The `ordering` parameter for a sort choice; unknown choices fall back
      to the newest first. */
  function Ordering(sortBy: string): (ordering: string)
    ensures LandApi.OrderingField(ordering) in LandApi.OrderingFields
    ensures sortBy !in SortChoices ==> ordering == LandApi.DefaultOrdering
  {
    assert LandApi.OrderingField("-current_market_value") == "current_market_value";
    assert LandApi.OrderingField("-area") == "area";
    assert LandApi.OrderingField("-date_created") == "date_created";
    match sortBy
    case "value_desc" => "-current_market_value"
    case "value_asc" => "current_market_value"
    case "area_desc" => "-area"
    case "area_asc" => "area"
    case "newest" => "-date_created"
    case "oldest" => "date_created"
    case _ => "-date_created"
  }

  /** Different sort choices ask for different orderings. */
  lemma OrderingInjective(a: string, b: string)
    requires a in SortChoices && b in SortChoices && a != b
    ensures Ordering(a) != Ordering(b)
  {
    assert "-current_market_value"[0] == '-' && "-area"[0] == '-';
  }

  /** The parameters of the list request. */
  function FetchParams(s: ViewState): (q: Query)
    ensures "status" in q <==> s.status != "all"
    ensures "status" in q ==> q["status"] == Text.ToLower(s.status)
    ensures "land_use_type" in q <==> s.landType != "all"
    ensures "search" in q <==> s.search != ""
    ensures "page_size" in q && q["page_size"] == "12"
    ensures "ordering" in q && q["ordering"] == Ordering(s.sortBy)
  {
    var q0: Query := map[];
    var q1 := if s.status != "all" then q0["status" := Text.ToLower(s.status)] else q0;
    var q2 := if s.landType != "all" then q1["land_use_type" := s.landType] else q1;
    var q3 := if s.search != "" then q2["search" := s.search] else q2;
    var page := match s.page case NaN => "NaN" case Page(n) => Text.IntToString(n);
    q3["page" := page]["page_size" := "12"]["ordering" := Ordering(s.sortBy)]
  }

  /** The server uses exactly the ordering the page asks for. */
  lemma BackendHonoursOrdering(s: ViewState)
    ensures LandApi.EffectiveOrdering(FetchParams(s)) == Ordering(s.sortBy)
  {
    var o := Ordering(s.sortBy);
    assert |o| > 0;
  }

  // ------------------------------------------------------------ handlers

  /** Changing any filter or the sort goes back to the first page. */
  function OnStatusChange(s: ViewState, v: string): (r: ViewState)
    ensures r.page == Page(1) && r.status == v
    ensures r.(status := s.status, page := s.page) == s
  {
    s.(status := v, page := Page(1))
  }

  function OnTypeChange(s: ViewState, v: string): (r: ViewState)
    ensures r.page == Page(1) && r.landType == v
    ensures r.(landType := s.landType, page := s.page) == s
  {
    s.(landType := v, page := Page(1))
  }

  function OnSearchChange(s: ViewState, v: string): (r: ViewState)
    ensures r.page == Page(1) && r.search == v
    ensures r.(search := s.search, page := s.page) == s
  {
    s.(search := v, page := Page(1))
  }

  function OnSortChange(s: ViewState, v: string): (r: ViewState)
    ensures r.page == Page(1) && r.sortBy == v
    ensures r.(sortBy := s.sortBy, page := s.page) == s
  {
    s.(sortBy := v, page := Page(1))
  }

  /** A filter change leaves the address bar without a page number. */
  lemma FilterChangeDropsPage(s: ViewState, v: string)
    ensures "page" !in EncodeUrl(OnStatusChange(s, v))
    ensures "page" !in EncodeUrl(OnSortChange(s, v))
  {
  }

  /** Next moves on only while there is a later page; previous moves back
      only from beyond the first. */
  function NextPage(s: ViewState, totalPages: int): (r: ViewState)
    ensures r.page != s.page <==> s.page.Page? && s.page.n < totalPages
    ensures r.page != s.page ==> r.page == Page(s.page.n + 1) && r.page.n <= totalPages
    ensures r.(page := s.page) == s
  {
    if s.page.Page? && s.page.n < totalPages then s.(page := Page(s.page.n + 1)) else s
  }

  function PrevPage(s: ViewState): (r: ViewState)
    ensures r.page != s.page <==> s.page.Page? && s.page.n > 1
    ensures r.page != s.page ==> r.page == Page(s.page.n - 1)
    ensures r.(page := s.page) == s
  {
    if s.page.Page? && s.page.n > 1 then s.(page := Page(s.page.n - 1)) else s
  }

  /** From the first page on, paging keeps the page between 1 and the
      number of pages (or where it was). */
  lemma PagingStaysInRange(s: ViewState, totalPages: int)
    requires s.page.Page? && s.page.n >= 1
    ensures PrevPage(s).page.n >= 1
    ensures NextPage(s, totalPages).page.n >= 1
    ensures s.page.n <= totalPages ==> NextPage(s, totalPages).page.n <= totalPages
    ensures PrevPage(NextPage(s, totalPages)).page == s.page || NextPage(s, totalPages).page == s.page
  {
  }

  // ------------------------------------------------------------ response

  /** `Math.ceil(n / d)`. */
  function CeilDiv(n: int, d: nat): (c: int)
    requires d > 0
    ensures (c - 1) * d < n <= c * d
  {
    -((-n) / d)
  }

  /** What the page takes from the answer: the parcels, the total count and
      the number of pages. `None` stands for a count that is not a number,
      which this model does not follow. */
  datatype Listing = Listing(items: Js.Value, totalCount: Option<int>, totalPages: Option<int>)

  const PageSize := 12

  function ReadListing(data: Js.Value): (r: Listing)
    ensures Js.Truthy(Js.Get(data, "results")) ==> r.items == Js.Get(data, "results")
    ensures !Js.Truthy(Js.Get(data, "results")) ==> r.items == data && r.totalPages == Some(1)
    ensures Js.Truthy(Js.Get(data, "results")) && r.totalCount.Some? ==>
      r.totalPages.Some? && (r.totalPages.value - 1) * PageSize < r.totalCount.value <= r.totalPages.value * PageSize
  {
    var results := Js.Get(data, "results");
    if Js.Truthy(results) then
      var count := Js.Get(data, "count");
      var n := if !Js.Truthy(count) then Some(0) else if count.Num? then Some(count.n) else None;
      Listing(results, n, if n.Some? then Some(CeilDiv(n.value, PageSize)) else None)
    else
      var len := Js.Length(data);
      Listing(data, if len.Some? then Some(len.value) else None, Some(1))
  }

  /** A paginated answer of `count` parcels has `ceil(count / 12)` pages:
      none for an empty list, one for up to twelve. */
  lemma PagesOfCount(count: nat, results: seq<Js.Value>)
    ensures var r := ReadListing(Js.Obj([("count", Js.Num(count)), ("results", Js.Arr(results))]));
      && r.totalCount == Some(count)
      && r.totalPages.Some?
      && (count == 0 <==> r.totalPages.value == 0)
      && (0 < count <= 12 <==> r.totalPages.value == 1)
  {
    var entries := [("count", Js.Num(count)), ("results", Js.Arr(results))];
    Js.LookupAt(entries, "results", 1);
  }
}

=== FILE: profile_link.dfy ===
/** The link other pages wrap around an owner's name: where it leads
    depends on who is looking and on what is known about the owner. */
module ProfileLink {
  import opened Base
  import Text
  import Session
  import Accounts
  import Models
  import OwnerSearch

  /** `if (ownerId)`: an id that is there and not zero. */
  predicate KnownId(ownerId: Option<int>) {
    ownerId.Some? && ownerId.value != 0
  }

  /** `if (username)`: a name that is there and not empty. */
  predicate KnownName(username: Option<string>) {
    username.Some? && username.value != ""
  }

  /** The target of the link. An owner always goes to its own profile
      page; anyone else to the owner's page when the id is known, else to
      a search for the username when it is known, else to the owners
      page. */
  function Target(s: Session.Session, ownerId: Option<int>, username: Option<string>): (to: string)
    ensures Session.IsRole(s, Accounts.OWNER) <==> to == "/my-profile"
    ensures !Session.IsRole(s, Accounts.OWNER) && KnownId(ownerId) ==>
      to == "/owners/" + Text.IntToString(ownerId.value)
    ensures !Session.IsRole(s, Accounts.OWNER) && !KnownId(ownerId) && KnownName(username) ==>
      to == "/owners?search=" + username.value
    ensures !Session.IsRole(s, Accounts.OWNER) && !KnownId(ownerId) && !KnownName(username) ==>
      to == "/owners"
  {
    if Session.IsRole(s, Accounts.OWNER) then "/my-profile"
    else if KnownId(ownerId) then
      assert ("/owners/" + Text.IntToString(ownerId.value))[1] != "/my-profile"[1];
      "/owners/" + Text.IntToString(ownerId.value)
    else if KnownName(username) then
      assert ("/owners?search=" + username.value)[1] != "/my-profile"[1];
      "/owners?search=" + username.value
    else "/owners"
  }

  /** For staff, the link to a profile with a known id leads where
      choosing that profile in the owner search does, whatever username is
      passed along. */
  lemma StaffLinkMatchesSearch(s: Session.Session, p: Models.OwnerProfile, username: Option<string>)
    requires Session.IsStaff(s) && p.id > 0
    ensures Target(s, Some(p.id), username) == OwnerSearch.SelectPath(OwnerSearch.ProfileSummary(p))
  {
    OwnerSearch.SelectLeadsToProfile(p);
  }

  /** An owner's link never depends on the owner it names. */
  lemma OwnerLinkIgnoresArguments(s: Session.Session, a: Option<int>, b: Option<int>, u: Option<string>, v: Option<string>)
    requires Session.IsRole(s, Accounts.OWNER)
    ensures Target(s, a, u) == Target(s, b, v)
  {
  }
}

=== FILE: record_api.dfy ===
/** The ownership-record and document API: the serializers' computed
    fields and validation, record creation, the list filters and the
    history actions. Both view sets admit only admins and officers. */
module RecordApi {
  import opened Base
  import opened Accounts
  import opened Models
  import opened Registry
  import opened Http
  import Text

  // ------------------------------------------------------------ computed fields

  /** `get_duration_days`: the days between acquisition and transfer, or
      `None` while there is no transfer. */
  function DurationDays(r: OwnershipRecord): (days: Option<int>)
    ensures days.Some? <==> r.transferDate.Some?
    ensures days.Some? ==> r.acquisitionDate + days.value == r.transferDate.value
  {
    match r.transferDate
    case None => None
    case Some(t) => Some(t - r.acquisitionDate)
  }

  /** `get_is_active`: current and verified. */
  function IsActive(r: OwnershipRecord): (active: bool)
    ensures active ==> r.isCurrentOwner && r.verificationStatus != "Pending"
  {
    r.isCurrentOwner && r.verificationStatus == "Verified"
  }

  /** An active record is always among its parcel's current owners, and a
      record is active exactly when it is a current, verified one. */
  lemma ActiveRecordsAreCurrent(db: Db, r: OwnershipRecord)
    requires r in db.records
    ensures IsActive(r) ==> r in CurrentOwners(db, r.parcel)
    ensures IsActive(r) <==> r in CurrentOwners(db, r.parcel) && r.verificationStatus == "Verified"
  {
  }

  // ------------------------------------------------------------ validation

  /** What a create request carries for a record (after parsing); `None`
      is a field the request leaves out. */
  datatype RecordInput = RecordInput(
    parcel: Option<nat>,
    owner: Option<nat>,
    ownershipType: Option<string>,
    percentage: Option<int>,
    acquisitionType: Option<string>,
    acquisitionDate: Option<int>,
    verificationStatus: Option<string>,
    isCurrentOwner: Option<bool>,
    transferDate: Option<int>,
    transferType: Option<string>,
    transferTo: Option<nat>,
    verifiedBy: Option<nat>)

  /** One entry of DRF's error body: the field and what is wrong with it. */
  datatype FieldError =
    | Required(field: string)
    | NotAChoice(field: string, value: string)
    | BelowMinimum(field: string)
    | AboveMaximum(field: string)
    | NoSuchRow(field: string, pk: nat)
    | ShareOutOfRange

  /** The error body's text for one field. */
  function Message(e: FieldError): string {
    match e
    case Required(f) => f + ": This field is required."
    case NotAChoice(f, v) => f + ": \"" + v + "\" is not a valid choice."
    case BelowMinimum(f) => f + ": Ensure this value is greater than or equal to 0."
    case AboveMaximum(f) => f + ": Ensure this value is less than or equal to 100."
    case NoSuchRow(f, pk) => f + ": Invalid pk \"" + Text.NatToDecimal(pk) + "\" - object does not exist."
    case ShareOutOfRange => "ownership_percentage: Must be between 0 and 100."
  }

  datatype Checked<T> = Accepted(value: T) | Rejected(error: FieldError)

  /** `OwnershipRecordSerializer.validate`: a share outside 0..100 is
      refused; a missing share, or a zero one, passes. */
  function ValidatePercentage(pct: Option<int>): (r: Checked<()>)
    ensures r.Accepted? <==> pct.None? || 0 <= pct.value <= FullShare
    ensures r.Rejected? ==> r.error == ShareOutOfRange
  {
    if pct.Some? && pct.value != 0 && (pct.value < 0 || pct.value > FullShare) then Rejected(ShareOutOfRange)
    else Accepted(())
  }

  /** The model serializer's field checks, then `validate`: the acquisition
      date is required, the share must satisfy the field's bounds and every
      choice field a declared choice; `transfer_type`, declared
      `blank=True`, also takes the empty text. Only the first failing check
      is reported. */
  function ValidateRecord(input: RecordInput): (r: Checked<int>)
    ensures r.Accepted? <==>
      && input.acquisitionDate.Some?
      && (input.percentage.None? || 0 <= input.percentage.value <= FullShare)
      && ChoiceOk(input.ownershipType, OwnershipTypes)
      && ChoiceOk(input.acquisitionType, AcquisitionTypes)
      && BlankChoiceOk(input.transferType, TransferTypes)
      && ChoiceOk(input.verificationStatus, VerificationStatuses)
    ensures r.Accepted? ==> r.value == input.acquisitionDate.value
  {
    if !ChoiceOk(input.ownershipType, OwnershipTypes) then
      Rejected(NotAChoice("ownership_type", input.ownershipType.value))
    else if input.percentage.Some? && input.percentage.value < 0 then
      Rejected(BelowMinimum("ownership_percentage"))
    else if input.percentage.Some? && input.percentage.value > FullShare then
      Rejected(AboveMaximum("ownership_percentage"))
    else if !ChoiceOk(input.acquisitionType, AcquisitionTypes) then
      Rejected(NotAChoice("acquisition_type", input.acquisitionType.value))
    else if input.acquisitionDate.None? then
      Rejected(Required("acquisition_date"))
    else if !BlankChoiceOk(input.transferType, TransferTypes) then
      Rejected(NotAChoice("transfer_type", input.transferType.value))
    else if !ChoiceOk(input.verificationStatus, VerificationStatuses) then
      Rejected(NotAChoice("verification_status", input.verificationStatus.value))
    else match ValidatePercentage(input.percentage)
      case Rejected(e) => Rejected(e)
      case Accepted(_) => Accepted(input.acquisitionDate.value)
  }

  /** The field validators already bound the share, so the error of
      `validate` itself is never the one a client sees. */
  lemma PercentageErrorUnreachable(input: RecordInput)
    ensures ValidateRecord(input) != Rejected(ShareOutOfRange)
    ensures ValidateRecord(input).Accepted? ==> ValidatePercentage(input.percentage).Accepted?
  {
  }

  /** A blank transfer type is accepted, exactly as if it were left out. */
  lemma BlankTransferTypeAccepted(input: RecordInput)
    ensures ValidateRecord(input.(transferType := Some(""))) == ValidateRecord(input.(transferType := None))
  {
  }

  // ------------------------------------------------------------ create

  function RecordId(r: OwnershipRecord): nat { r.id }

  const ParcelNotNull := "NOT NULL constraint failed: records_ownershiprecord.parcel_id"
  const OwnerNotNull := "NOT NULL constraint failed: records_ownershiprecord.owner_id"

  /** `serializer.save()` with the validated data: the row is inserted with
      the given links, the model defaults for every field left out, and
      `created_by` set to the requesting user; the database refuses a row
      without a parcel or an owner. */
  function SaveRecord(db: Db, user: nat, data: RecordInput, acquired: int): (r: Reply<(Db, OwnershipRecord)>)
    ensures data.parcel.None? ==> r == Failure(SERVER_ERROR, ParcelNotNull)
    ensures data.parcel.Some? && data.owner.None? ==> r == Failure(SERVER_ERROR, OwnerNotNull)
    ensures r.Success? ==>
      var rec := r.body.1;
      && r.status == CREATED
      && r.body.0 == AddRecord(db, rec)
      && !HasRecord(db.records, rec.id)
      && Some(rec.parcel) == data.parcel && Some(rec.owner) == data.owner
      && rec.acquisitionDate == acquired
      && rec.createdBy == Some(user)
      && rec.ownershipType == data.ownershipType.GetOr("Sole")
      && rec.percentage == data.percentage.GetOr(FullShare)
      && rec.acquisitionType == data.acquisitionType.GetOr("Purchase")
      && rec.verificationStatus == data.verificationStatus.GetOr("Pending")
      && rec.isCurrentOwner == data.isCurrentOwner.GetOr(true)
      && rec.transferDate == data.transferDate && rec.transferType == data.transferType
      && rec.transferTo == data.transferTo && rec.verifiedBy == data.verifiedBy
  {
    if data.parcel.None? then Failure(SERVER_ERROR, ParcelNotNull)
    else if data.owner.None? then Failure(SERVER_ERROR, OwnerNotNull)
    else
      var rec := OwnershipRecord(
        NextId(db.records, RecordId), data.parcel.value, data.owner.value,
        data.ownershipType.GetOr("Sole"), data.percentage.GetOr(FullShare),
        data.acquisitionType.GetOr("Purchase"), acquired, data.transferDate, data.transferType,
        data.transferTo, data.verificationStatus.GetOr("Pending"), data.verifiedBy,
        data.isCurrentOwner.GetOr(true), Some(user));
      Success(CREATED, (AddRecord(db, rec), rec))
  }

  /** The serializer as written declares `parcel` and `owner` as nested
      read-only serializers, so whatever the request says about them never
      reaches the validated data. */
  function AsWrittenData(input: RecordInput): (data: RecordInput)
    ensures data.parcel.None? && data.owner.None?
  {
    input.(parcel := None, owner := None)
  }

  /** The writable optional links, `transfer_to` and `verified_by`: each
      that is given must name an existing profile, respectively account. */
  function OptionalLinksProblem(db: Db, input: RecordInput): (r: Option<FieldError>)
    ensures r.None? <==>
      && (input.transferTo.Some? ==> HasProfile(db.profiles, input.transferTo.value))
      && (input.verifiedBy.Some? ==> HasUser(db.users, input.verifiedBy.value))
  {
    if input.transferTo.Some? && !HasProfile(db.profiles, input.transferTo.value) then
      Some(NoSuchRow("transfer_to", input.transferTo.value))
    else if input.verifiedBy.Some? && !HasUser(db.users, input.verifiedBy.value) then
      Some(NoSuchRow("verified_by", input.verifiedBy.value))
    else None
  }

  /** What both view sets answer to a request `IsAdminOrOfficer` does not
      grant: 403 to a signed-in account of another role, and a server
      error to an anonymous request, on which the check itself raises. */
  function Unadmitted<T>(p: Principal): (r: Reply<T>)
    requires !IsAdminOrOfficer(p)
    ensures r.Failure?
    ensures p.Anonymous? ==> r.status == SERVER_ERROR
    ensures p.SignedIn? ==> r == Refuse(p) && r.status == FORBIDDEN
  {
    RoleCheckAgrees(p);
    Unpermitted(p, RoleCheck(p, StaffRoles))
  }

  /** `POST /ownership-records/` as written. */
  function CreateRecordAsWritten(db: Db, p: Principal, input: RecordInput): (r: Reply<(Db, OwnershipRecord)>)
    ensures !IsAdminOrOfficer(p) ==> r == Unadmitted(p)
    ensures r.Failure?
  {
    if !IsAdminOrOfficer(p) then Unadmitted(p)
    else
      var data := AsWrittenData(input);
      match OptionalLinksProblem(db, data)
      case Some(e) => Failure(BAD_REQUEST, Message(e))
      case None =>
        match ValidateRecord(data)
        case Rejected(e) => Failure(BAD_REQUEST, Message(e))
        case Accepted(acquired) => SaveRecord(db, p.user.id, data, acquired)
  }

  /** No request creates a record as written: a request that passes
      validation, whatever parcel and owner it names, ends in a server
      error from the NOT NULL `parcel_id` column. */
  lemma CreateRecordAsWrittenFails(db: Db, p: Principal, input: RecordInput)
    requires IsAdminOrOfficer(p)
    ensures ValidateRecord(input).Accepted? && OptionalLinksProblem(db, input).None? ==>
      CreateRecordAsWritten(db, p, input) == Failure(SERVER_ERROR, ParcelNotNull)
    ensures ValidateRecord(input).Rejected? || OptionalLinksProblem(db, input).Some? ==>
      CreateRecordAsWritten(db, p, input).status == BAD_REQUEST
  {
    assert ValidateRecord(AsWrittenData(input)) == ValidateRecord(input);
    assert OptionalLinksProblem(db, AsWrittenData(input)) == OptionalLinksProblem(db, input);
  }

  /** The ownership request the parcel-creation page sends for a new
      parcel 7 and owner 3, acquired on day 738000. */
  const LandCreateOwnership := RecordInput(
    Some(7), Some(3), Some("Sole"), Some(FullShare), Some("Purchase"), Some(738000), None, Some(true),
    None, None, None, None)

  /** That request fails as written, and succeeds with the corrected
      serializer once the parcel and the owner exist. */
  lemma LandCreateOwnershipExample(db: Db, p: Principal)
    requires IsAdminOrOfficer(p)
    requires HasParcel(db.parcels, 7) && HasProfile(db.profiles, 3)
    ensures CreateRecordAsWritten(db, p, LandCreateOwnership).status == SERVER_ERROR
    ensures CreateRecord(db, p, LandCreateOwnership).Success?
  {
    CreateRecordAsWrittenFails(db, p, LandCreateOwnership);
  }

  /** `POST /ownership-records/` with `parcel` and `owner` writable primary
      keys: both are required and must name existing rows, then the usual
      validation and save. */
  function CreateRecord(db: Db, p: Principal, input: RecordInput): (r: Reply<(Db, OwnershipRecord)>)
    ensures !IsAdminOrOfficer(p) ==> r == Unadmitted(p)
    ensures p.Anonymous? ==> r.Failure? && r.status == SERVER_ERROR
    ensures IsAdminOrOfficer(p) && (input.parcel.None? || !HasParcel(db.parcels, input.parcel.value))
      ==> r.Failure? && r.status == BAD_REQUEST
    ensures IsAdminOrOfficer(p) && (input.owner.None? || !HasProfile(db.profiles, input.owner.value))
      ==> r.Failure? && r.status == BAD_REQUEST
    ensures r.Success? <==>
      && IsAdminOrOfficer(p)
      && input.parcel.Some? && HasParcel(db.parcels, input.parcel.value)
      && input.owner.Some? && HasProfile(db.profiles, input.owner.value)
      && OptionalLinksProblem(db, input).None?
      && ValidateRecord(input).Accepted?
    ensures r.Success? ==>
      var rec := r.body.1;
      && r.body.0 == AddRecord(db, rec)
      && Some(rec.parcel) == input.parcel && Some(rec.owner) == input.owner
      && rec.transferTo == input.transferTo && rec.verifiedBy == input.verifiedBy
      && rec.transferDate == input.transferDate && rec.transferType == input.transferType
      && rec.createdBy == Some(p.user.id)
      && RecordFieldsValid(rec)
  {
    if !IsAdminOrOfficer(p) then Unadmitted(p)
    else if input.parcel.None? then Failure(BAD_REQUEST, Message(Required("parcel")))
    else if !HasParcel(db.parcels, input.parcel.value) then
      Failure(BAD_REQUEST, Message(NoSuchRow("parcel", input.parcel.value)))
    else if input.owner.None? then Failure(BAD_REQUEST, Message(Required("owner")))
    else if !HasProfile(db.profiles, input.owner.value) then
      Failure(BAD_REQUEST, Message(NoSuchRow("owner", input.owner.value)))
    else if OptionalLinksProblem(db, input).Some? then
      Failure(BAD_REQUEST, Message(OptionalLinksProblem(db, input).value))
    else match ValidateRecord(input)
      case Rejected(e) => Failure(BAD_REQUEST, Message(e))
      case Accepted(acquired) => SaveRecord(db, p.user.id, input, acquired)
  }

  /** A created record keeps the registry valid, provided the requesting
      account is a row of the user table. */
  lemma CreateRecordValid(db: Db, p: Principal, input: RecordInput)
    requires Valid(db)
    requires CreateRecord(db, p, input).Success?
    requires HasUser(db.users, p.user.id)
    ensures Valid(CreateRecord(db, p, input).body.0)
  {
    var rec := CreateRecord(db, p, input).body.1;
    assert RecordLinksValid(db, rec);
    AddRecordValid(db, rec);
  }

  // ------------------------------------------------------------ delete

  /** `DELETE /ownership-records/<id>/`: the record goes, and so do the
      documents attached to it. */
  function DeleteRecord(db: Db, id: nat): (db': Db)
    ensures db'.users == db.users && db'.profiles == db.profiles && db'.parcels == db.parcels
    ensures !HasRecord(db'.records, id)
    ensures db'.records == Filter(db.records, (r: OwnershipRecord) => r.id != id)
    ensures forall i | 0 <= i < |db'.records| :: db'.records[i] in db.records
    ensures forall i | 0 <= i < |db.records| :: db.records[i].id != id ==> db.records[i] in db'.records
    ensures forall i | 0 <= i < |db'.documents| ::
      db'.documents[i] in db.documents && db'.documents[i].ownershipRecord != Some(id)
    ensures forall i | 0 <= i < |db.documents| ::
      db.documents[i].ownershipRecord != Some(id) ==> db.documents[i] in db'.documents
  {
    db.(records := Filter(db.records, (r: OwnershipRecord) => r.id != id),
        documents := Filter(db.documents, (d: Document) => d.ownershipRecord != Some(id)))
  }

  lemma DeleteRecordValid(db: Db, id: nat)
    requires Valid(db)
    ensures Valid(DeleteRecord(db, id))
  {
    var db' := DeleteRecord(db, id);
    var keep := (r: OwnershipRecord) => r.id != id;
    FilterPairwise(db.records, keep, DistinctRecordIds);
    FilterPairwise(db.documents, (d: Document) => d.ownershipRecord != Some(id), DistinctDocumentIds);
    SortedRecordsPairwise(db.records);
    FilterPairwise(db.records, keep, AcquiredNoEarlier);
    SortedRecordsPairwise(db'.records);
    forall i | 0 <= i < |db'.records|
      ensures RecordFieldsValid(db'.records[i]) && RecordLinksValid(db', db'.records[i])
    {
      assert db'.records[i] in db.records;
    }
    forall i | 0 <= i < |db'.documents|
      ensures DocumentLinksValid(db', db'.documents[i])
    {
      var d := db'.documents[i];
      assert d in db.documents;
      if d.ownershipRecord.Some? {
        var j :| 0 <= j < |db.records| && db.records[j].id == d.ownershipRecord.value;
        assert db.records[j] in db'.records;
      }
    }
  }

  // ------------------------------------------------------------ list

  /** `current_only` switches its filter on only for "true", in any case. */
  predicate CurrentOnly(q: Query) {
    Given(q, "current_only") && Text.ToLower(q["current_only"]) == "true"
  }

  /** The filters of `OwnershipRecordViewSet.get_queryset`: each absent
      parameter imposes nothing. */
  predicate RecordMatches(q: Query, r: OwnershipRecord) {
    && (Given(q, "owner_id") ==> IdText(q["owner_id"], r.owner))
    && (Given(q, "parcel_id") ==> IdText(q["parcel_id"], r.parcel))
    && (CurrentOnly(q) ==> r.isCurrentOwner)
    && (Given(q, "verification_status") ==> r.verificationStatus == q["verification_status"])
  }

  /** The chained filters, as one filter on their conjunction. */
  function RecordQuery(db: Db, q: Query): (r: seq<OwnershipRecord>)
    ensures forall i | 0 <= i < |r| :: r[i] in db.records && RecordMatches(q, r[i])
    ensures forall i | 0 <= i < |db.records| :: RecordMatches(q, db.records[i]) ==> db.records[i] in r
  {
    Filter(db.records, (r: OwnershipRecord) => RecordMatches(q, r))
  }

  /** The list endpoint, for admins and officers only. */
  function ListRecords(db: Db, p: Principal, q: Query): (r: Reply<seq<OwnershipRecord>>)
    ensures r.Success? <==> IsAdminOrOfficer(p)
    ensures !IsAdminOrOfficer(p) ==> r == Unadmitted(p)
    ensures p.Anonymous? ==> r.Failure? && r.status == SERVER_ERROR
    ensures r.Success? ==> r.body == RecordQuery(db, q)
  {
    if !IsAdminOrOfficer(p) then Unadmitted(p) else Success(OK, RecordQuery(db, q))
  }

  /** Without any recognised parameter every record is listed. */
  lemma NoFilterListsAll(db: Db, q: Query)
    requires !Given(q, "owner_id") && !Given(q, "parcel_id") && !Given(q, "current_only")
    requires !Given(q, "verification_status")
    ensures RecordQuery(db, q) == db.records
  {
    FilterKeepsAll(db.records, (r: OwnershipRecord) => RecordMatches(q, r));
  }

  /** Any `current_only` value other than "true" (in any case) is ignored. */
  lemma CurrentOnlyOtherwiseIgnored(db: Db, q: Query, v: string)
    requires Text.ToLower(v) != "true"
    ensures RecordQuery(db, q["current_only" := v]) == RecordQuery(db, q - {"current_only"})
  {
    var q' := q["current_only" := v];
    var q0 := q - {"current_only"};
    assert !CurrentOnly(q') && !CurrentOnly(q0);
    forall i | 0 <= i < |db.records|
      ensures RecordMatches(q', db.records[i]) == RecordMatches(q0, db.records[i])
    {
      assert Given(q', "owner_id") == Given(q0, "owner_id");
    }
    FilterSame(db.records, (r: OwnershipRecord) => RecordMatches(q', r), (r: OwnershipRecord) => RecordMatches(q0, r));
  }

  /** A `parcel` key (what the parcel detail page sends) is not one of the
      filters: it leaves the list unchanged. */
  lemma ParcelKeyIgnored(db: Db, q: Query, v: string)
    ensures RecordQuery(db, q["parcel" := v]) == RecordQuery(db, q)
  {
    var q' := q["parcel" := v];
    forall i | 0 <= i < |db.records|
      ensures RecordMatches(q', db.records[i]) == RecordMatches(q, db.records[i])
    {
      assert Given(q', "owner_id") == Given(q, "owner_id");
    }
    FilterSame(db.records, (r: OwnershipRecord) => RecordMatches(q', r), (r: OwnershipRecord) => RecordMatches(q, r));
  }

  /** The `current_owners` action: the list's filters, then only current
      records. */
  function CurrentOwnersAction(db: Db, p: Principal, q: Query): (r: Reply<seq<OwnershipRecord>>)
    ensures r.Success? <==> IsAdminOrOfficer(p)
    ensures !IsAdminOrOfficer(p) ==> r == Unadmitted(p)
    ensures p.Anonymous? ==> r.Failure? && r.status == SERVER_ERROR
    ensures r.Success? ==> forall i | 0 <= i < |r.body| :: r.body[i].isCurrentOwner && r.body[i] in db.records
  {
    if !IsAdminOrOfficer(p) then Unadmitted(p)
    else Success(OK, Filter(RecordQuery(db, q), (r: OwnershipRecord) => r.isCurrentOwner))
  }

  /** It answers what the list answers with `current_only=true`. */
  lemma CurrentOwnersIsCurrentOnly(db: Db, p: Principal, q: Query)
    requires IsAdminOrOfficer(p)
    ensures CurrentOwnersAction(db, p, q).body == RecordQuery(db, q["current_only" := "true"])
  {
    var q' := q["current_only" := "true"];
    assert Text.ToLower("true") == "true";
    var m := (r: OwnershipRecord) => RecordMatches(q, r);
    var cur := (r: OwnershipRecord) => r.isCurrentOwner;
    var m' := (r: OwnershipRecord) => RecordMatches(q', r);
    forall r: OwnershipRecord
      ensures m'(r) == (m(r) && cur(r))
    {
      assert Given(q', "owner_id") == Given(q, "owner_id");
    }
    FilterFilter(db.records, m, cur, m');
  }

  /** The history actions: the parameter is required; then every record of
      that owner (or parcel), current or not, whatever else the query
      says. */
  function OwnerHistory(db: Db, p: Principal, q: Query): (r: Reply<seq<OwnershipRecord>>)
    ensures IsAdminOrOfficer(p) && !Given(q, "owner_id") ==> r == Failure(BAD_REQUEST, "owner_id parameter is required")
    ensures r.Success? <==> IsAdminOrOfficer(p) && Given(q, "owner_id")
    ensures !IsAdminOrOfficer(p) ==> r == Unadmitted(p)
    ensures p.Anonymous? ==> r.Failure? && r.status == SERVER_ERROR
  {
    if !IsAdminOrOfficer(p) then Unadmitted(p)
    else if !Given(q, "owner_id") then Failure(BAD_REQUEST, "owner_id parameter is required")
    else
      var owner := q["owner_id"];
      Success(OK, Filter(db.records, (r: OwnershipRecord) => IdText(owner, r.owner)))
  }

  function ParcelHistory(db: Db, p: Principal, q: Query): (r: Reply<seq<OwnershipRecord>>)
    ensures IsAdminOrOfficer(p) && !Given(q, "parcel_id") ==> r == Failure(BAD_REQUEST, "parcel_id parameter is required")
    ensures r.Success? <==> IsAdminOrOfficer(p) && Given(q, "parcel_id")
    ensures !IsAdminOrOfficer(p) ==> r == Unadmitted(p)
    ensures p.Anonymous? ==> r.Failure? && r.status == SERVER_ERROR
  {
    if !IsAdminOrOfficer(p) then Unadmitted(p)
    else if !Given(q, "parcel_id") then Failure(BAD_REQUEST, "parcel_id parameter is required")
    else
      var parcel := q["parcel_id"];
      Success(OK, Filter(db.records, (r: OwnershipRecord) => IdText(parcel, r.parcel)))
  }

  /** The owner history is the list filtered by `owner_id` alone: the other
      filters, `current_only` among them, do not apply. */
  lemma OwnerHistoryIgnoresOtherFilters(db: Db, p: Principal, q: Query)
    requires OwnerHistory(db, p, q).Success?
    ensures OwnerHistory(db, p, q).body == RecordQuery(db, map["owner_id" := q["owner_id"]])
  {
    var q1 := map["owner_id" := q["owner_id"]];
    var owner := q["owner_id"];
    FilterSame(db.records, (r: OwnershipRecord) => IdText(owner, r.owner), (r: OwnershipRecord) => RecordMatches(q1, r));
  }

  lemma ParcelHistoryIgnoresOtherFilters(db: Db, p: Principal, q: Query)
    requires ParcelHistory(db, p, q).Success?
    ensures ParcelHistory(db, p, q).body == RecordQuery(db, map["parcel_id" := q["parcel_id"]])
  {
    var q1 := map["parcel_id" := q["parcel_id"]];
    var parcel := q["parcel_id"];
    FilterSame(db.records, (r: OwnershipRecord) => IdText(parcel, r.parcel), (r: OwnershipRecord) => RecordMatches(q1, r));
  }

  // ------------------------------------------------------------ documents

  /** `get_file_url`: the stored file's URL, else the `file_url` column. */
  function DocumentFileUrl(d: Document): (url: Option<string>)
    ensures HasFile(d.file) ==> url == FileUrl(d.file)
    ensures !HasFile(d.file) ==> url == d.fileUrl
  {
    if HasFile(d.file) then Some(d.file.url) else d.fileUrl
  }

  /** `get_file_name`: the last path segment of the stored name. */
  function DocumentFileName(d: Document): (name: Option<string>)
    ensures name.None? <==> !HasFile(d.file)
    ensures name.Some? ==>
      var k := |d.file.name| - |name.value|;
      && 0 <= k
      && d.file.name == d.file.name[..k] + name.value
      && (k == 0 || d.file.name[k - 1] == '/')
      && forall i | 0 <= i < |name.value| :: name.value[i] != '/'
  {
    if HasFile(d.file) then
      var n := Text.AfterLastSlash(d.file.name);
      assert d.file.name == d.file.name[..|d.file.name| - |n|] + n;
      Some(n)
    else None
  }

  /** What a document upload carries. `file_url` is read-only on the
      serializer, so a value sent for it is dropped; `is_verified` and
      `verified_by` are writable. */
  datatype DocumentInput = DocumentInput(
    ownershipRecord: Option<nat>,
    relatedParcel: Option<nat>,
    docType: Option<string>,
    file: StoredFile,
    fileUrl: Option<string>,
    isVerified: Option<bool>,
    verifiedBy: Option<nat>)

  function DocumentId(d: Document): nat { d.id }

  /** `POST /documents/`: `doc_type` is a required choice, the optional
      links must name existing rows, and `uploaded_by` is the requesting
      user. The newest upload comes first (`ordering = ['-uploaded_at']`). */
  function CreateDocument(db: Db, p: Principal, input: DocumentInput): (r: Reply<(Db, Document)>)
    ensures !IsAdminOrOfficer(p) ==> r == Unadmitted(p)
    ensures p.Anonymous? ==> r.Failure? && r.status == SERVER_ERROR
    ensures r.Success? <==>
      && IsAdminOrOfficer(p)
      && input.docType.Some? && input.docType.value in DocumentTypes
      && (input.ownershipRecord.Some? ==> HasRecord(db.records, input.ownershipRecord.value))
      && (input.relatedParcel.Some? ==> HasParcel(db.parcels, input.relatedParcel.value))
      && (input.verifiedBy.Some? ==> HasUser(db.users, input.verifiedBy.value))
    ensures r.Success? ==>
      var d := r.body.1;
      && r.body.0 == db.(documents := [d] + db.documents)
      && d.uploadedBy == Some(p.user.id)
      && d.fileUrl.None? && d.file == input.file
      && d.ownershipRecord == input.ownershipRecord && d.relatedParcel == input.relatedParcel
      && d.isVerified == input.isVerified.GetOr(false) && d.verifiedBy == input.verifiedBy
      && forall i | 0 <= i < |db.documents| :: db.documents[i].id != d.id
  {
    if !IsAdminOrOfficer(p) then Unadmitted(p)
    else if input.ownershipRecord.Some? && !HasRecord(db.records, input.ownershipRecord.value) then
      Failure(BAD_REQUEST, Message(NoSuchRow("ownership_record", input.ownershipRecord.value)))
    else if input.relatedParcel.Some? && !HasParcel(db.parcels, input.relatedParcel.value) then
      Failure(BAD_REQUEST, Message(NoSuchRow("related_parcel", input.relatedParcel.value)))
    else if input.verifiedBy.Some? && !HasUser(db.users, input.verifiedBy.value) then
      Failure(BAD_REQUEST, Message(NoSuchRow("verified_by", input.verifiedBy.value)))
    else if input.docType.None? then Failure(BAD_REQUEST, Message(Required("doc_type")))
    else if input.docType.value !in DocumentTypes then
      Failure(BAD_REQUEST, Message(NotAChoice("doc_type", input.docType.value)))
    else
      var d := Document(NextId(db.documents, DocumentId), input.ownershipRecord, input.relatedParcel,
        input.docType.value, input.file, None, Some(p.user.id), input.isVerified.GetOr(false), input.verifiedBy);
      Success(CREATED, (db.(documents := [d] + db.documents), d))
  }

  /** An upload keeps the registry valid when the uploader is a row of the
      user table. */
  lemma CreateDocumentValid(db: Db, p: Principal, input: DocumentInput)
    requires Valid(db)
    requires CreateDocument(db, p, input).Success?
    requires HasUser(db.users, p.user.id)
    ensures Valid(CreateDocument(db, p, input).body.0)
  {
    var db' := CreateDocument(db, p, input).body.0;
    var d := CreateDocument(db, p, input).body.1;
    PairwiseInsert(db.documents, 0, d, DistinctDocumentIds);
    assert db.documents[..0] + [d] + db.documents[0..] == db'.documents;
    forall i | 0 <= i < |db'.documents|
      ensures DocumentLinksValid(db', db'.documents[i])
    {
      if i > 0 {
        assert db'.documents[i] == db.documents[i - 1];
      }
    }
  }

  /** `DocumentViewSet.get_queryset`'s filters. */
  predicate DocumentMatches(q: Query, d: Document) {
    && (Given(q, "ownership_record") ==> d.ownershipRecord.Some? && IdText(q["ownership_record"], d.ownershipRecord.value))
    && (Given(q, "parcel_id") ==> d.relatedParcel.Some? && IdText(q["parcel_id"], d.relatedParcel.value))
    && (Given(q, "doc_type") ==> d.docType == q["doc_type"])
  }

  function DocumentQuery(db: Db, q: Query): (r: seq<Document>)
    ensures forall i | 0 <= i < |r| :: r[i] in db.documents && DocumentMatches(q, r[i])
    ensures forall i | 0 <= i < |db.documents| :: DocumentMatches(q, db.documents[i]) ==> db.documents[i] in r
  {
    Filter(db.documents, (d: Document) => DocumentMatches(q, d))
  }

  function ListDocuments(db: Db, p: Principal, q: Query): (r: Reply<seq<Document>>)
    ensures r.Success? <==> IsAdminOrOfficer(p)
    ensures !IsAdminOrOfficer(p) ==> r == Unadmitted(p)
    ensures p.Anonymous? ==> r.Failure? && r.status == SERVER_ERROR
    ensures r.Success? ==> r.body == DocumentQuery(db, q)
  {
    if !IsAdminOrOfficer(p) then Unadmitted(p) else Success(OK, DocumentQuery(db, q))
  }

  /** As written, every anonymous request to either view set ends in the
      exception raised by the role check, whatever it asks for. */
  lemma AnonymousRequestsFail(db: Db, q: Query, input: RecordInput, upload: DocumentInput)
    ensures ListRecords(db, Anonymous, q) == Failure(SERVER_ERROR, NoRoleAttribute)
    ensures CurrentOwnersAction(db, Anonymous, q) == Failure(SERVER_ERROR, NoRoleAttribute)
    ensures OwnerHistory(db, Anonymous, q) == Failure(SERVER_ERROR, NoRoleAttribute)
    ensures ParcelHistory(db, Anonymous, q) == Failure(SERVER_ERROR, NoRoleAttribute)
    ensures CreateRecord(db, Anonymous, input) == Failure(SERVER_ERROR, NoRoleAttribute)
    ensures ListDocuments(db, Anonymous, q) == Failure(SERVER_ERROR, NoRoleAttribute)
    ensures CreateDocument(db, Anonymous, upload) == Failure(SERVER_ERROR, NoRoleAttribute)
  {
  }

  /** The document filter on `parcel_id` reads the document's own parcel
      link: a document attached only to a record of that parcel is not
      listed. */
  lemma DocumentParcelFilterUsesLink(db: Db, q: Query, d: Document)
    requires Given(q, "parcel_id") && d in db.documents && d.relatedParcel.None?
    ensures d !in DocumentQuery(db, q)
  {
  }
}

=== FILE: register.dfy ===
/** The sign-up page: its field checks, the one request it sends, and the
    message it shows when the server refuses. */
module Register {
  import opened Base
  import Js
  import Text
  import Client
  import Accounts

  datatype SignUp = SignUp(username: string, password: string, confirmPassword: string, role: string)

  /** The form the page opens with: a new account is an owner's. */
  const InitialForm := SignUp("", "", "", "owner")

  /** The page's default role is the one `create_user` falls back on. */
  lemma DefaultRoleIsBackendDefault()
    ensures InitialForm.role == Accounts.OWNER
  {
  }

  /** The problems the page reports, one per field at most. */
  datatype Problem =
    | UsernameRequired
    | UsernameTooShort
    | UsernameCharset
    | PasswordRequired
    | PasswordTooShort
    | PasswordsDiffer

  function Message(p: Problem): string {
    match p
    case UsernameRequired => "Username is required"
    case UsernameTooShort => "Username must be at least 3 characters"
    case UsernameCharset => "Username can only contain letters, numbers, and underscores"
    case PasswordRequired => "Password is required"
    case PasswordTooShort => "Password must be at least 6 characters"
    case PasswordsDiffer => "Passwords do not match"
  }

  /** `/^[a-zA-Z0-9_]+$/`. */
  predicate WordOnly(s: string) {
    |s| > 0 && forall i | 0 <= i < |s| :: Text.IsWordChar(s[i])
  }

  /** The username's check: blank first, then length, then characters. */
  function UsernameProblem(u: string): (p: Option<Problem>)
    ensures Text.IsBlank(u) ==> p == Some(UsernameRequired)
    ensures !Text.IsBlank(u) && |u| < 3 ==> p == Some(UsernameTooShort)
    ensures !Text.IsBlank(u) && |u| >= 3 && !WordOnly(u) ==> p == Some(UsernameCharset)
    ensures p.None? <==> |u| >= 3 && WordOnly(u)
  {
    Text.TrimEmptyIffBlank(u);
    if Text.Trim(u) == "" then Some(UsernameRequired)
    else if |u| < 3 then Some(UsernameTooShort)
    else if !WordOnly(u) then Some(UsernameCharset)
    else None
  }

  /** The password's check: empty first, then length. */
  function PasswordProblem(pw: string): (p: Option<Problem>)
    ensures pw == "" ==> p == Some(PasswordRequired)
    ensures pw != "" && |pw| < 6 ==> p == Some(PasswordTooShort)
    ensures p.None? <==> |pw| >= 6
  {
    if pw == "" then Some(PasswordRequired)
    else if |pw| < 6 then Some(PasswordTooShort)
    else None
  }

  function Put(errors: map<string, Problem>, key: string, p: Option<Problem>): map<string, Problem> {
    if p.Some? then errors[key := p.value] else errors
  }

  /** `validateForm`: at most one problem per field; the confirmation is
      compared whatever the password's own problem. */
  function ValidateForm(f: SignUp): (errors: map<string, Problem>)
    ensures errors.Keys <= {"username", "password", "confirmPassword"}
    ensures "username" in errors <==> UsernameProblem(f.username).Some?
    ensures "username" in errors ==> errors["username"] == UsernameProblem(f.username).value
    ensures "password" in errors <==> PasswordProblem(f.password).Some?
    ensures "password" in errors ==> errors["password"] == PasswordProblem(f.password).value
    ensures "confirmPassword" in errors <==> f.password != f.confirmPassword
    ensures "confirmPassword" in errors ==> errors["confirmPassword"] == PasswordsDiffer
  {
    var e := Put(map[], "username", UsernameProblem(f.username));
    var e := Put(e, "password", PasswordProblem(f.password));
    Put(e, "confirmPassword", if f.password != f.confirmPassword then Some(PasswordsDiffer) else None)
  }

  /** The form is accepted exactly when the username is three or more word
      characters, the password six or more characters, and the two
      passwords agree. */
  lemma ValidIff(f: SignUp)
    ensures ValidateForm(f) == map[] <==>
      |f.username| >= 3 && WordOnly(f.username) && |f.password| >= 6 && f.password == f.confirmPassword
  {
    var e := ValidateForm(f);
    if |f.username| >= 3 && WordOnly(f.username) && |f.password| >= 6 && f.password == f.confirmPassword {
      assert e.Keys == {};
    } else if UsernameProblem(f.username).Some? {
      assert "username" in e;
    } else if PasswordProblem(f.password).Some? {
      assert "password" in e;
    } else {
      assert "confirmPassword" in e;
    }
  }

  /** An accepted username has no blank in it: a word character is never a
      space. */
  lemma AcceptedUsernameHasNoSpace(u: string, i: nat)
    requires UsernameProblem(u).None? && i < |u|
    ensures !Text.IsSpace(u[i])
  {
    assert Text.IsWordChar(u[i]);
  }

  /** An accepted form is never refused by `create_user` for an empty
      username; only a name already taken makes it fail. */
  lemma AcceptedFormCreatesUser(f: SignUp, users: seq<Accounts.User>)
    requires ValidateForm(f) == map[]
    ensures Accounts.CreateUser(users, f.username, Some(f.password), f.role).Ok? <==>
      !Accounts.UsernameTaken(users, f.username)
  {
    ValidIff(f);
  }

  // ------------------------------------------------------------ submit

  /** The body the page posts: username, password and role, never the
      confirmation. */
  function RequestBody(f: SignUp): (body: Js.Value)
    ensures body.Obj? && Js.Keys(body.entries) == ["username", "password", "role"]
    ensures !Js.HasKey(body.entries, "confirmPassword")
  {
    var body := Js.Obj([("username", Js.Str(f.username)), ("password", Js.Str(f.password)),
                        ("role", Js.Str(f.role))]);
    assert Js.Keys(body.entries) == ["username", "password", "role"];
    forall i | 0 <= i < 3
      ensures body.entries[i].0 != "confirmPassword"
    {
      assert body.entries[i].0[0] != 'c';
    }
    body
  }

  const DefaultFailure := "Registration failed. Please try again."

  /** The message shown when the server refuses: its `message`, else the
      first of its `username` errors, else a fixed text. */
  function FailureMessage(reply: Client.Reply): (m: Js.Value)
    ensures var d := Client.ErrorData(reply);
      && (Js.Truthy(Js.Get(d, "message")) ==> m == Js.Get(d, "message"))
      && (!Js.Truthy(Js.Get(d, "message")) && Js.Truthy(Js.First(Js.Get(d, "username"))) ==>
            m == Js.First(Js.Get(d, "username")))
      && (!Js.Truthy(Js.Get(d, "message")) && !Js.Truthy(Js.First(Js.Get(d, "username"))) ==>
            m == Js.Str(DefaultFailure))
  {
    var d := Client.ErrorData(reply);
    if Js.Truthy(Js.Get(d, "message")) then Js.Get(d, "message")
    else if Js.Truthy(Js.First(Js.Get(d, "username"))) then Js.First(Js.Get(d, "username"))
    else Js.Str(DefaultFailure)
  }

  /** A refusal of a taken username, as the unique column's validator
      words it, is shown as that sentence; a lost connection as the fixed
      text. */
  lemma FailureMessageCases(msg: string, status: nat, text: string)
    requires msg != ""
    ensures FailureMessage(Client.HttpError(status, Js.Obj([("username", Js.Arr([Js.Str(msg)]))]))) == Js.Str(msg)
    ensures FailureMessage(Client.NetworkError(text)) == Js.Str(DefaultFailure)
  {
    var d := Js.Obj([("username", Js.Arr([Js.Str(msg)]))]);
    assert "message"[0] != "username"[0];
    assert Js.Get(d, "message") == Js.Undefined;
  }

  /** What a submit leaves: the body posted if any, the field problems or
      the general message, and whether it succeeded. */
  datatype Outcome = Outcome(
    posted: Option<Js.Value>,
    errors: map<string, Problem>,
    general: Option<Js.Value>,
    success: bool)

  /** `submit`, given the answer the request would get. */
  function Submit(f: SignUp, reply: Client.Reply): (o: Outcome)
    ensures o.posted.Some? <==> ValidateForm(f) == map[]
    ensures o.posted.None? ==> o.errors == ValidateForm(f) && o.general.None? && !o.success
    ensures o.posted.Some? ==> o.posted.value == RequestBody(f) && o.errors == map[]
    ensures o.success <==> o.posted.Some? && reply.Ok?
    ensures o.general.Some? <==> o.posted.Some? && !reply.Ok?
    ensures o.general.Some? ==> o.general.value == FailureMessage(reply)
  {
    if ValidateForm(f) != map[] then Outcome(None, ValidateForm(f), None, false)
    else if reply.Ok? then Outcome(Some(RequestBody(f)), map[], None, true)
    else Outcome(Some(RequestBody(f)), map[], Some(FailureMessage(reply)), false)
  }
}

=== FILE: register_owner.dfy ===
/** The owner-profile form an officer fills in for a registered user: the
    user lookup that unlocks it, the image pickers, and the submit that
    creates the profile or updates the existing one. The form is a
    JavaScript object, since a loaded profile is spread over it. */
module RegisterOwner {
  import opened Base
  import Js
  import Text
  import Client

  type Form = seq<(string, Js.Value)>

  /** `emptyForm`: no image keys until one is picked or a profile loads. */
  const EmptyForm: Form := [
    ("username", Js.Str("")), ("first_name", Js.Str("")), ("middle_name", Js.Str("")),
    ("last_name", Js.Str("")), ("national_id", Js.Str("")), ("date_of_birth", Js.Str("")),
    ("gender", Js.Str("Male")), ("contact_phone", Js.Str("")), ("contact_email", Js.Str("")),
    ("permanent_address", Js.Str("")), ("current_address", Js.Str("")),
    ("owner_type", Js.Str("Individual")), ("registration_number", Js.Str("")), ("tax_id", Js.Str("")),
    ("contact_person", Js.Str("")), ("notes", Js.Str("")), ("status", Js.Str("Active"))]

  /** The four image fields. */
  datatype ImageField = ProfilePicture | IdCardFront | IdCardBack | Signature

  function Key(f: ImageField): string {
    match f
    case ProfilePicture => "profile_picture"
    case IdCardFront => "id_card_front"
    case IdCardBack => "id_card_back"
    case Signature => "signature"
  }

  /** The preview shown for each image field. */
  type Previews = map<ImageField, Option<string>>

  // ------------------------------------------------------------ user lookup

  /** Why a lookup stopped. */
  datatype LookupProblem =
    | BlankUsername
    | UserNotFound
    | MalformedUser
    | RoleMissing
    | NotAnOwner(role: Js.Value)
    | NoSuchUser
    | SignedOut
    | Offline
    | Failed(detail: Js.Value)

  /** The image addresses a loaded profile already has. */
  datatype ImageUrls = ImageUrls(profilePicture: Js.Value, idCardFront: Js.Value, idCardBack: Js.Value,
                                 signature: Js.Value)

  const NoUrls := ImageUrls(Js.Null, Js.Null, Js.Null, Js.Null)

  /** The page after a lookup. */
  datatype Page = Page(form: Form, userFound: bool, problem: Option<LookupProblem>, urls: ImageUrls)

  /** `x || null`. */
  function OrNull(v: Js.Value): Js.Value {
    if Js.Truthy(v) then v else Js.Null
  }

  /** The form for a user with an existing profile: the empty form, then
      the profile's fields, then the user's name and no picked images. */
  function LoadedForm(profile: Js.Value, username: Js.Value): Form {
    Js.Spread(Js.Spread(EmptyForm, if profile.Obj? then profile.entries else []), ImageOverlay(username))
  }

  /** The form for a user without one: the empty form with the user's name. */
  function FreshForm(username: Js.Value): Form {
    Js.Set(EmptyForm, "username", username)
  }

  /** The outcome of an error answer to the user search. */
  function SearchFailure(reply: Client.Reply): (p: LookupProblem)
    ensures reply.HttpError? && reply.status == 404 ==> p == NoSuchUser
    ensures reply.HttpError? && reply.status == 401 ==> p == SignedOut
    ensures p.Offline? <==>
      !(reply.HttpError? && reply.status in {401, 404}) && Text.Contains(Client.ErrorMessage(reply), "Network Error")
    ensures p.Failed? && Js.Truthy(Js.Get(Client.ErrorData(reply), "detail")) ==>
      p.detail == Js.Get(Client.ErrorData(reply), "detail")
    ensures p.Failed? ==> Js.Truthy(p.detail)
  {
    var d := Client.ErrorData(reply);
    if reply.HttpError? && reply.status == 404 then NoSuchUser
    else if reply.HttpError? && reply.status == 401 then SignedOut
    else if Text.Contains(Client.ErrorMessage(reply), "Network Error") then Offline
    else
      var detail := Js.Get(d, "detail");
      var message := Js.Get(d, "message");
      Failed(if Js.Truthy(detail) then detail
             else if Js.Truthy(message) then message
             else if Client.ErrorMessage(reply) != "" then Js.Str(Client.ErrorMessage(reply))
             else Js.Str("Unknown error occurred"))
  }

  /** `searchUser`, given the answers of the user search and of the
      profile search. */
  function SearchUser(p: Page, userReply: Client.Reply, profileReply: Client.Reply): (p': Page)
    ensures Js.Lookup(p.form, "username").Str? && Text.IsBlank(Js.Lookup(p.form, "username").s) ==>
      p' == p.(problem := Some(BlankUsername))
    ensures p'.problem.Some? ==> p'.form == p.form && p'.userFound == p.userFound && p'.urls == p.urls
    ensures p'.problem.None? ==>
      && p'.userFound
      && userReply.Ok?
      && var users := Js.ListFromArrayResultsOrData(userReply.data);
         |users| > 0 && Js.Get(users[0], "role") == Js.Str("owner")
  {
    var typed := Js.Lookup(p.form, "username");
    var name := if typed.Str? then typed.s else Js.ToString(typed);
    Text.TrimEmptyIffBlank(name);
    if Text.Trim(name) == "" then p.(problem := Some(BlankUsername))
    else if !userReply.Ok? then p.(problem := Some(SearchFailure(userReply)))
    else
      var users := Js.ListFromArrayResultsOrData(userReply.data);
      if |users| == 0 then p.(problem := Some(UserNotFound))
      else
        var user := users[0];
        var role := Js.Get(user, "role");
        if !Js.Truthy(user) then p.(problem := Some(MalformedUser))
        else if !Js.Truthy(role) then p.(problem := Some(RoleMissing))
        else if role != Js.Str("owner") then p.(problem := Some(NotAnOwner(role)))
        else
          var username := Js.Get(user, "username");
          var profiles := if profileReply.Ok? then Js.ListFromArrayOrResults(profileReply.data) else [];
          if |profiles| > 0 then
            var profile := profiles[0];
            var urls := ImageUrls(
              OrNull(Js.Get(profile, "profile_picture_url")), OrNull(Js.Get(profile, "id_card_front_url")),
              OrNull(Js.Get(profile, "id_card_back_url")), OrNull(Js.Get(profile, "signature_url")));
            Page(LoadedForm(profile, username), true, None, urls)
          else
            Page(FreshForm(username), true, None, p.urls)
  }

  /** Only a user whose role is exactly "owner" unlocks the form; a missing
      role and any other role are told apart. */
  lemma OnlyOwnersUnlock(p: Page, user: Js.Value, profileReply: Client.Reply, status: nat)
    requires Js.Lookup(p.form, "username").Str? && !Text.IsBlank(Js.Lookup(p.form, "username").s)
    requires user.Obj?
    ensures var p' := SearchUser(p, Client.Ok(Js.Arr([user])), profileReply);
      && (p'.problem.None? <==> Js.Get(user, "role") == Js.Str("owner"))
      && (!Js.Truthy(Js.Get(user, "role")) ==> p'.problem == Some(RoleMissing))
      && (Js.Truthy(Js.Get(user, "role")) && Js.Get(user, "role") != Js.Str("owner") ==>
            p'.problem == Some(NotAnOwner(Js.Get(user, "role"))))
    ensures SearchUser(p, Client.Ok(Js.Arr([])), profileReply).problem == Some(UserNotFound)
  {
    Text.TrimEmptyIffBlank(Js.Lookup(p.form, "username").s);
  }

  /** A loaded profile fills the form: the user's name, no picked image,
      and every other field from the profile when it has one, else from the
      empty form. */
  lemma LoadedFormFields(profile: Js.Value, username: Js.Value, k: string)
    requires profile.Obj? && Js.DistinctKeys(profile.entries)
    ensures var form := LoadedForm(profile, username);
      && Js.Lookup(form, "username") == username
      && Js.Lookup(form, "profile_picture") == Js.Undefined
      && Js.Lookup(form, "signature") == Js.Undefined
      && (k !in ImageOverlayKeys ==>
            Js.Lookup(form, k) == (if Js.HasKey(profile.entries, k) then Js.Lookup(profile.entries, k)
                                   else Js.Lookup(EmptyForm, k)))
  {
    var overlay := ImageOverlay(username);
    OverlayDistinct(username);
    var base := Js.Spread(EmptyForm, profile.entries);
    Js.SpreadLookup(EmptyForm, profile.entries, k);
    Js.SpreadLookup(base, overlay, k);
    Js.SpreadLookup(base, overlay, "username");
    Js.SpreadLookup(base, overlay, "profile_picture");
    Js.SpreadLookup(base, overlay, "signature");
    Js.LookupAt(overlay, "username", 0);
    Js.LookupAt(overlay, "profile_picture", 1);
    Js.LookupAt(overlay, "signature", 4);
    assert Js.HasKey(overlay, "username") && Js.HasKey(overlay, "profile_picture") && Js.HasKey(overlay, "signature");
    if k !in ImageOverlayKeys {
      assert !Js.HasKey(overlay, k);
    }
  }

  const ImageOverlayKeys: set<string> :=
    {"username", "profile_picture", "id_card_front", "id_card_back", "signature"}

  function ImageOverlay(username: Js.Value): (entries: seq<(string, Js.Value)>)
    ensures forall i | 0 <= i < |entries| :: entries[i].0 in ImageOverlayKeys
  {
    [("username", username), ("profile_picture", Js.Undefined), ("id_card_front", Js.Undefined),
     ("id_card_back", Js.Undefined), ("signature", Js.Undefined)]
  }

  lemma OverlayDistinct(username: Js.Value)
    ensures Js.DistinctKeys(ImageOverlay(username))
  {
  }

  /** Without a profile the form is the empty one under the user's name. */
  lemma FreshFormFields(username: Js.Value, k: string)
    ensures Js.Lookup(FreshForm(username), k) == (if k == "username" then username else Js.Lookup(EmptyForm, k))
  {
    Js.SetLookup(EmptyForm, "username", username, k);
  }

  // ------------------------------------------------------------ images

  const ImageTypes: seq<string> := ["image/jpeg", "image/jpg", "image/png", "image/gif", "image/webp"]

  /** 5 MiB. */
  const MaxImageSize := 5 * 1024 * 1024

  /** An image the picker takes. */
  predicate AcceptedImage(f: Js.File) {
    f.mimeType in ImageTypes && f.size <= MaxImageSize
  }

  datatype ImageAlert = WrongType | TooLarge

  /** The form and previews after a pick, with the alert shown if any. */
  datatype Picked = Picked(form: Form, previews: Previews, alert: Option<ImageAlert>)

  /** `handleImageChange`: an accepted image goes into its field with a
      preview at `previewUrl`; a refused one only raises an alert. */
  function OnImageChange(form: Form, previews: Previews, field: ImageField, file: Option<Js.File>,
                         previewUrl: string): (r: Picked)
    ensures file.Some? && AcceptedImage(file.value) ==>
      && Js.Lookup(r.form, Key(field)) == Js.FileVal(file.value)
      && r.previews == previews[field := Some(previewUrl)]
      && r.alert.None?
    ensures file.None? || !AcceptedImage(file.value) ==> r.form == form && r.previews == previews
    ensures r.alert.Some? <==> file.Some? && !AcceptedImage(file.value)
    ensures r.alert == Some(TooLarge) ==> file.value.mimeType in ImageTypes
    ensures forall k | k != Key(field) :: Js.Lookup(r.form, k) == Js.Lookup(form, k)
  {
    if file.None? then Picked(form, previews, None)
    else if file.value.mimeType !in ImageTypes then Picked(form, previews, Some(WrongType))
    else if file.value.size > MaxImageSize then Picked(form, previews, Some(TooLarge))
    else
      var f := Js.FileVal(file.value);
      forall k {
        Js.SetLookup(form, Key(field), f, k);
      }
      Picked(Js.Set(form, Key(field), f), previews[field := Some(previewUrl)], None)
  }

  /** `removeImage`: that one field and its preview are cleared. */
  function RemoveImage(form: Form, previews: Previews, field: ImageField): (r: (Form, Previews))
    ensures Js.Lookup(r.0, Key(field)) == Js.Null && field in r.1 && r.1[field].None?
    ensures forall k | k != Key(field) :: Js.Lookup(r.0, k) == Js.Lookup(form, k)
    ensures forall g | g in previews && g != field :: g in r.1 && r.1[g] == previews[g]
  {
    forall k {
      Js.SetLookup(form, Key(field), Js.Null, k);
    }
    (Js.Set(form, Key(field), Js.Null), previews[field := None])
  }

  /** Removing an image undoes picking one, as far as the field reads. */
  lemma RemoveUndoesPick(form: Form, previews: Previews, field: ImageField, file: Js.File, url: string, k: string)
    requires AcceptedImage(file)
    ensures var r := OnImageChange(form, previews, field, Some(file), url);
      var (form', previews') := RemoveImage(r.form, r.previews, field);
      && (k != Key(field) ==> Js.Lookup(form', k) == Js.Lookup(form, k))
      && previews' == previews[field := None]
  {
  }

  // ------------------------------------------------------------ submit

  /** The parts of the profile payload: the username always, any other
      field only with a value other than `null`, `undefined` and `""`. */
  predicate ProfileSends(e: (string, Js.Value)) {
    e.0 == "username" || Js.IsFilled(e.1)
  }

  /** Files are uploaded, everything else is written as text. */
  function ProfilePart(e: (string, Js.Value)): (part: Client.Part)
    ensures part.Upload? <==> e.1.FileVal?
  {
    if e.1.FileVal? then Client.Upload(e.1.file) else Client.Text(Js.ToString(e.1))
  }

  function ProfilePayload(form: Form): seq<(string, Client.Part)> {
    Client.Payload(form, ProfileSends, ProfilePart)
  }

  /** The payload names the username whenever the form has one, even an
      empty one, and any other key exactly when it is filled in. */
  lemma ProfilePayloadKeys(form: Form, key: string)
    ensures Js.HasKey(form, "username") ==> Client.HasPart(ProfilePayload(form), "username")
    ensures key != "username" ==>
      (Client.HasPart(ProfilePayload(form), key) <==>
       exists j | 0 <= j < |form| :: form[j].0 == key && Js.IsFilled(form[j].1))
  {
    Client.PayloadKeys(form, ProfileSends, ProfilePart, "username");
    Client.PayloadKeys(form, ProfileSends, ProfilePart, key);
  }

  datatype Request =
    | CheckProfile(username: Js.Value)
    | PutProfile(id: Js.Value, parts: seq<(string, Client.Part)>)
    | PostProfile(parts: seq<(string, Client.Part)>)

  datatype SaveAlert =
    | NeedUser
    | Updated
    | Created
    | Invalid(text: string)
    | SaveFailed(detail: Js.Value)

  /** What a submit leaves: the requests in order, the alert, and the
      form state afterwards. */
  datatype Saved = Saved(requests: seq<Request>, alert: SaveAlert, form: Form, userFound: bool,
                         navigateTo: Option<string>)

  /** `Validation errors: key: messages; …` for a 400 answer. */
  function ValidationText(entries: seq<(string, Js.Value)>): (text: string)
    ensures |entries| == 0 ==> text == ""
  {
    if |entries| == 0 then ""
    else entries[0].0 + ": " + Js.ToString(Js.Joined(entries[0].1)) + "; " + ValidationText(entries[1..])
  }

  /** The alert for a failed save. */
  function SaveFailure(reply: Client.Reply): (a: SaveAlert)
    ensures reply.HttpError? && reply.status == 400 ==> a.Invalid?
    ensures !(reply.HttpError? && reply.status == 400) ==> a.SaveFailed? && Js.Truthy(a.detail)
    ensures a.Invalid? ==> Text.StartsWith(a.text, "Validation errors: ")
  {
    if reply.HttpError? && reply.status == 400 then
      Invalid("Validation errors: " + ValidationText(Js.OwnEntries(reply.data)))
    else
      var detail := Js.Get(Client.ErrorData(reply), "detail");
      SaveFailed(if Js.Truthy(detail) then detail else Js.Str("Unknown error"))
  }

  /** `submit`, given the answers of the profile check and of the save. */
  function Submit(form: Form, userFound: bool, checkReply: Client.Reply, saveReply: Client.Reply): (s: Saved)
    ensures !userFound ==> s == Saved([], NeedUser, form, false, None)
    ensures userFound ==> |s.requests| >= 1 && s.requests[0] == CheckProfile(Js.Lookup(form, "username"))
    ensures |s.requests| == 2 <==> userFound && checkReply.Ok?
    ensures |s.requests| == 2 ==>
      var data := checkReply.data;
      if Js.Length(data).Some? && Js.Length(data).value > 0
      then s.requests[1] == PutProfile(Js.Get(Js.First(data), "id"), ProfilePayload(form))
      else s.requests[1] == PostProfile(ProfilePayload(form))
    ensures s.navigateTo.Some? <==> userFound && checkReply.Ok? && saveReply.Ok?
    ensures s.navigateTo.Some? ==> s.form == EmptyForm && !s.userFound && s.navigateTo == Some("/owners")
    ensures s.navigateTo.None? ==> s.form == form && s.userFound == userFound
  {
    if !userFound then Saved([], NeedUser, form, false, None)
    else
      var check := CheckProfile(Js.Lookup(form, "username"));
      if !checkReply.Ok? then Saved([check], SaveFailure(checkReply), form, userFound, None)
      else
        var data := checkReply.data;
        var existing := Js.Length(data).Some? && Js.Length(data).value > 0;
        var save := if existing then PutProfile(Js.Get(Js.First(data), "id"), ProfilePayload(form))
                    else PostProfile(ProfilePayload(form));
        if !saveReply.Ok? then Saved([check, save], SaveFailure(saveReply), form, userFound, None)
        else Saved([check, save], if existing then Updated else Created, EmptyForm, false, Some("/owners"))
  }

  /** A profile list in the existing-profile answer sends an update of its first
      profile; an empty list, or an answer that is not a list, a create. */
  lemma SaveTargetsFirstProfile(form: Form, profiles: seq<Js.Value>, saveReply: Client.Reply)
    ensures var s := Submit(form, true, Client.Ok(Js.Arr(profiles)), saveReply);
      |profiles| > 0 ==> s.requests[1] == PutProfile(Js.Get(profiles[0], "id"), ProfilePayload(form))
    ensures var s := Submit(form, true, Client.Ok(Js.Arr([])), saveReply);
      s.requests[1] == PostProfile(ProfilePayload(form))
    ensures var s := Submit(form, true, Client.Ok(Js.Obj([("results", Js.Arr(profiles))])), saveReply);
      s.requests[1] == PostProfile(ProfilePayload(form))
  {
  }
}

=== FILE: registry.dfy ===
/** The registry's tables held together: accounts, owner profiles, parcels,
    ownership records and documents. `Valid` gathers what the database
    schema guarantees: unique columns, foreign keys that point at existing
    rows, the record validators and choice lists, and the default ordering
    of ownership records. */
module Registry {
  import opened Base
  import opened Accounts
  import opened Models

  datatype Db = Db(
    users: seq<User>,
    profiles: seq<OwnerProfile>,
    parcels: seq<Parcel>,
    records: seq<OwnershipRecord>,
    documents: seq<Document>)

  // ------------------------------------------------------ row relations

  predicate DistinctProfileIds(a: OwnerProfile, b: OwnerProfile) { a.id != b.id }
  /** The one-to-one link to `User`. */
  predicate DistinctProfileUsers(a: OwnerProfile, b: OwnerProfile) { a.user != b.user }
  predicate DistinctNationalIds(a: OwnerProfile, b: OwnerProfile) { a.nationalId != b.nationalId }
  predicate DistinctParcelIds(a: Parcel, b: Parcel) { a.parcelId != b.parcelId }
  predicate DistinctCadastral(a: Parcel, b: Parcel) { a.cadastralNumber != b.cadastralNumber }
  /** A unique nullable column: two NULLs never clash. */
  predicate DistinctRegistration(a: Parcel, b: Parcel) {
    a.registrationNumber.None? || a.registrationNumber != b.registrationNumber
  }
  predicate DistinctRecordIds(a: OwnershipRecord, b: OwnershipRecord) { a.id != b.id }
  predicate DistinctDocumentIds(a: Document, b: Document) { a.id != b.id }

  /** The key of the records' default ordering. */
  function AcquisitionDate(r: OwnershipRecord): int { r.acquisitionDate }

  predicate AcquiredNoEarlier(a: OwnershipRecord, b: OwnershipRecord) {
    a.acquisitionDate >= b.acquisitionDate
  }

  /** `ordering = ['-acquisition_date']` in pairwise form. */
  lemma SortedRecordsPairwise(rs: seq<OwnershipRecord>)
    ensures SortedDesc(rs, AcquisitionDate) <==> Pairwise(rs, AcquiredNoEarlier)
  {
  }

  // ------------------------------------------------------ key lookups

  predicate HasUser(users: seq<User>, id: nat) {
    exists i | 0 <= i < |users| :: users[i].id == id
  }

  predicate HasProfile(profiles: seq<OwnerProfile>, id: nat) {
    exists i | 0 <= i < |profiles| :: profiles[i].id == id
  }

  predicate HasParcel(parcels: seq<Parcel>, id: nat) {
    exists i | 0 <= i < |parcels| :: parcels[i].parcelId == id
  }

  predicate HasRecord(records: seq<OwnershipRecord>, id: nat) {
    exists i | 0 <= i < |records| :: records[i].id == id
  }

  /** A nullable foreign key to `User`. */
  predicate UserRef(users: seq<User>, r: Option<nat>) {
    r.None? || HasUser(users, r.value)
  }

  // ------------------------------------------------------ the invariant

  ghost predicate UsersValid(db: Db) {
    UniqueIds(db.users) && UniqueUsernames(db.users)
  }

  ghost predicate ProfilesValid(db: Db) {
    && Pairwise(db.profiles, DistinctProfileIds)
    && Pairwise(db.profiles, DistinctProfileUsers)
    && Pairwise(db.profiles, DistinctNationalIds)
    && forall i | 0 <= i < |db.profiles| :: HasUser(db.users, db.profiles[i].user)
  }

  ghost predicate ParcelsValid(db: Db) {
    && Pairwise(db.parcels, DistinctParcelIds)
    && Pairwise(db.parcels, DistinctCadastral)
    && Pairwise(db.parcels, DistinctRegistration)
    && forall i | 0 <= i < |db.parcels| :: ParcelChoicesValid(db.parcels[i])
  }

  /** Every link of a record points at an existing row. */
  ghost predicate RecordLinksValid(db: Db, r: OwnershipRecord) {
    && HasParcel(db.parcels, r.parcel)
    && HasProfile(db.profiles, r.owner)
    && (r.transferTo.Some? ==> HasProfile(db.profiles, r.transferTo.value))
    && UserRef(db.users, r.verifiedBy)
    && UserRef(db.users, r.createdBy)
  }

  ghost predicate RecordsValid(db: Db) {
    && Pairwise(db.records, DistinctRecordIds)
    && SortedDesc(db.records, AcquisitionDate)
    && forall i | 0 <= i < |db.records| ::
         RecordFieldsValid(db.records[i]) && RecordLinksValid(db, db.records[i])
  }

  ghost predicate DocumentLinksValid(db: Db, d: Document) {
    && (d.ownershipRecord.Some? ==> HasRecord(db.records, d.ownershipRecord.value))
    && (d.relatedParcel.Some? ==> HasParcel(db.parcels, d.relatedParcel.value))
    && UserRef(db.users, d.uploadedBy)
    && UserRef(db.users, d.verifiedBy)
  }

  ghost predicate DocumentsValid(db: Db) {
    && Pairwise(db.documents, DistinctDocumentIds)
    && forall i | 0 <= i < |db.documents| :: DocumentLinksValid(db, db.documents[i])
  }

  ghost predicate Valid(db: Db) {
    UsersValid(db) && ProfilesValid(db) && ParcelsValid(db) && RecordsValid(db) && DocumentsValid(db)
  }

  // ------------------------------------------------------ lookups

  /** `User.objects.get(pk=id)`, `None` for `DoesNotExist`. */
  function FindUser(users: seq<User>, id: nat): (r: Option<User>)
    ensures r.None? <==> !HasUser(users, id)
    ensures r.Some? ==> r.value in users && r.value.id == id
  {
    if |users| == 0 then None
    else if users[0].id == id then Some(users[0])
    else
      var rest := FindUser(users[1..], id);
      assert HasUser(users, id) ==> HasUser(users[1..], id) by {
        if HasUser(users, id) {
          var i :| 0 <= i < |users| && users[i].id == id;
          assert users[1..][i - 1].id == id;
        }
      }
      rest
  }

  /** `User.objects.filter(username=..., role=...).first()`. */
  function FindUserByName(users: seq<User>, username: string, role: string): (r: Option<User>)
    ensures r.None? <==> forall i | 0 <= i < |users| :: !(users[i].username == username && users[i].role == role)
    ensures r.Some? ==> r.value in users && r.value.username == username && r.value.role == role
  {
    if |users| == 0 then None
    else if users[0].username == username && users[0].role == role then Some(users[0])
    else
      var rest := FindUserByName(users[1..], username, role);
      assert forall i | 1 <= i < |users| :: users[i] == users[1..][i - 1];
      rest
  }

  /** `OwnerProfile.objects.get(pk=id)`. */
  function FindProfile(profiles: seq<OwnerProfile>, id: nat): (r: Option<OwnerProfile>)
    ensures r.None? <==> !HasProfile(profiles, id)
    ensures r.Some? ==> r.value in profiles && r.value.id == id
  {
    if |profiles| == 0 then None
    else if profiles[0].id == id then Some(profiles[0])
    else
      var rest := FindProfile(profiles[1..], id);
      assert HasProfile(profiles, id) ==> HasProfile(profiles[1..], id) by {
        if HasProfile(profiles, id) {
          var i :| 0 <= i < |profiles| && profiles[i].id == id;
          assert profiles[1..][i - 1].id == id;
        }
      }
      rest
  }

  /** `user.owner_profile`, `None` when the user has no profile. */
  function ProfileOfUser(profiles: seq<OwnerProfile>, user: nat): (r: Option<OwnerProfile>)
    ensures r.None? <==> forall i | 0 <= i < |profiles| :: profiles[i].user != user
    ensures r.Some? ==> r.value in profiles && r.value.user == user
  {
    if |profiles| == 0 then None
    else if profiles[0].user == user then Some(profiles[0])
    else
      var rest := ProfileOfUser(profiles[1..], user);
      assert forall i | 1 <= i < |profiles| :: profiles[i] == profiles[1..][i - 1];
      rest
  }

  /** `LandParcel.objects.get(pk=id)`. */
  function FindParcel(parcels: seq<Parcel>, id: nat): (r: Option<Parcel>)
    ensures r.None? <==> !HasParcel(parcels, id)
    ensures r.Some? ==> r.value in parcels && r.value.parcelId == id
  {
    if |parcels| == 0 then None
    else if parcels[0].parcelId == id then Some(parcels[0])
    else
      var rest := FindParcel(parcels[1..], id);
      assert HasParcel(parcels, id) ==> HasParcel(parcels[1..], id) by {
        if HasParcel(parcels, id) {
          var i :| 0 <= i < |parcels| && parcels[i].parcelId == id;
          assert parcels[1..][i - 1].parcelId == id;
        }
      }
      rest
  }

  // ------------------------------------------------------ parcel ownership

  /** `LandParcel.current_owners`: the parcel's records marked current, in
      the records' default order. */
  function CurrentOwners(db: Db, parcel: nat): (r: seq<OwnershipRecord>)
    ensures forall i | 0 <= i < |r| :: r[i] in db.records && r[i].parcel == parcel && r[i].isCurrentOwner
    ensures forall i | 0 <= i < |db.records| ::
      db.records[i].parcel == parcel && db.records[i].isCurrentOwner ==> db.records[i] in r
  {
    Filter(db.records, (rec: OwnershipRecord) => rec.parcel == parcel && rec.isCurrentOwner)
  }

  /** `LandParcel.owner`: the owner of the first current record. In a
      valid registry it is found exactly when the parcel has a current
      record. */
  function PrimaryOwner(db: Db, parcel: nat): (r: Option<OwnerProfile>)
    ensures r.Some? ==>
      && |CurrentOwners(db, parcel)| > 0
      && r.value.id == CurrentOwners(db, parcel)[0].owner && r.value in db.profiles
    ensures Valid(db) ==> (r.Some? <==> |CurrentOwners(db, parcel)| > 0)
  {
    var current := CurrentOwners(db, parcel);
    if |current| == 0 then None
    else
      assert current[0] in db.records;
      FindProfile(db.profiles, current[0].owner)
  }

  /** `LandParcel.ownership_percentage`: the first current record's share,
      0 without one; in a valid registry it lies between 0 and 100 %. */
  function PrimaryShare(db: Db, parcel: nat): (pct: int)
    ensures |CurrentOwners(db, parcel)| == 0 ==> pct == 0
    ensures |CurrentOwners(db, parcel)| > 0 ==> pct == CurrentOwners(db, parcel)[0].percentage
    ensures Valid(db) ==> 0 <= pct <= FullShare
  {
    var current := CurrentOwners(db, parcel);
    if |current| == 0 then 0
    else
      assert current[0] in db.records;
      current[0].percentage
  }

  // ------------------------------------------------------ writes

  /** A new profile for an existing account, sharing no key, account or
      national id with the others, keeps the registry valid. */
  lemma AppendProfileValid(db: Db, p: OwnerProfile)
    requires Valid(db) && HasUser(db.users, p.user)
    requires forall i | 0 <= i < |db.profiles| ::
      db.profiles[i].id != p.id && db.profiles[i].user != p.user && db.profiles[i].nationalId != p.nationalId
    ensures Valid(db.(profiles := db.profiles + [p]))
  {
    var db' := db.(profiles := db.profiles + [p]);
    var ps := db.profiles;
    assert db'.profiles == ps[..|ps|] + [p] + ps[|ps|..];
    PairwiseInsert(ps, |ps|, p, DistinctProfileIds);
    PairwiseInsert(ps, |ps|, p, DistinctProfileUsers);
    PairwiseInsert(ps, |ps|, p, DistinctNationalIds);
    forall id | HasProfile(ps, id)
      ensures HasProfile(db'.profiles, id)
    {
      var j :| 0 <= j < |ps| && ps[j].id == id;
      assert db'.profiles[j].id == id;
    }
    forall i | 0 <= i < |db.records|
      ensures RecordLinksValid(db', db.records[i])
    {
      assert RecordLinksValid(db, db.records[i]);
    }
  }

  /** Saving a new ownership record; the table stays in its default order. */
  function AddRecord(db: Db, r: OwnershipRecord): (db': Db)
    ensures db'.users == db.users && db'.profiles == db.profiles && db'.parcels == db.parcels
    ensures db'.documents == db.documents
    ensures multiset(db'.records) == multiset(db.records) + multiset{r}
  {
    db.(records := InsertDesc(db.records, r, AcquisitionDate))
  }

  lemma AddRecordValid(db: Db, r: OwnershipRecord)
    requires Valid(db)
    requires RecordFieldsValid(r) && RecordLinksValid(db, r) && !HasRecord(db.records, r.id)
    ensures Valid(AddRecord(db, r))
  {
    var db' := AddRecord(db, r);
    var k := InsertDescShape(db.records, r, AcquisitionDate);
    PairwiseInsert(db.records, k, r, DistinctRecordIds);
    InsertDescSorted(db.records, r, AcquisitionDate);
    forall i | 0 <= i < |db'.records|
      ensures RecordFieldsValid(db'.records[i]) && RecordLinksValid(db', db'.records[i])
    {
      assert db'.records[i] in multiset(db'.records);
      if db'.records[i] != r {
        assert db'.records[i] in db.records;
      }
    }
    forall i | 0 <= i < |db'.documents|
      ensures DocumentLinksValid(db', db'.documents[i])
    {
      var d := db.documents[i];
      if d.ownershipRecord.Some? {
        var j :| 0 <= j < |db.records| && db.records[j].id == d.ownershipRecord.value;
        assert db.records[j] in multiset(db'.records);
      }
    }
  }

  /** A document outlives a delete unless it hangs off a record the delete
      removed. */
  predicate RecordLinkSurvives(d: Document, records: seq<OwnershipRecord>) {
    d.ownershipRecord.None? || HasRecord(records, d.ownershipRecord.value)
  }

  /** Deleting a parcel: its records and every document attached to it or
      to one of its records go with it (`on_delete=CASCADE`). */
  function DeleteParcel(db: Db, parcel: nat): (db': Db)
    ensures db'.users == db.users && db'.profiles == db.profiles
    ensures db'.parcels == Filter(db.parcels, (p: Parcel) => p.parcelId != parcel)
    ensures db'.records == Filter(db.records, (r: OwnershipRecord) => r.parcel != parcel)
    ensures forall i | 0 <= i < |db'.documents| ::
      && db'.documents[i] in db.documents
      && db'.documents[i].relatedParcel != Some(parcel)
      && RecordLinkSurvives(db'.documents[i], db'.records)
    ensures forall i | 0 <= i < |db.documents| ::
      db.documents[i].relatedParcel != Some(parcel) && RecordLinkSurvives(db.documents[i], db'.records) ==>
      db.documents[i] in db'.documents
  {
    var records' := Filter(db.records, (r: OwnershipRecord) => r.parcel != parcel);
    db.(parcels := Filter(db.parcels, (p: Parcel) => p.parcelId != parcel),
        records := records',
        documents := Filter(db.documents, (d: Document) =>
          d.relatedParcel != Some(parcel)
          && (d.ownershipRecord.None? || HasRecord(records', d.ownershipRecord.value))))
  }

  lemma DeleteParcelValid(db: Db, parcel: nat)
    requires Valid(db)
    ensures Valid(DeleteParcel(db, parcel))
    ensures !HasParcel(DeleteParcel(db, parcel).parcels, parcel)
  {
    var db' := DeleteParcel(db, parcel);
    var keepParcel := (p: Parcel) => p.parcelId != parcel;
    var keepRecord := (r: OwnershipRecord) => r.parcel != parcel;
    FilterPairwise(db.parcels, keepParcel, DistinctParcelIds);
    FilterPairwise(db.parcels, keepParcel, DistinctCadastral);
    FilterPairwise(db.parcels, keepParcel, DistinctRegistration);
    FilterPairwise(db.records, keepRecord, DistinctRecordIds);
    SortedRecordsPairwise(db.records);
    FilterPairwise(db.records, keepRecord, AcquiredNoEarlier);
    SortedRecordsPairwise(db'.records);
    FilterPairwise(db.documents, (d: Document) =>
          d.relatedParcel != Some(parcel)
          && (d.ownershipRecord.None? || HasRecord(db'.records, d.ownershipRecord.value)),
      DistinctDocumentIds);
    forall i | 0 <= i < |db'.parcels|
      ensures ParcelChoicesValid(db'.parcels[i])
    {
      assert db'.parcels[i] in db.parcels;
    }
    /* A parcel other than the deleted one survives the delete. */
    forall id | id != parcel && HasParcel(db.parcels, id)
      ensures HasParcel(db'.parcels, id)
    {
      var j :| 0 <= j < |db.parcels| && db.parcels[j].parcelId == id;
      assert db.parcels[j] in db'.parcels;
    }
    forall i | 0 <= i < |db'.records|
      ensures RecordFieldsValid(db'.records[i]) && RecordLinksValid(db', db'.records[i])
    {
      assert db'.records[i] in db.records;
    }
    forall i | 0 <= i < |db'.documents|
      ensures DocumentLinksValid(db', db'.documents[i])
    {
      assert db'.documents[i] in db.documents;
    }
  }

  /** `on_delete=SET_NULL` on `transfer_to`. */
  function ClearTransferTo(r: OwnershipRecord, owner: nat): OwnershipRecord {
    if r.transferTo == Some(owner) then r.(transferTo := None) else r
  }

  /** Deleting an owner profile: its records go (and the documents attached
      to them); records transferred to it keep everything but `transfer_to`,
      which becomes null. */
  function DeleteProfile(db: Db, owner: nat): (db': Db)
    ensures db'.users == db.users && db'.parcels == db.parcels
    ensures db'.profiles == Filter(db.profiles, (p: OwnerProfile) => p.id != owner)
    ensures |db'.records| == |Filter(db.records, (r: OwnershipRecord) => r.owner != owner)|
    ensures forall i | 0 <= i < |db'.records| ::
      var r := Filter(db.records, (r: OwnershipRecord) => r.owner != owner)[i];
      && db'.records[i].transferTo == (if r.transferTo == Some(owner) then None else r.transferTo)
      && db'.records[i].(transferTo := r.transferTo) == r
    ensures forall i | 0 <= i < |db'.documents| ::
      db'.documents[i] in db.documents && RecordLinkSurvives(db'.documents[i], db'.records)
    ensures forall i | 0 <= i < |db.documents| ::
      RecordLinkSurvives(db.documents[i], db'.records) ==> db.documents[i] in db'.documents
  {
    var kept := Filter(db.records, (r: OwnershipRecord) => r.owner != owner);
    var records' := MapSeq(kept, (r: OwnershipRecord) => ClearTransferTo(r, owner));
    db.(profiles := Filter(db.profiles, (p: OwnerProfile) => p.id != owner),
        records := records',
        documents := Filter(db.documents, (d: Document) =>
          d.ownershipRecord.None? || HasRecord(records', d.ownershipRecord.value)))
  }

  lemma DeleteProfileValid(db: Db, owner: nat)
    requires Valid(db)
    ensures Valid(DeleteProfile(db, owner))
    ensures !HasProfile(DeleteProfile(db, owner).profiles, owner)
    ensures forall i | 0 <= i < |DeleteProfile(db, owner).records| ::
      var r := DeleteProfile(db, owner).records[i];
      r.owner != owner && r.transferTo != Some(owner)
  {
    DeleteProfileKeepsProfiles(db, owner);
    DeleteProfileKeepsRecords(db, owner);
    DeleteProfileKeepsDocuments(db, owner);
  }

  lemma DeleteProfileKeepsProfiles(db: Db, owner: nat)
    requires Valid(db)
    ensures ProfilesValid(DeleteProfile(db, owner))
    ensures forall id | id != owner && HasProfile(db.profiles, id) :: HasProfile(DeleteProfile(db, owner).profiles, id)
    ensures !HasProfile(DeleteProfile(db, owner).profiles, owner)
  {
    var db' := DeleteProfile(db, owner);
    var keepProfile := (p: OwnerProfile) => p.id != owner;
    FilterPairwise(db.profiles, keepProfile, DistinctProfileIds);
    FilterPairwise(db.profiles, keepProfile, DistinctProfileUsers);
    FilterPairwise(db.profiles, keepProfile, DistinctNationalIds);
    forall i | 0 <= i < |db'.profiles|
      ensures HasUser(db'.users, db'.profiles[i].user)
    {
      assert db'.profiles[i] in db.profiles;
    }
    forall id | id != owner && HasProfile(db.profiles, id)
      ensures HasProfile(db'.profiles, id)
    {
      var j :| 0 <= j < |db.profiles| && db.profiles[j].id == id;
      assert db.profiles[j] in db'.profiles;
    }
  }

  lemma DeleteProfileKeepsRecords(db: Db, owner: nat)
    requires Valid(db)
    ensures RecordsValid(DeleteProfile(db, owner))
    ensures forall i | 0 <= i < |DeleteProfile(db, owner).records| ::
      var r := DeleteProfile(db, owner).records[i];
      r.owner != owner && r.transferTo != Some(owner)
  {
    var db' := DeleteProfile(db, owner);
    DeleteProfileKeepsProfiles(db, owner);
    DeleteProfileRecordOrder(db, owner);
    var kept := Filter(db.records, (r: OwnershipRecord) => r.owner != owner);
    forall i | 0 <= i < |db'.records|
      ensures RecordFieldsValid(db'.records[i]) && RecordLinksValid(db', db'.records[i])
      ensures db'.records[i].owner != owner && db'.records[i].transferTo != Some(owner)
    {
      assert kept[i] in db.records;
      KeptRecordValid(db, db', owner, kept[i], db'.records[i]);
    }
  }

  lemma DeleteProfileRecordOrder(db: Db, owner: nat)
    requires Pairwise(db.records, DistinctRecordIds) && SortedDesc(db.records, AcquisitionDate)
    ensures Pairwise(DeleteProfile(db, owner).records, DistinctRecordIds)
    ensures SortedDesc(DeleteProfile(db, owner).records, AcquisitionDate)
  {
    var db' := DeleteProfile(db, owner);
    var keepRecord := (r: OwnershipRecord) => r.owner != owner;
    var kept := Filter(db.records, keepRecord);
    FilterPairwise(db.records, keepRecord, DistinctRecordIds);
    SortedRecordsPairwise(db.records);
    FilterPairwise(db.records, keepRecord, AcquiredNoEarlier);
    SortedRecordsPairwise(kept);
    assert forall i | 0 <= i < |kept| ::
      db'.records[i].id == kept[i].id && db'.records[i].acquisitionDate == kept[i].acquisitionDate;
    SameKeysSameOrder(kept, db'.records);
  }

  /** One surviving record of `DeleteProfile`: it loses only a `transfer_to`
      that named the deleted owner, so its other links still resolve. */
  lemma KeptRecordValid(db: Db, db': Db, owner: nat, r: OwnershipRecord, r': OwnershipRecord)
    requires RecordFieldsValid(r) && RecordLinksValid(db, r) && r.owner != owner
    requires db'.users == db.users && db'.parcels == db.parcels
    requires forall id | id != owner && HasProfile(db.profiles, id) :: HasProfile(db'.profiles, id)
    requires r'.transferTo == (if r.transferTo == Some(owner) then None else r.transferTo)
    requires r'.(transferTo := r.transferTo) == r
    ensures RecordFieldsValid(r') && RecordLinksValid(db', r')
    ensures r'.owner != owner && r'.transferTo != Some(owner)
  {
    assert r'.owner == r.owner && r'.parcel == r.parcel && r'.transferType == r.transferType;
  }

  lemma DeleteProfileKeepsDocuments(db: Db, owner: nat)
    requires Valid(db)
    ensures DocumentsValid(DeleteProfile(db, owner))
  {
    var db' := DeleteProfile(db, owner);
    FilterPairwise(db.documents, (d: Document) =>
          d.ownershipRecord.None? || HasRecord(db'.records, d.ownershipRecord.value),
      DistinctDocumentIds);
    forall i | 0 <= i < |db'.documents|
      ensures DocumentLinksValid(db', db'.documents[i])
    {
      assert db'.documents[i] in db.documents;
    }
  }

  /** `on_delete=SET_NULL` on the record's `verified_by` and `created_by`. */
  function ClearRecordUser(r: OwnershipRecord, user: nat): OwnershipRecord {
    r.(verifiedBy := if r.verifiedBy == Some(user) then None else r.verifiedBy,
       createdBy := if r.createdBy == Some(user) then None else r.createdBy)
  }

  /** `on_delete=SET_NULL` on the document's `uploaded_by` and `verified_by`. */
  function ClearDocumentUser(d: Document, user: nat): Document {
    d.(uploadedBy := if d.uploadedBy == Some(user) then None else d.uploadedBy,
       verifiedBy := if d.verifiedBy == Some(user) then None else d.verifiedBy)
  }

  /** `after` is `before` with its verifier and creator links to `user`
      set to null, and nothing else changed. */
  predicate RecordUserNulled(before: OwnershipRecord, after: OwnershipRecord, user: nat) {
    && after.(verifiedBy := before.verifiedBy, createdBy := before.createdBy) == before
    && after.verifiedBy == (if before.verifiedBy == Some(user) then None else before.verifiedBy)
    && after.createdBy == (if before.createdBy == Some(user) then None else before.createdBy)
  }

  /** `after` is `before` with its uploader and verifier links to `user`
      set to null, and nothing else changed. */
  predicate DocumentUserNulled(before: Document, after: Document, user: nat) {
    && after.(uploadedBy := before.uploadedBy, verifiedBy := before.verifiedBy) == before
    && after.uploadedBy == (if before.uploadedBy == Some(user) then None else before.uploadedBy)
    && after.verifiedBy == (if before.verifiedBy == Some(user) then None else before.verifiedBy)
  }

  predicate DistinctUserIds(a: User, b: User) { a.id != b.id }
  predicate DistinctUsernames(a: User, b: User) { a.username != b.username }

  /** The cascade from an account to its owner profile. */
  function DropProfileOf(db: Db, user: nat): Db {
    match ProfileOfUser(db.profiles, user)
    case Some(p) => DeleteProfile(db, p.id)
    case None => db
  }

  lemma DropProfileOfValid(db: Db, user: nat)
    requires Valid(db)
    ensures Valid(DropProfileOf(db, user))
    ensures DropProfileOf(db, user).users == db.users && DropProfileOf(db, user).parcels == db.parcels
    ensures forall i | 0 <= i < |DropProfileOf(db, user).profiles| :: DropProfileOf(db, user).profiles[i].user != user
  {
    var db1 := DropProfileOf(db, user);
    match ProfileOfUser(db.profiles, user)
    case None =>
    case Some(p) =>
      DeleteProfileValid(db, p.id);
      forall i | 0 <= i < |db1.profiles|
        ensures db1.profiles[i].user != user
      {
        var q := db1.profiles[i];
        assert q in db.profiles && q.id != p.id;
        var a :| 0 <= a < |db.profiles| && db.profiles[a] == q;
        var b :| 0 <= b < |db.profiles| && db.profiles[b] == p;
        assert a != b;
        if a < b {
          assert DistinctProfileUsers(db.profiles[a], db.profiles[b]);
        } else {
          assert DistinctProfileUsers(db.profiles[b], db.profiles[a]);
        }
      }
  }

  /** Deleting an account: its owner profile goes with it (with everything
      that deleting the profile removes), and the records and documents it
      verified, created or uploaded keep everything but that link, which
      becomes null. */
  function DeleteUser(db: Db, user: nat): (db': Db)
    ensures db'.users == Filter(db.users, (u: User) => u.id != user)
    ensures db'.parcels == db.parcels
    ensures ProfileOfUser(db.profiles, user).None? ==>
      db'.profiles == db.profiles && |db'.records| == |db.records| && |db'.documents| == |db.documents|
    ensures ProfileOfUser(db.profiles, user).Some? ==>
      db'.profiles == DeleteProfile(db, ProfileOfUser(db.profiles, user).value.id).profiles
    ensures forall i | 0 <= i < |db'.records| ::
      db'.records[i].verifiedBy != Some(user) && db'.records[i].createdBy != Some(user)
    ensures forall i | 0 <= i < |db'.documents| ::
      db'.documents[i].uploadedBy != Some(user) && db'.documents[i].verifiedBy != Some(user)
    ensures ProfileOfUser(db.profiles, user).None? ==> DropProfileOf(db, user) == db
    ensures var src := DropProfileOf(db, user);
      && |db'.records| == |src.records|
      && (forall i | 0 <= i < |src.records| :: RecordUserNulled(src.records[i], db'.records[i], user))
      && |db'.documents| == |src.documents|
      && (forall i | 0 <= i < |src.documents| :: DocumentUserNulled(src.documents[i], db'.documents[i], user))
  {
    var db1 := DropProfileOf(db, user);
    db1.(users := Filter(db.users, (u: User) => u.id != user),
         records := MapSeq(db1.records, (r: OwnershipRecord) => ClearRecordUser(r, user)),
         documents := MapSeq(db1.documents, (d: Document) => ClearDocumentUser(d, user)))
  }

  lemma DeleteUserValid(db: Db, user: nat)
    requires Valid(db)
    ensures Valid(DeleteUser(db, user))
    ensures !HasUser(DeleteUser(db, user).users, user)
    ensures forall i | 0 <= i < |DeleteUser(db, user).profiles| :: DeleteUser(db, user).profiles[i].user != user
  {
    var db' := DeleteUser(db, user);
    DropProfileOfValid(db, user);
    DeleteUserKeepsUsers(db, user);
    DeleteUserKeepsRecords(db, user);
    DeleteUserKeepsDocuments(db, user);
    forall i | 0 <= i < |db'.profiles|
      ensures HasUser(db'.users, db'.profiles[i].user)
    {
      DeleteUserKeepsOthers(db, user, db'.profiles[i].user);
    }
  }

  /** Every other account survives. */
  lemma DeleteUserKeepsOthers(db: Db, user: nat, id: nat)
    requires HasUser(db.users, id) && id != user
    ensures HasUser(DeleteUser(db, user).users, id)
  {
    var j :| 0 <= j < |db.users| && db.users[j].id == id;
    assert db.users[j] in DeleteUser(db, user).users;
  }

  /** A record stays well linked when its links to the deleted account
      are cleared, if every other account survives. */
  lemma ClearRecordUserLinks(db: Db, db': Db, r: OwnershipRecord, user: nat)
    requires RecordLinksValid(db, r)
    requires db'.parcels == db.parcels && db'.profiles == db.profiles
    requires forall id | id != user && HasUser(db.users, id) :: HasUser(db'.users, id)
    ensures RecordLinksValid(db', ClearRecordUser(r, user))
  {
  }

  lemma ClearDocumentUserLinks(db: Db, db': Db, d: Document, user: nat)
    requires DocumentLinksValid(db, d)
    requires db'.parcels == db.parcels
    requires forall id | HasRecord(db.records, id) :: HasRecord(db'.records, id)
    requires forall id | id != user && HasUser(db.users, id) :: HasUser(db'.users, id)
    ensures DocumentLinksValid(db', ClearDocumentUser(d, user))
  {
  }

  lemma DeleteUserKeepsRecords(db: Db, user: nat)
    requires Valid(db)
    ensures RecordsValid(DeleteUser(db, user))
    ensures forall id | HasRecord(DropProfileOf(db, user).records, id) :: HasRecord(DeleteUser(db, user).records, id)
  {
    var db' := DeleteUser(db, user);
    var db1 := DropProfileOf(db, user);
    DropProfileOfValid(db, user);
    DeleteUserRecordOrder(db, user);
    forall id | id != user && HasUser(db1.users, id)
      ensures HasUser(db'.users, id)
    {
      DeleteUserKeepsOthers(db, user, id);
    }
    forall i | 0 <= i < |db'.records|
      ensures RecordFieldsValid(db'.records[i]) && RecordLinksValid(db', db'.records[i])
    {
      ClearRecordUserLinks(db1, db', db1.records[i], user);
    }
  }

  /** Clearing links keeps record ids and dates, hence uniqueness and order. */
  lemma DeleteUserRecordOrder(db: Db, user: nat)
    requires Valid(db)
    ensures Pairwise(DeleteUser(db, user).records, DistinctRecordIds)
    ensures SortedDesc(DeleteUser(db, user).records, AcquisitionDate)
    ensures forall id | HasRecord(DropProfileOf(db, user).records, id) :: HasRecord(DeleteUser(db, user).records, id)
  {
    var db' := DeleteUser(db, user);
    var db1 := DropProfileOf(db, user);
    DropProfileOfValid(db, user);
    assert forall i | 0 <= i < |db1.records| ::
      db'.records[i].id == db1.records[i].id && db'.records[i].acquisitionDate == db1.records[i].acquisitionDate;
    SameKeysSameOrder(db1.records, db'.records);
  }

  /** Records that keep their keys and dates in place keep the order and
      the distinct keys. */
  lemma SameKeysSameOrder(a: seq<OwnershipRecord>, b: seq<OwnershipRecord>)
    requires |a| == |b|
    requires forall i | 0 <= i < |a| :: b[i].id == a[i].id && b[i].acquisitionDate == a[i].acquisitionDate
    requires Pairwise(a, DistinctRecordIds) && SortedDesc(a, AcquisitionDate)
    ensures Pairwise(b, DistinctRecordIds) && SortedDesc(b, AcquisitionDate)
    ensures forall id | HasRecord(a, id) :: HasRecord(b, id)
  {
    forall i, j | 0 <= i < j < |b|
      ensures DistinctRecordIds(b[i], b[j]) && AcquisitionDate(b[i]) >= AcquisitionDate(b[j])
    {
      assert DistinctRecordIds(a[i], a[j]);
    }
    forall id | HasRecord(a, id)
      ensures HasRecord(b, id)
    {
      var j :| 0 <= j < |a| && a[j].id == id;
      assert b[j].id == id;
    }
  }

  lemma DeleteUserKeepsDocuments(db: Db, user: nat)
    requires Valid(db)
    ensures DocumentsValid(DeleteUser(db, user))
  {
    var db' := DeleteUser(db, user);
    var db1 := DropProfileOf(db, user);
    DropProfileOfValid(db, user);
    DeleteUserRecordOrder(db, user);
    assert forall i | 0 <= i < |db1.documents| :: db'.documents[i].id == db1.documents[i].id;
    forall id | id != user && HasUser(db1.users, id)
      ensures HasUser(db'.users, id)
    {
      DeleteUserKeepsOthers(db, user, id);
    }
    forall i | 0 <= i < |db'.documents|
      ensures DocumentLinksValid(db', db'.documents[i])
    {
      ClearDocumentUserLinks(db1, db', db1.documents[i], user);
    }
  }

  lemma DeleteUserKeepsUsers(db: Db, user: nat)
    requires Valid(db)
    ensures UsersValid(DeleteUser(db, user))
    ensures !HasUser(DeleteUser(db, user).users, user)
  {
    var keep := (u: User) => u.id != user;
    assert Pairwise(db.users, DistinctUserIds) && Pairwise(db.users, DistinctUsernames);
    FilterPairwise(db.users, keep, DistinctUserIds);
    FilterPairwise(db.users, keep, DistinctUsernames);
  }
}

=== FILE: session.dfy ===
/** The signed-in user as the front end's authentication context holds
    it: nobody, or an account with its id, name and role. */
module Session {

  datatype Session = NoUser | LoggedIn(id: int, username: string, role: string)

  /** `user?.role || ""`: the role, or the empty text without a user. */
  function RoleOf(s: Session): (role: string)
    ensures s.NoUser? ==> role == ""
    ensures s.LoggedIn? ==> role == s.role
  {
    if s.NoUser? then "" else s.role
  }

  /** `user?.role === role`. */
  predicate IsRole(s: Session, role: string) {
    s.LoggedIn? && s.role == role
  }

  /** `user?.role === "admin" || user?.role === "officer"`. */
  predicate IsStaff(s: Session) {
    IsRole(s, "admin") || IsRole(s, "officer")
  }
}

=== FILE: sidebar.dfy ===
/** The navigation sidebar: which links each role sees, which are
    highlighted for the current path, and the collapsed state it keeps in
    local storage. */
module Sidebar {
  import opened Base
  import Text
  import Session
  import Accounts

  datatype NavLink = NavLink(to: string, name: string, roles: seq<string>)

  /** The links in display order, each with the roles that see it. */
  const Links: seq<NavLink> := [
    NavLink("/", "Dashboard", ["officer", "admin", "owner"]),
    NavLink("/land/create", "Land Parcels", ["officer", "admin"]),
    NavLink("/applications", "Applications", ["citizen", "officer", "admin"]),
    NavLink("/ownersearch", "Search Owners", ["admin", "officer"]),
    NavLink("/register-owner", "Register Owner", ["admin", "officer"]),
    NavLink("/register", "Register Citizen", ["admin"]),
    NavLink("/owner", "My Land", ["owner"]),
    NavLink("/owners", "My Profile", ["owner"])
  ]

  /** `link.roles.includes(role)`. */
  function SeenBy(role: string): NavLink -> bool {
    (l: NavLink) => role in l.roles
  }

  /** `links.filter(link => link.roles.includes(user?.role || ""))`. */
  function VisibleLinks(s: Session.Session): (r: seq<NavLink>)
    ensures forall i | 0 <= i < |r| :: r[i] in Links && Session.RoleOf(s) in r[i].roles
    ensures forall i | 0 <= i < |Links| :: Session.RoleOf(s) in Links[i].roles ==> Links[i] in r
  {
    Filter(Links, SeenBy(Session.RoleOf(s)))
  }

  function To(l: NavLink): string { l.to }

  /** The targets of the links a user sees, in display order. */
  function VisibleTargets(s: Session.Session): seq<string> {
    MapSeq(VisibleLinks(s), To)
  }

  /** The targets from position `k` on of the links a role sees. */
  function TargetsFrom(ls: seq<NavLink>, role: string, k: nat): seq<string>
    decreases |ls| - k
  {
    if k >= |ls| then [] else (if role in ls[k].roles then [ls[k].to] else []) + TargetsFrom(ls, role, k + 1)
  }

  lemma {:induction false} TargetsFromFilter(ls: seq<NavLink>, role: string, k: nat)
    requires k <= |ls|
    ensures MapSeq(Filter(ls[k..], SeenBy(role)), To) == TargetsFrom(ls, role, k)
    decreases |ls| - k
  {
    if k < |ls| {
      TargetsFromFilter(ls, role, k + 1);
      var xs := ls[k..];
      assert xs[0] == ls[k] && xs[1..] == ls[k + 1..];
      var rest := Filter(ls[k + 1..], SeenBy(role));
      var head := if role in ls[k].roles then [ls[k]] else [];
      assert SeenBy(role)(ls[k]) == (role in ls[k].roles);
      assert Filter(xs, SeenBy(role)) == head + rest;
      MapSeqAppend(head, rest, To);
      assert MapSeq(head, To) == if role in ls[k].roles then [ls[k].to] else [];
    }
  }

  lemma VisibleTargetsFrom(s: Session.Session)
    ensures VisibleTargets(s) == TargetsFrom(Links, Session.RoleOf(s), 0)
  {
    TargetsFromFilter(Links, Session.RoleOf(s), 0);
    assert Links[0..] == Links;
  }

  lemma OwnerTargets()
    ensures TargetsFrom(Links, Accounts.OWNER, 0) == ["/", "/owner", "/owners"]
  {
    assert TargetsFrom(Links, Accounts.OWNER, 7) == ["/owners"];
    assert TargetsFrom(Links, Accounts.OWNER, 6) == ["/owner", "/owners"];
    assert TargetsFrom(Links, Accounts.OWNER, 5) == ["/owner", "/owners"];
    assert TargetsFrom(Links, Accounts.OWNER, 4) == ["/owner", "/owners"];
    assert TargetsFrom(Links, Accounts.OWNER, 3) == ["/owner", "/owners"];
    assert TargetsFrom(Links, Accounts.OWNER, 2) == ["/owner", "/owners"];
    assert TargetsFrom(Links, Accounts.OWNER, 1) == ["/owner", "/owners"];
  }

  const OfficerTargets := ["/", "/land/create", "/applications", "/ownersearch", "/register-owner"]

  lemma OfficerLinkTargets()
    ensures TargetsFrom(Links, Accounts.OFFICER, 0) == OfficerTargets
  {
    assert TargetsFrom(Links, Accounts.OFFICER, 6) == [];
    assert TargetsFrom(Links, Accounts.OFFICER, 5) == [];
    assert TargetsFrom(Links, Accounts.OFFICER, 4) == ["/register-owner"];
    assert TargetsFrom(Links, Accounts.OFFICER, 3) == ["/ownersearch", "/register-owner"];
    assert TargetsFrom(Links, Accounts.OFFICER, 2) == ["/applications", "/ownersearch", "/register-owner"];
    assert TargetsFrom(Links, Accounts.OFFICER, 1) == OfficerTargets[1..];
  }

  lemma AdminLinkTargets()
    ensures TargetsFrom(Links, Accounts.ADMIN, 0) == OfficerTargets + ["/register"]
  {
    assert TargetsFrom(Links, Accounts.ADMIN, 6) == [];
    assert TargetsFrom(Links, Accounts.ADMIN, 5) == ["/register"];
    assert TargetsFrom(Links, Accounts.ADMIN, 4) == ["/register-owner", "/register"];
    assert TargetsFrom(Links, Accounts.ADMIN, 3) == ["/ownersearch", "/register-owner", "/register"];
    assert TargetsFrom(Links, Accounts.ADMIN, 2) == ["/applications", "/ownersearch", "/register-owner", "/register"];
    assert TargetsFrom(Links, Accounts.ADMIN, 1) == OfficerTargets[1..] + ["/register"];
  }

  /** What each role sees: an owner the dashboard, its land and its
      profile; an officer the dashboard and the four registry pages; an
      admin those and the sign-up page; nobody signed in, nothing. */
  lemma LinksByRole(s: Session.Session)
    ensures Session.IsRole(s, Accounts.OWNER) ==> VisibleTargets(s) == ["/", "/owner", "/owners"]
    ensures Session.IsRole(s, Accounts.OFFICER) ==> VisibleTargets(s) == OfficerTargets
    ensures Session.IsRole(s, Accounts.ADMIN) ==> VisibleTargets(s) == OfficerTargets + ["/register"]
    ensures s.NoUser? ==> VisibleLinks(s) == []
  {
    VisibleTargetsFrom(s);
    OwnerTargets();
    OfficerLinkTargets();
    AdminLinkTargets();
    if s.NoUser? {
      FilterNone(Links, SeenBy(""));
    }
  }

  /** `loc.pathname.startsWith(link.to)`. */
  predicate Highlighted(path: string, l: NavLink) {
    Text.StartsWith(path, l.to)
  }

  /** The dashboard link's target `/` starts every path, so it is
      highlighted on every page; likewise "My Land" on every page under
      `/owners`. */
  lemma PrefixHighlights(path: string, rest: string)
    requires |path| > 0 && path[0] == '/'
    ensures Highlighted(path, Links[0])
    ensures Highlighted("/owners" + rest, Links[6])
  {
    assert ("/owners" + rest)[..6] == "/owner";
  }

  // ------------------------------------------------------ collapsing

  const StorageKey := "sidebar_collapsed"

  /** The state read at start: collapsed exactly when the stored value is
      `"1"`; nothing stored, or storage that cannot be read, means
      expanded. */
  function InitialCollapsed(stored: Option<string>): (collapsed: bool)
    ensures collapsed <==> stored == Some("1")
  {
    stored.Some? && stored.value == "1"
  }

  /** The toggle button: flip the state and store the new one. */
  function Toggle(collapsed: bool): (r: (bool, string))
    ensures r.0 == !collapsed
    ensures r.1 in {"0", "1"} && (r.1 == "1" <==> r.0)
  {
    (!collapsed, if collapsed then "0" else "1")
  }

  /** What a toggle stores is read back as the state it set, and two
      toggles restore the state. */
  lemma ToggleSurvivesReload(collapsed: bool)
    ensures InitialCollapsed(Some(Toggle(collapsed).1)) == Toggle(collapsed).0
    ensures Toggle(Toggle(collapsed).0).0 == collapsed
  {
  }
}

=== FILE: text.dfy ===
/** The string operations the front end and the serializers rely on:
    JavaScript's `trim`, `toLowerCase`, `includes`, `startsWith`,
    `parseInt` and number-to-string conversion, and Python's
    `" ".join(...)` and `split('/')[-1]`. */
module Text {
  import opened Base

  /** The characters `String.prototype.trim` removes (white space and line
      terminators). */
  predicate IsSpace(c: char) {
    || c == ' ' || c == '\t' || c == '\n' || c == '\r'
    || c == '\U{B}' || c == '\U{C}' || c == '\U{A0}' || c == '\U{1680}'
    || ('\U{2000}' <= c <= '\U{200A}')
    || c == '\U{2028}' || c == '\U{2029}' || c == '\U{202F}' || c == '\U{205F}'
    || c == '\U{3000}' || c == '\U{FEFF}'
  }

  /** Every character is white space (the empty string included). */
  predicate IsBlank(s: string) {
    forall i | 0 <= i < |s| :: IsSpace(s[i])
  }

  function TrimStart(s: string): (r: string)
    ensures |r| <= |s|
    ensures r == s[|s| - |r|..]
    ensures |r| > 0 ==> !IsSpace(r[0])
    ensures forall i | 0 <= i < |s| - |r| :: IsSpace(s[i])
  {
    if |s| > 0 && IsSpace(s[0]) then TrimStart(s[1..]) else s
  }

  function TrimEnd(s: string): (r: string)
    ensures |r| <= |s|
    ensures r == s[..|r|]
    ensures |r| > 0 ==> !IsSpace(r[|r| - 1])
    ensures forall i | |r| <= i < |s| :: IsSpace(s[i])
  {
    if |s| > 0 && IsSpace(s[|s| - 1]) then TrimEnd(s[..|s| - 1]) else s
  }

  /** `s.trim()`. */
  function Trim(s: string): string {
    TrimEnd(TrimStart(s))
  }

  /** `!s.trim()` holds exactly for the blank strings. */
  lemma TrimEmptyIffBlank(s: string)
    ensures Trim(s) == "" <==> IsBlank(s)
  {
  }

  function LowerChar(c: char): char {
    if 'A' <= c <= 'Z' then (c as int + 32) as char else c
  }

  /** `s.toLowerCase()` on the ASCII letters. */
  function ToLower(s: string): (r: string)
    ensures |r| == |s|
    ensures forall i | 0 <= i < |s| :: r[i] == LowerChar(s[i])
  {
    seq(|s|, i requires 0 <= i < |s| => LowerChar(s[i]))
  }

  /** `hay.includes(needle)`. */
  predicate Contains(hay: string, needle: string) {
    exists i | 0 <= i <= |hay| - |needle| :: OccursAt(hay, needle, i)
  }

  predicate OccursAt(hay: string, needle: string, i: int)
    requires 0 <= i <= |hay| - |needle|
  {
    hay[i..i + |needle|] == needle
  }

  /** `s.startsWith(prefix)`. */
  predicate StartsWith(s: string, prefix: string) {
    |prefix| <= |s| && s[..|prefix|] == prefix
  }

  /** The characters of the pattern `[a-zA-Z0-9_]`. */
  predicate IsWordChar(c: char) {
    ('a' <= c <= 'z') || ('A' <= c <= 'Z') || ('0' <= c <= '9') || c == '_'
  }

  predicate IsDigit(c: char) {
    '0' <= c <= '9'
  }

  function DigitChar(d: nat): (c: char)
    requires d < 10
    ensures IsDigit(c)
  {
    ('0' as int + d) as char
  }

  function DigitValue(c: char): (d: nat)
    requires IsDigit(c)
    ensures d < 10
  {
    c as int - '0' as int
  }

  /** The decimal numeral of a natural number, as `n.toString()` and
      `str(n)` write it. */
  function NatToDecimal(n: nat): (r: string)
    ensures |r| >= 1
    ensures forall i | 0 <= i < |r| :: IsDigit(r[i])
    decreases n
  {
    if n < 10 then [DigitChar(n)] else NatToDecimal(n / 10) + [DigitChar(n % 10)]
  }

  /** `n.toString()` for an integer. */
  function IntToString(n: int): string {
    if n < 0 then "-" + NatToDecimal(-n) else NatToDecimal(n)
  }

  /** The value of a string of decimal digits, most significant first. */
  function DigitsValue(s: string): nat
    requires forall i | 0 <= i < |s| :: IsDigit(s[i])
  {
    if |s| == 0 then 0 else DigitsValue(s[..|s| - 1]) * 10 + DigitValue(s[|s| - 1])
  }

  lemma {:induction false} DigitsValueOfDecimal(n: nat)
    ensures DigitsValue(NatToDecimal(n)) == n
    decreases n
  {
    if n >= 10 {
      var s := NatToDecimal(n);
      assert s[..|s| - 1] == NatToDecimal(n / 10);
      DigitsValueOfDecimal(n / 10);
    }
  }

  /** The number of leading decimal digits. */
  function DigitRun(s: string): (k: nat)
    ensures k <= |s|
    ensures forall i | 0 <= i < k :: IsDigit(s[i])
    ensures k < |s| ==> !IsDigit(s[k])
  {
    if |s| > 0 && IsDigit(s[0]) then 1 + DigitRun(s[1..]) else 0
  }

  /** `parseInt(s)` in base 10: leading white space is skipped, one sign
      is read, then as many digits as follow; `None` stands for `NaN`
      (no digit at all). */
  function ParseInt(s: string): Option<int> {
    var t := TrimStart(s);
    var negative := |t| > 0 && t[0] == '-';
    var body := if |t| > 0 && (t[0] == '-' || t[0] == '+') then t[1..] else t;
    var k := DigitRun(body);
    if k == 0 then None
    else
      var v: int := DigitsValue(body[..k]);
      Some(if negative then -v else v)
  }

  /** Writing a natural number and parsing it back gives the number. */
  lemma ParseIntOfDecimal(n: nat)
    ensures ParseInt(NatToDecimal(n)) == Some(n)
  {
    var s := NatToDecimal(n);
    assert !IsSpace(s[0]);
    assert TrimStart(s) == s;
    assert s[0] != '-' && s[0] != '+';
    DigitRunAllDigits(s);
    assert s[..|s|] == s;
    DigitsValueOfDecimal(n);
  }

  lemma {:induction false} DigitRunAllDigits(s: string)
    requires forall i | 0 <= i < |s| :: IsDigit(s[i])
    ensures DigitRun(s) == |s|
  {
    if |s| > 0 {
      DigitRunAllDigits(s[1..]);
    }
  }

  /** `sep.join(parts)` in Python. */
  function Join(parts: seq<string>, sep: string): string {
    if |parts| == 0 then ""
    else if |parts| == 1 then parts[0]
    else parts[0] + sep + Join(parts[1..], sep)
  }

  lemma JoinTwo(a: string, b: string, sep: string)
    ensures Join([a, b], sep) == a + sep + b
  {
    assert [a, b][1..] == [b];
  }

  lemma JoinThree(a: string, b: string, c: string, sep: string)
    ensures Join([a, b, c], sep) == a + sep + b + sep + c
  {
    assert [a, b, c][1..] == [b, c];
    JoinTwo(b, c, sep);
    assert a + sep + (b + sep + c) == a + sep + b + sep + c;
  }

  /** `s.split('/')[-1]` in Python: the text after the last slash, or the
      whole string when there is none. */
  function AfterLastSlash(s: string): (r: string)
    ensures |r| <= |s|
    ensures r == s[|s| - |r|..]
    ensures forall i | 0 <= i < |r| :: r[i] != '/'
    ensures |r| < |s| ==> s[|s| - |r| - 1] == '/'
  {
    if |s| == 0 then ""
    else if s[|s| - 1] == '/' then ""
    else AfterLastSlash(s[..|s| - 1]) + [s[|s| - 1]]
  }
}

=== FILE: users_page.dfy ===
/** The administrators' user list page: who may open it, what it loads,
    the three filters over the loaded accounts and the role counts. */
module UsersPage {
  import opened Base
  import Js
  import Text
  import Client
  import Session
  import Accounts
  import Registry
  import Http
  import AccountViews

  // ------------------------------------------------------------ loading

  /** What opening the page leads to. */
  datatype Load =
    | Redirect(to: string)
    | Loaded(users: Js.Value)
    | LoadFailed(message: string)

  /** The effect that fetches `/users/`: anyone but an `admin` is sent to
      `/`; an answer is shown as it is, a failure as a fixed text. */
  function LoadPage(s: Session.Session, reply: Client.Reply): (o: Load)
    ensures o.Redirect? <==> !Session.IsRole(s, Accounts.ADMIN)
    ensures o.Redirect? ==> o.to == "/"
    ensures o.Loaded? <==> Session.IsRole(s, Accounts.ADMIN) && reply.Ok?
    ensures o.Loaded? ==> o.users == reply.data
    ensures o.LoadFailed? ==> o.message == "Failed to load users"
  {
    if !Session.IsRole(s, Accounts.ADMIN) then Redirect("/")
    else if reply.Ok? then Loaded(reply.data)
    else LoadFailed("Failed to load users")
  }

  /** `UserSerializer`: the id, the username and the role. */
  function UserJson(u: Accounts.User): (v: Js.Value)
    ensures v.Obj?
  {
    Js.Obj([("id", Js.Num(u.id)), ("username", Js.Str(u.username)), ("role", Js.Str(u.role))])
  }

  lemma UserJsonFields(u: Accounts.User)
    ensures Js.Get(UserJson(u), "username") == Js.Str(u.username)
    ensures Js.Get(UserJson(u), "role") == Js.Str(u.role)
    ensures Js.Get(UserJson(u), "is_active") == Js.Undefined
  {
    var e := UserJson(u).entries;
    assert "username"[0] != "id"[0];
    Js.LookupAt(e, "username", 1);
    assert "role"[0] != "id"[0] && "role"[0] != "username"[0];
    Js.LookupAt(e, "role", 2);
    assert "is_active"[1] != "id"[1];
    assert "is_active"[0] != "username"[0] && "is_active"[0] != "role"[0];
    assert !Js.HasKey(e, "is_active");
  }

  /** The body of the list answer. */
  function Listing(us: seq<Accounts.User>): (v: Js.Value)
    ensures v.Arr? && |v.items| == |us|
    ensures forall i | 0 <= i < |us| :: v.items[i] == UserJson(us[i])
  {
    Js.Arr(MapSeq(us, UserJson))
  }

  /** The server's answer as the page receives it. */
  function Received(r: Http.Reply<seq<Accounts.User>>): (c: Client.Reply)
    ensures r.Success? ==> c == Client.Ok(Listing(r.body))
    ensures r.Failure? ==> c.HttpError? && c.status == r.status
  {
    if r.Success? then Client.Ok(Listing(r.body))
    else Client.HttpError(r.status, Js.Obj([("detail", Js.Str(r.detail))]))
  }

  /** The page admits by role, the server by the staff flag: an `admin`
      account without the flag gets past the page and is refused by the
      list, so the page shows its failure text; with the flag it shows
      every account. */
  lemma AdminRoleAndStaffFlag(db: Registry.Db, u: Accounts.User, q: Http.Query)
    requires u.role == Accounts.ADMIN
    ensures var s := Session.LoggedIn(u.id, u.username, u.role);
      var o := LoadPage(s, Received(AccountViews.UserList(db, Accounts.SignedIn(u), q)));
      && (!u.isStaff ==> o == LoadFailed("Failed to load users"))
      && (u.isStaff && !Http.Given(q, "username") ==> o == Loaded(Listing(db.users)))
  {
  }

  // ------------------------------------------------------------ filters

  /** The search text and the role and status selections. */
  datatype Filters = Filters(search: string, role: string, status: string)

  const DefaultFilters := Filters("", "all", "all")

  /** A field as the search reads it. */
  function Field(o: Js.Value, key: string): string {
    Js.ToString(Js.Get(o, key))
  }

  /** The search text occurs, ignoring case, in the username or the
      role. */
  predicate MatchesSearch(o: Js.Value, term: string) {
    || Text.Contains(Text.ToLower(Field(o, "username")), Text.ToLower(term))
    || Text.Contains(Text.ToLower(Field(o, "role")), Text.ToLower(term))
  }

  predicate MatchesRole(o: Js.Value, role: string) {
    role == "all" || Js.Get(o, "role") == Js.Str(role)
  }

  /** `active` keeps the accounts whose `is_active` is truthy, `inactive`
      those whose is not; any other selection besides `all` keeps none. */
  predicate MatchesStatus(o: Js.Value, status: string) {
    || status == "all"
    || (status == "active" && Js.Truthy(Js.Get(o, "is_active")))
    || (status == "inactive" && !Js.Truthy(Js.Get(o, "is_active")))
  }

  predicate Shown(f: Filters, o: Js.Value) {
    MatchesSearch(o, f.search) && MatchesRole(o, f.role) && MatchesStatus(o, f.status)
  }

  /** `filteredUsers`: the loaded accounts passing all three tests, in
      their order. */
  function FilteredUsers(users: seq<Js.Value>, f: Filters): (r: seq<Js.Value>)
    ensures |r| <= |users|
    ensures forall i | 0 <= i < |r| :: r[i] in users && Shown(f, r[i])
    ensures forall i | 0 <= i < |users| :: Shown(f, users[i]) ==> users[i] in r
  {
    Filter(users, (o: Js.Value) => Shown(f, o))
  }

  /** Every text contains the empty text. */
  lemma ContainsEmpty(s: string)
    ensures Text.Contains(s, "")
  {
    assert Text.OccursAt(s, "", 0);
  }

  /** The page opens showing every loaded account. */
  lemma DefaultFiltersShowAll(users: seq<Js.Value>)
    ensures FilteredUsers(users, DefaultFilters) == users
  {
    forall i | 0 <= i < |users|
      ensures Shown(DefaultFilters, users[i])
    {
      ContainsEmpty(Text.ToLower(Field(users[i], "username")));
    }
    FilterKeepsAll(users, (o: Js.Value) => Shown(DefaultFilters, o));
  }

  lemma LowerCharTwice(c: char)
    ensures Text.LowerChar(Text.LowerChar(c)) == Text.LowerChar(c)
  {
  }

  /** Lower-casing twice is lower-casing once. */
  lemma ToLowerTwice(s: string)
    ensures Text.ToLower(Text.ToLower(s)) == Text.ToLower(s)
  {
    forall i | 0 <= i < |s|
      ensures Text.ToLower(Text.ToLower(s))[i] == Text.ToLower(s)[i]
    {
      LowerCharTwice(s[i]);
    }
  }

  /** The search ignores the case of what is typed. */
  lemma SearchIgnoresCase(o: Js.Value, term: string)
    ensures MatchesSearch(o, term) <==> MatchesSearch(o, Text.ToLower(term))
  {
    ToLowerTwice(term);
  }

  /** Without a search text or a role, the `active` and `inactive`
      selections split the accounts between them. */
  lemma StatusSelectionsSplit(users: seq<Js.Value>)
    ensures |FilteredUsers(users, Filters("", "all", "active"))|
      + |FilteredUsers(users, Filters("", "all", "inactive"))| == |users|
  {
    var active := (o: Js.Value) => Js.Truthy(Js.Get(o, "is_active"));
    var inactive := (o: Js.Value) => !Js.Truthy(Js.Get(o, "is_active"));
    forall i | 0 <= i < |users|
      ensures MatchesSearch(users[i], "")
    {
      ContainsEmpty(Text.ToLower(Field(users[i], "username")));
    }
    FilterSame(users, (o: Js.Value) => Shown(Filters("", "all", "active"), o), active);
    FilterSame(users, (o: Js.Value) => Shown(Filters("", "all", "inactive"), o), inactive);
    CountSplit(users, active, inactive);
  }

  // ------------------------------------------------------ role counts

  predicate HasRole(role: string, o: Js.Value) {
    Js.Get(o, "role") == Js.Str(role)
  }

  /** `users.filter(u => u.role === role).length`. */
  function RoleCount(users: seq<Js.Value>, role: string): (n: nat)
    ensures n <= |users|
  {
    Count(users, (o: Js.Value) => HasRole(role, o))
  }

  /** The count of a role in the loaded list is the number of accounts
      holding it. */
  lemma RoleCountOfListing(us: seq<Accounts.User>, role: string)
    ensures RoleCount(Listing(us).items, role) == Count(us, AccountViews.HasRoleChoice(role))
  {
    forall i | 0 <= i < |us|
      ensures AccountViews.HasRoleChoice(role)(us[i]) == HasRole(role, UserJson(us[i]))
    {
      UserJsonFields(us[i]);
    }
    FilterMapSeq(us, UserJson, (o: Js.Value) => HasRole(role, o), AccountViews.HasRoleChoice(role));
  }

  /** The owner, officer and admin cards add up to the total. */
  lemma RoleCardsAddUp(us: seq<Accounts.User>)
    requires forall i | 0 <= i < |us| :: us[i].role in Accounts.RoleChoices
    ensures RoleCount(Listing(us).items, Accounts.OWNER) + RoleCount(Listing(us).items, Accounts.OFFICER)
      + RoleCount(Listing(us).items, Accounts.ADMIN) == |Listing(us).items|
  {
    RoleCountOfListing(us, Accounts.OWNER);
    RoleCountOfListing(us, Accounts.OFFICER);
    RoleCountOfListing(us, Accounts.ADMIN);
    AccountViews.RoleCountsSum(us);
  }

  // ------------------------------------------------ the status filter

  /** The list answer carries no `is_active`, so the `active` selection
      hides every account and `inactive` hides none. */
  lemma StatusFilterAsWritten(us: seq<Accounts.User>, f: Filters)
    ensures f.status == "active" ==> FilteredUsers(Listing(us).items, f) == []
    ensures f.status == "inactive" ==>
      FilteredUsers(Listing(us).items, f) == FilteredUsers(Listing(us).items, f.(status := "all"))
  {
    var items := Listing(us).items;
    forall i | 0 <= i < |items|
      ensures Js.Get(items[i], "is_active") == Js.Undefined
    {
      UserJsonFields(us[i]);
    }
    if f.status == "active" {
      FilterNone(items, (o: Js.Value) => Shown(f, o));
    }
    if f.status == "inactive" {
      var all := f.(status := "all");
      FilterSame(items, (o: Js.Value) => Shown(f, o), (o: Js.Value) => Shown(all, o));
      assert FilteredUsers(items, all) == Filter(items, (o: Js.Value) => Shown(all, o));
    }
  }

  /** The list entry with the account's `is_active` flag added. */
  function UserJsonWithStatus(u: Accounts.User): (v: Js.Value)
    ensures Js.Get(v, "is_active") == Js.Bool(u.isActive)
  {
    var e := UserJson(u).entries + [("is_active", Js.Bool(u.isActive))];
    assert "is_active"[1] != "id"[1];
    assert "is_active"[0] != "username"[0] && "is_active"[0] != "role"[0];
    Js.LookupAt(e, "is_active", 3);
    Js.Obj(e)
  }

  function ListingWithStatus(us: seq<Accounts.User>): (v: Js.Value)
    ensures v.Arr? && |v.items| == |us|
    ensures forall i | 0 <= i < |us| :: v.items[i] == UserJsonWithStatus(us[i])
  {
    Js.Arr(MapSeq(us, UserJsonWithStatus))
  }

  /** With the flag in the answer the `active` selection shows exactly the
      active accounts and `inactive` exactly the others, in list order. */
  lemma StatusFilterWithFlag(us: seq<Accounts.User>)
    ensures FilteredUsers(ListingWithStatus(us).items, Filters("", "all", "active"))
      == MapSeq(Filter(us, (u: Accounts.User) => u.isActive), UserJsonWithStatus)
    ensures FilteredUsers(ListingWithStatus(us).items, Filters("", "all", "inactive"))
      == MapSeq(Filter(us, (u: Accounts.User) => !u.isActive), UserJsonWithStatus)
  {
    var items := ListingWithStatus(us).items;
    forall i | 0 <= i < |items|
      ensures MatchesSearch(items[i], "")
    {
      ContainsEmpty(Text.ToLower(Field(items[i], "username")));
    }
    FilterMapSeq(us, UserJsonWithStatus, (o: Js.Value) => Shown(Filters("", "all", "active"), o),
                 (u: Accounts.User) => u.isActive);
    FilterMapSeq(us, UserJsonWithStatus, (o: Js.Value) => Shown(Filters("", "all", "inactive"), o),
                 (u: Accounts.User) => !u.isActive);
  }
}
